=== FILE: README.md ===
# Intranet portal core, modelled in Dafny

This project models the business rules of the PFE intranet portal: chat, publications and accounts. Persistence, transport and the clock are replaced by explicit state and parameters. Every operation is a pure function from a `Store` to a `Result` (a value or an `Error`), or to a new store together with a log of emitted events.

Modules, following the source's structure:

- `Entities`: the rows of the database as datatypes, and the `Store` that holds one sequence per table plus the next identity key of each table. Tables are sequences because `FirstOrDefault` and ordering depend on row order.
- `ConnectionRegistry`: `UserConnectionManager`, a map from user to a non-empty, duplicate-free list of connection ids.
- `MessageRepository`, `ChatRepository`: the queries the chat rules depend on, as filters, stable newest-first sorts and `Skip`/`Take` slices.
- `ChatService`: participant-only access, per-viewer names of private chats, unread counts and last messages, reuse of private and department chats, participants and admins of group chats, read-marking.
- `ChatHub`: the SignalR hub as a state machine over the registry, a table from group name to connections, and the store. Each call returns the events it sends as (target, event name, payload) entries.
- `PublicationRepository`, `PublicationService`: automatic approval for heads of department, approval and rejection by a head of the author's department, the reaction toggle, and the views the service returns.
- `UserRepository`, `LoginUser`, `ResetPassword`, `RegisterUser`: user creation checks, the reset-token lifecycle, role and department administration, login, password reset and registration.
- `Wrappers`, `Sequences`, `Text`: `Option`/`Result`, sequence helpers (filter, stable sort, paging, first match), ASCII case folding, trimming, and decimal rendering and parsing of 32-bit integers.

Things outside the code become parameters:
- the clock is `now: int`, in seconds;
- password hashing is `hash: string -> string`;
- password checking is `verify: (hash, password) -> bool`;
- a failure of the hub's chat fetch or group join is a `Fault` value;
- the caller's identity is the list of claims on the connection.

The unique (chat, user) participant index of the database is kept as an invariant. Saving a chat whose participant list repeats a user fails. The foreign keys are modelled where the modelled deletes meet them:
- a restricting key refuses the delete;
- a cascading key removes the dependent rows;
- a set-null key clears the reference.

## Model

| member | source | states |
|---|---|---|
| ConnectionRegistry.RemoveFirst | PFE.Infrastructure/Services/ChatService.cs:46 | `List.Remove` drops one occurrence of the id and keeps every other id; an absent id leaves the list as it is |
| ConnectionRegistry.RemoveFirstNoDuplicates | PFE.Infrastructure/Services/ChatService.cs:46 | removing from a duplicate-free list keeps it duplicate-free and leaves the id absent |
| ConnectionRegistry.AddConnection | PFE.Infrastructure/Services/ChatService.cs:17-36 | a user without an entry gets `[connectionId]`; an id already listed changes nothing; a new id is appended at the end; other users' entries are untouched; every list stays non-empty and duplicate-free |
| ConnectionRegistry.RemoveConnection | PFE.Infrastructure/Services/ChatService.cs:38-55 | an unknown user is a no-op; otherwise only that id leaves the user's list, the key is dropped when the list empties, other users are untouched, and the invariant is kept |
| ConnectionRegistry.GetConnections | PFE.Infrastructure/Services/ChatService.cs:57-69 | the ids listed for the user, or the empty list for an unknown user |
| ConnectionRegistry.AddThenGet | PFE.Infrastructure/Services/ChatService.cs:17-69 | a connection just added is reported by `GetConnections` |
| ConnectionRegistry.AddIdempotent | PFE.Infrastructure/Services/ChatService.cs:29-32 | adding the same connection twice is adding it once |
| ConnectionRegistry.RemoveAbsentIsNoop | PFE.Infrastructure/Services/ChatService.cs:41-46 | removing an id the user does not have changes nothing |
| ConnectionRegistry.AddThenRemoveFreshUser | PFE.Infrastructure/Services/ChatService.cs:17-55 | adding then removing a connection of a user without an entry restores the map |
| ConnectionRegistry.AddThenRemoveFreshConnection | PFE.Infrastructure/Services/ChatService.cs:17-55 | adding then removing a new id of a known user restores the map |
| ConnectionRegistry.RemoveFirstAppended | PFE.Infrastructure/Services/ChatService.cs:31-46 | removing an id just appended to a list without it gives back the list |
| ConnectionRegistry.AddTwiceRemoveOnce | PFE.Infrastructure/Services/ChatService.cs:17-55 | because adding is idempotent, one removal after two adds leaves the connection gone |
| Text.ParseInt32 | PFE.Infrastructure/Chat/SignalR.cs:151 | `int.TryParse` with the default style: a value exactly when, after the surrounding white space, the text is an optional sign and one or more decimal digits whose value fits in 32 bits, and then that value; nothing for blank text |
| Text.ParseShowRoundTrip | PFE.Infrastructure/Chat/SignalR.cs:151 | every 32-bit id written in decimal is parsed back to itself |
| Text.Trim | PFE.Infrastructure/Repositories/PublicationRepository.cs:77 | the trimmed text is an infix of the input, everything cut off on either side is white space, and the result neither starts nor ends with white space |
| Sequences.Wrap32 | PFE.Infrastructure/Repositories/MessageRepository.cs:27 | the result of unchecked 32-bit arithmetic is a 32-bit integer and equals the mathematical value whenever that fits |
| Sequences.PageOffsetExact | PFE.Infrastructure/Repositories/MessageRepository.cs:27 | the skip count `(page - 1) * pageSize` wraps only when the product does not fit in 32 bits |
| MessageRepository.OfChat | PFE.Infrastructure/Repositories/MessageRepository.cs:25 | exactly the messages of the chat |
| MessageRepository.NewestFirst | PFE.Infrastructure/Repositories/MessageRepository.cs:25-26 | exactly the chat's messages, each as often as stored, ordered by `SentAt`, newest first |
| MessageRepository.PageStart | PFE.Infrastructure/Repositories/MessageRepository.cs:27 | the skip count `(page - 1) * pageSize`, computed with 32-bit wrap-around and forced into range as `Skip` does, lies within the list |
| MessageRepository.GetChatMessages | PFE.Infrastructure/Repositories/MessageRepository.cs:21-30 | the page is the run of the chat's newest-first messages that starts at the page start and holds exactly `pageSize` of them, or all that remain when fewer do (none when `pageSize` is negative); it holds only that chat's messages, newest first |
| MessageRepository.ConsecutivePages | PFE.Infrastructure/Repositories/MessageRepository.cs:27-28 | pages p and p+1 of size n together are the 2n messages starting at `(p - 1) * n` |
| MessageRepository.AddMessage | PFE.Infrastructure/Repositories/MessageRepository.cs:32-37 | the message is appended unchanged except for the key it receives, and nothing else changes |
| MessageRepository.AddMessageWellFormed | PFE.Infrastructure/Repositories/MessageRepository.cs:34-35 | appending keeps message keys distinct |
| MessageRepository.GetUnreadMessages | PFE.Infrastructure/Repositories/MessageRepository.cs:39-46 | exactly the unread messages of the chat sent by someone other than the user |
| MessageRepository.MarkAsRead | PFE.Infrastructure/Repositories/MessageRepository.cs:48-55 | every stored message among the given ones becomes read; all others are unchanged |
| MessageRepository.MarkAsReadIdempotent | PFE.Infrastructure/Repositories/MessageRepository.cs:50-53 | marking twice is marking once |
| MessageRepository.MarkUnreadClearsUnread | PFE.Infrastructure/Repositories/MessageRepository.cs:39-55 | after marking the unread messages, the unread query is empty |
| MessageRepository.FilterUnreadEmpty | PFE.Infrastructure/Repositories/MessageRepository.cs:41-45 | an empty unread query means no message of the chat is unread for the user |
| MessageRepository.MarkUnreadFrame | PFE.Infrastructure/Repositories/MessageRepository.cs:39-55 | with distinct keys, marking the unread messages changes exactly those |
| ChatRepository.GetChatById | PFE.Infrastructure/Repositories/ChatRepository.cs:21-30 | a chat with that key, or null exactly when no chat has it |
| ChatRepository.GetChatByIdFindsStored | PFE.Infrastructure/Repositories/ChatRepository.cs:21-30 | with distinct chat keys, looking up a stored chat's key returns that very chat |
| ChatRepository.LoadedMessages | PFE.Infrastructure/Repositories/ChatRepository.cs:27-38 | the filtered include loads the first n of the chat's messages newest first, and no more than the chat has |
| ChatRepository.LoadedHeadIsNewest | PFE.Infrastructure/Repositories/ChatRepository.cs:27-38 | a non-empty window is empty exactly when the chat has no message, and its head is the chat's newest message |
| ChatRepository.GetUserChats | PFE.Infrastructure/Repositories/ChatRepository.cs:32-43 | exactly the chats the user takes part in, ordered by last activity, newest first |
| ChatRepository.GetPrivateChatBetween | PFE.Infrastructure/Repositories/ChatRepository.cs:45-53 | a private chat containing both users, or null exactly when there is none |
| ChatRepository.PrivateChatBetweenSymmetric | PFE.Infrastructure/Repositories/ChatRepository.cs:49-51 | the lookup gives the same chat whichever user is named first |
| ChatRepository.PrivateChatWithSelf | PFE.Infrastructure/Repositories/ChatRepository.cs:49-51 | with both users the same, any private chat the user is in is found |
| ChatRepository.GroupChatsNotPrivate | PFE.Infrastructure/Repositories/ChatRepository.cs:49 | group chats are never found, whoever is in them |
| ChatRepository.GetDepartmentChat | PFE.Infrastructure/Repositories/ChatRepository.cs:55-61 | a group chat whose department is the given one (custom group chats included), or null exactly when there is none |
| ChatRepository.CreateChat | PFE.Infrastructure/Repositories/ChatRepository.cs:63-70 | a chat with a repeated participant is refused by the unique (chat, user) index; otherwise it is appended under the next chat key and nothing else changes |
| ChatRepository.CreateChatWellFormed | PFE.Infrastructure/Repositories/ChatRepository.cs:63-66 | saving keeps chat keys distinct and the participant index intact |
| ChatRepository.CreateChatReload | PFE.Infrastructure/Repositories/ChatRepository.cs:68-69 | reloading the saved chat by its key yields the chat returned |
| ChatService.MapMessageToDto | PFE.Application/Services/ChatService.cs:394-406 | the message's fields carried over, with the sender's name or "Unknown User" when the sender row is missing |
| ChatService.PrivateChatName | PFE.Application/Services/ChatService.cs:385-392 | the name of the first participant other than the viewer, or "Unknown User" when every participant is the viewer; a missing user row, which the source dereferences, also gives "Unknown User" (see Left out) |
| ChatService.PrivateChatNamesCross | PFE.Application/Services/ChatService.cs:385-392 | in a two-person private chat each side sees the other's name |
| ChatService.ParticipantDtos | PFE.Application/Services/ChatService.cs:51-57 | one row per participant, in order, with its key, join time, admin flag and the user's name; a missing user row, which the source dereferences, gives no name (see Left out) |
| ChatService.LastMessage | PFE.Application/Services/ChatService.cs:48-50 | null exactly when the chat has no message; otherwise a message of the chat with the greatest `SentAt` |
| ChatService.ToChatDto | PFE.Application/Services/ChatService.cs:36-101 | a private chat is named for the viewer and a group chat by its stored name; the unread count is the number of unread messages of the chat from others; the last message is the view of the chat's newest message, or null; the department name is the name of the chat's department, or null when there is none or it is not found; each participant keeps its key, admin flag and join time and shows its user's name |
| ChatService.GetUserChats | PFE.Application/Services/ChatService.cs:27-64 | one view per chat the user takes part in, most recent activity first |
| ChatService.UserChatsUnreadCounts | PFE.Application/Services/ChatService.cs:34-47 | every listed chat counts exactly the unread messages of that chat sent by others |
| ChatService.GetChatById | PFE.Application/Services/ChatService.cs:66-102 | null for an unknown chat; Unauthorized for a non-participant; for a participant, exactly the chat as the viewer sees it |
| ChatService.GetChatMessages | PFE.Application/Services/ChatService.cs:104-115 | Unauthorized for a missing chat as well as for a non-participant; otherwise one view per message of the repository's page, in the page's order, newest first, each the message's own view |
| ChatService.UpdateChatLastActivity | PFE.Application/Services/ChatService.cs:374-382 | a no-op for a missing chat; otherwise only the last-activity time of the chat the key finds changes |
| ChatService.FirstWhereAgreeUpTo | PFE.Application/Services/ChatService.cs:376-379 | touching a chat's last activity does not move the chat its key finds |
| ChatService.IndexOfFirstById | PFE.Application/Services/ChatService.cs:376-379 | key lookups agree on tables that differ only outside the keys |
| ChatService.AddMessage | PFE.Application/Services/ChatService.cs:117-141 | a missing chat or a non-participant sender is refused and nothing is stored; otherwise exactly one unread message with the given content, sender and chat is stored and the chat's last activity becomes `now` |
| ChatService.MarkMessagesAsRead | PFE.Application/Services/ChatService.cs:355-372 | Unauthorized for a non-participant; afterwards no message of the chat from others is unread, and with distinct keys the user's own messages and other chats' messages are unchanged |
| ChatService.CreateChatAppends | PFE.Infrastructure/Repositories/ChatRepository.cs:63-70 | a successful save appends exactly the returned chat under the next key |
| ChatService.AppendedChatKeepsWellFormed | PFE.Infrastructure/Data/ApplicationDbContext.cs:157 | appending a chat with distinct participants keeps chat keys distinct and the participant index intact |
| ChatService.CreatePrivateChat | PFE.Application/Services/ChatService.cs:143-192 | an existing private chat of the two users is reused and nothing is stored; otherwise a missing user is refused; otherwise a private chat with participants exactly [userId, otherUserId], none admin, is stored and shown with the other user's name; asking for a chat with oneself is refused by the unique participant index; with distinct chat keys the reuse always succeeds and shows the existing chat's key |
| ChatService.CreatePrivateChatReuses | PFE.Application/Services/ChatService.cs:145-150 | after a private chat is created, asking again finds it and stores nothing; with distinct chat keys the second call, by either user, succeeds and shows the same chat key as the first |
| ChatService.CreatePrivateChatKeepsWellFormed | PFE.Application/Services/ChatService.cs:143-192 | creating a private chat keeps the tables well formed |
| ChatService.CheckCreator | PFE.Application/Services/ChatService.cs:196-289 | the errors come in order: creator missing, creator in another department, department missing |
| ChatService.DepartmentUsers | PFE.Application/Services/ChatService.cs:223-224 | exactly the users of the department |
| ChatService.DepartmentParticipants | PFE.Application/Services/ChatService.cs:237-246 | one participant per department user, in order, admin exactly for the creator |
| ChatService.DepartmentParticipantsFacts | PFE.Application/Services/ChatService.cs:222-246 | the list names every department user, the creator included, and with distinct user keys repeats none |
| ChatService.NewDepartmentChat | PFE.Application/Services/ChatService.cs:222-267 | the saved chat is a named group chat of the department whose participant keys are exactly the department users' keys in table order, the creator the only admin; with distinct user keys the save succeeds |
| ChatService.CreateDepartmentGroupChat | PFE.Application/Services/ChatService.cs:194-268 | after the creator checks, an existing group chat of the department is reused and nothing is stored: with distinct chat keys the creator is shown that chat exactly when they take part in it, and is refused as a non-participant otherwise; otherwise the department chat, with exactly the department's users as participants, is created |
| ChatService.CreateDepartmentGroupChatReuses | PFE.Application/Services/ChatService.cs:207-211 | with distinct chat keys, after a department chat is created the creator's second call, under any name, succeeds, stores nothing and shows the chat just created |
| ChatService.CreateDepartmentGroupChatKeepsWellFormed | PFE.Application/Services/ChatService.cs:194-268 | creating a department chat keeps the tables well formed |
| ChatService.CustomParticipants | PFE.Application/Services/ChatService.cs:311-331 | one participant per selected key in order, admin iff it is the creator, then the creator as admin when not selected |
| ChatService.CustomParticipantsFacts | PFE.Application/Services/ChatService.cs:311-331 | the list has the selected keys then the creator, and repeats no key exactly when the selection repeats none |
| ChatService.CreateCustomGroupChat | PFE.Application/Services/ChatService.cs:270-353 | after the creator checks, a selection naming a user of another department is refused; keys with no user row pass that check but make the save fail on the participant-to-user foreign key, as a repeated key makes it fail on the unique participant index; otherwise a new group chat of the selection, in order, plus the creator as admin is created, and every participant key has a user row |
| ChatService.CreateCustomGroupChatKeepsWellFormed | PFE.Application/Services/ChatService.cs:270-353 | creating a custom chat keeps the tables well formed |
| ChatService.CustomGroupChatNeverReused | PFE.Application/Services/ChatService.cs:300-333 | a successful custom chat request always adds one chat |
| ChatService.AddMessageKeepsWellFormed | PFE.Application/Services/ChatService.cs:117-141 | sending a message keeps the tables well formed |
| ChatService.MarkMessagesAsReadKeepsWellFormed | PFE.Application/Services/ChatService.cs:355-372 | marking messages read keeps the tables well formed |
| ChatHub.FindFirst | PFE.Infrastructure/Chat/SignalR.cs:147-149 | the first claim of the given type, or null exactly when there is none |
| ChatHub.IdentityClaim | PFE.Infrastructure/Chat/SignalR.cs:147-149 | the name-identifier claim if present, else "sub", else "userId"; none for an anonymous caller |
| ChatHub.CallerId | PFE.Infrastructure/Chat/SignalR.cs:144-156 | Unauthorized "Invalid user authentication" exactly when the chosen claim is missing or not a 32-bit integer; otherwise the integer it spells |
| ChatHub.LaterClaimsNotTried | PFE.Infrastructure/Chat/SignalR.cs:147-153 | a name identifier that does not parse refuses the caller even when a valid "sub" claim follows |
| ChatHub.UserIdClaimRead | PFE.Infrastructure/Chat/SignalR.cs:149-155 | a lone "userId" claim carrying a 32-bit id is read back as that id |
| ChatHub.GroupName | PFE.Infrastructure/Chat/SignalR.cs:36 | the group name of a chat is "chat_" followed by the key in decimal |
| ChatHub.GroupNameInjective | PFE.Infrastructure/Chat/SignalR.cs:36-87 | distinct chats have distinct groups |
| ChatHub.Members | PFE.Infrastructure/Chat/SignalR.cs:110 | an unknown group has no member |
| ChatHub.Recipients | PFE.Infrastructure/Chat/SignalR.cs:87-92 | a caller event reaches the caller alone; a group event reaches the group's members |
| ChatHub.Join | PFE.Infrastructure/Chat/SignalR.cs:110 | the connection joins that group and no other group changes |
| ChatHub.Leave | PFE.Infrastructure/Chat/SignalR.cs:123 | the connection leaves that group and no other group changes |
| ChatHub.JoinAll | PFE.Infrastructure/Chat/SignalR.cs:34-37 | the connection joins every listed group and no other |
| ChatHub.ChatGroups | PFE.Infrastructure/Chat/SignalR.cs:33-36 | one group per chat the chat query lists, in order |
| ChatHub.JoinUntilFault | PFE.Infrastructure/Chat/SignalR.cs:33-45 | a failed chat fetch joins nothing; without a fault every group is joined; other connections are never affected |
| ChatHub.ConnectedAs | PFE.Infrastructure/Chat/SignalR.cs:27-39 | the connection is registered first, whatever happens to the group joins afterwards; the store is untouched |
| ChatHub.OnConnected | PFE.Infrastructure/Chat/SignalR.cs:22-47 | an unauthenticated caller changes nothing; otherwise the connection is registered and joined to its chats' groups |
| ChatHub.ChatGroupListed | PFE.Infrastructure/Chat/SignalR.cs:33-36 | every chat the user takes part in has its group among the user's groups |
| ChatHub.ConnectedJoinsEveryChat | PFE.Infrastructure/Chat/SignalR.cs:30-37 | without a fault, a new connection is subscribed to the group of every chat of its user |
| ChatHub.DropConnection | PFE.Infrastructure/Chat/SignalR.cs:49-67 | the closed connection is in no group afterwards; every other connection keeps exactly its groups |
| ChatHub.DisconnectedAs | PFE.Infrastructure/Chat/SignalR.cs:49-67 | exactly that connection leaves the registry and every group; other users' connections and the store are untouched |
| ChatHub.OnDisconnected | PFE.Infrastructure/Chat/SignalR.cs:49-67 | an unauthenticated caller leaves registry and store as they were, and the connection still leaves every group; otherwise the connection is removed from both |
| ChatHub.DisconnectedReceivesNothing | PFE.Infrastructure/Chat/SignalR.cs:49-67 | a closed connection receives no later group event, whoever the caller was |
| ChatHub.ConnectThenDisconnect | PFE.Infrastructure/Chat/SignalR.cs:22-67 | a user's first connection, closed again, leaves the registry as it was, and the groups too when the connection was in none before |
| ChatHub.SendMessageAs | PFE.Infrastructure/Chat/SignalR.cs:69-94 | one event: a sender other than the caller stores and broadcasts nothing and sends ErrorOccurred to the caller only; a refused message is reported the same way; otherwise ReceiveMessage with the stored message goes to the chat's group |
| ChatHub.SendMessage | PFE.Infrastructure/Chat/SignalR.cs:69-156 | a caller whose claims give no valid id gets ErrorOccurred "Invalid user authentication" and nothing changes; otherwise the call acts for the id the claims carry |
| ChatHub.RefusedSendChangesNothing | PFE.Infrastructure/Chat/SignalR.cs:75-93 | when nothing is broadcast, the hub is unchanged and only the caller hears of it |
| ChatHub.SendMessageTouchesChatTwice | PFE.Infrastructure/Chat/SignalR.cs:81-84 | after a broadcast the chat's last activity is the hub's own, later clock reading |
| ChatHub.JoinChatAs | PFE.Infrastructure/Chat/SignalR.cs:96-119 | one event to the caller: JoinedChat and a group join for a participant, otherwise ErrorOccurred and no group change |
| ChatHub.JoinChat | PFE.Infrastructure/Chat/SignalR.cs:96-119 | a caller whose claims give no valid id gets ErrorOccurred "Invalid user authentication" and nothing changes; otherwise the call acts for the id the claims carry |
| ChatHub.LeaveChat | PFE.Infrastructure/Chat/SignalR.cs:121-126 | without any identity check the connection leaves the chat's group and LeftChat goes to the caller |
| ChatHub.GroupMembershipDecidesDelivery | PFE.Infrastructure/Chat/SignalR.cs:87-123 | a connection that joined a chat receives the next message posted to it; one that left does not |
| ChatHub.JoinThenLeave | PFE.Infrastructure/Chat/SignalR.cs:110-123 | leaving right after joining restores the groups |
| ChatHub.MarkMessagesAsReadAs | PFE.Infrastructure/Chat/SignalR.cs:128-142 | one event to the caller: MessagesMarkedAsRead after marking, or ErrorOccurred with the store unchanged |
| ChatHub.MarkMessagesAsRead | PFE.Infrastructure/Chat/SignalR.cs:128-142 | a caller whose claims give no valid id gets ErrorOccurred "Invalid user authentication" and nothing changes; otherwise the call acts for the id the claims carry |
| ChatHub.GroupEventsAreMessages | PFE.Infrastructure/Chat/SignalR.cs:87-140 | only SendMessage addresses a group, and only with ReceiveMessage |
| PublicationRepository.Add | PFE.Infrastructure/Repositories/PublicationRepository.cs:19-27 | a publication whose author is not a user fails with "Invalid author" and stores nothing; otherwise it is appended under the next key and nothing else changes |
| PublicationRepository.AddThenFind | PFE.Infrastructure/Repositories/PublicationRepository.cs:24-26 | the stored publication is found again by its key and keys stay distinct |
| PublicationRepository.GetApproved | PFE.Infrastructure/Repositories/PublicationRepository.cs:41-53 | exactly the approved publications, newest first |
| PublicationRepository.GetPending | PFE.Infrastructure/Repositories/PublicationRepository.cs:55-63 | exactly the publications not yet approved |
| PublicationRepository.ApprovedPendingPartition | PFE.Infrastructure/Repositories/PublicationRepository.cs:49-60 | every publication is on exactly one of the two lists |
| PublicationRepository.GetPendingByDepartment | PFE.Infrastructure/Repositories/PublicationRepository.cs:124-135 | exactly the pending publications whose author exists and belongs to the department, newest first |
| PublicationRepository.PendingByDepartmentIsPending | PFE.Infrastructure/Repositories/PublicationRepository.cs:60-131 | the department's pending list is part of the pending list |
| PublicationRepository.CheckApproval | PFE.Infrastructure/Repositories/PublicationRepository.cs:67-103 | a missing publication or approver refuses; a missing role navigation throws; a role other than "head department" after trimming and lower-casing refuses; a missing author throws; an author of another department refuses |
| PublicationRepository.Approve | PFE.Infrastructure/Repositories/PublicationRepository.cs:65-87 | true exactly when the approver may approve, and then only that row changes: approved, by the approver, at `now`; false changes nothing |
| PublicationRepository.ApprovedLeavesPending | PFE.Infrastructure/Repositories/PublicationRepository.cs:81-85 | an approved publication is found approved by the approver and is on no pending list |
| PublicationRepository.Reject | PFE.Infrastructure/Repositories/PublicationRepository.cs:89-108 | the same check as approval; true removes the publication with its comments and reactions and nothing else; false changes nothing |
| PublicationRepository.ApproveRejectAgree | PFE.Infrastructure/Repositories/PublicationRepository.cs:73-103 | approve and reject throw, refuse or proceed on exactly the same inputs |
| PublicationRepository.RejectRemoves | PFE.Infrastructure/Repositories/PublicationRepository.cs:105-107 | after a rejection the publication, its comments and its reactions are gone, and every other publication is found as before |
| PublicationRepository.RejectKeepsOthers | PFE.Infrastructure/Repositories/PublicationRepository.cs:105 | removing one row leaves every other key's lookup unchanged |
| PublicationRepository.CommentsFor | PFE.Infrastructure/Repositories/PublicationRepository.cs:144-145 | exactly the comments of the publication |
| PublicationRepository.AddComment | PFE.Infrastructure/Repositories/PublicationRepository.cs:149-154 | the comment is appended under the next key and nothing else changes |
| PublicationRepository.AddCommentListed | PFE.Infrastructure/Repositories/PublicationRepository.cs:149-154 | the publication's comment list grows by exactly the stored comment, at the end |
| PublicationRepository.ReactionsFor | PFE.Infrastructure/Repositories/PublicationRepository.cs:185-191 | exactly the reactions to the publication |
| PublicationRepository.Existing | PFE.Infrastructure/Repositories/PublicationRepository.cs:160-162 | the position of the first reaction of that user to that publication, or none exactly when there is none |
| PublicationRepository.KindOf | PFE.Infrastructure/Repositories/PublicationRepository.cs:160-162 | the kind of the user's reaction to the publication, none exactly when there is none |
| PublicationRepository.KindAt | PFE.Infrastructure/Repositories/PublicationRepository.cs:160-162 | the first row of the pair decides the existing reaction and its kind |
| PublicationRepository.InsertReaction | PFE.Infrastructure/Repositories/PublicationRepository.cs:180-183 | a new reaction under the next key; other pairs' rows unchanged |
| PublicationRepository.DeleteReaction | PFE.Infrastructure/Repositories/PublicationRepository.cs:167-171 | the existing row is removed and returned; other pairs' rows unchanged |
| PublicationRepository.RetypeReaction | PFE.Infrastructure/Repositories/PublicationRepository.cs:173-177 | the existing row takes the new kind and time in place; other pairs' rows unchanged |
| PublicationRepository.AddReaction | PFE.Infrastructure/Repositories/PublicationRepository.cs:157-184 | no existing reaction: the new one is added; same kind: the existing one is removed; other kind: the existing one is updated in place; other pairs are never touched |
| PublicationRepository.RemoveAtUnique | PFE.Infrastructure/Repositories/PublicationRepository.cs:169 | removing a row keeps one reaction per pair |
| PublicationRepository.AddReactionToggles | PFE.Infrastructure/Repositories/PublicationRepository.cs:157-184 | the toggle keeps at most one reaction per pair; afterwards the pair has none if it had one of that kind, and one of that kind otherwise |
| PublicationRepository.ToggleInserts | PFE.Infrastructure/Repositories/PublicationRepository.cs:180-183 | the insert branch keeps pairs unique and leaves a reaction of the given kind |
| PublicationRepository.ToggleDeletes | PFE.Infrastructure/Repositories/PublicationRepository.cs:167-171 | the remove branch keeps pairs unique and leaves the pair without a reaction |
| PublicationRepository.ToggleRetypes | PFE.Infrastructure/Repositories/PublicationRepository.cs:173-177 | the update branch keeps pairs unique and leaves a reaction of the given kind |
| PublicationRepository.ToggleTwiceRestores | PFE.Infrastructure/Repositories/PublicationRepository.cs:160-183 | reacting twice the same way restores the reactions, keys and times aside, when the user had none or one of that kind; without a prior reaction the table is restored exactly |
| PublicationRepository.InsertThenDelete | PFE.Infrastructure/Repositories/PublicationRepository.cs:167-183 | adding then removing a reaction restores the table exactly |
| PublicationRepository.DeleteThenInsert | PFE.Infrastructure/Repositories/PublicationRepository.cs:167-183 | removing then re-adding a reaction restores who reacted to what and how |
| PublicationRepository.ToggleTwiceOtherKind | PFE.Infrastructure/Repositories/PublicationRepository.cs:167-177 | reacting twice with a new kind over a reaction of another kind ends with no reaction |
| PublicationService.NameOr | PFE.Application/UseCases/Publications/PublicationService.cs:171-186 | a loaded user's name, or the default when the navigation is not loaded or the row is missing |
| PublicationService.MapToDto | PFE.Application/UseCases/Publications/PublicationService.cs:165-191 | the publication's fields carried over; "Unknown Author" and department 0 without an author; empty lists when comments or reactions were not loaded; otherwise one entry per comment and reaction, in order, with the user's name or "Unknown User" |
| PublicationService.CreatePublication | PFE.Application/UseCases/Publications/PublicationService.cs:17-47 | an unknown author fails with "User not found" and stores nothing; otherwise exactly one publication with the given content and author, created at `now` and not yet approved by anyone, is stored; it is approved exactly when the author's trimmed role name equals "head department" ignoring case |
| PublicationService.CreatedPublicationListed | PFE.Application/UseCases/Publications/PublicationService.cs:25-46 | a head of department's publication lands on the approved list, anyone else's on the pending list; it is shown with its author's name and no comments or reactions |
| PublicationService.GetApprovedPublications | PFE.Application/UseCases/Publications/PublicationService.cs:49-53 | one view per approved publication, newest first: the i-th view is the approved-load view of the i-th row the repository returns |
| PublicationService.GetPendingPublications | PFE.Application/UseCases/Publications/PublicationService.cs:55-59 | one view per pending publication, shown without comments or reactions: the i-th view is the author-only view of the i-th pending row |
| PublicationService.GetPendingForApprover | PFE.Application/UseCases/Publications/PublicationService.cs:61-73 | empty for an unknown approver or one who does not head a department; a missing role or department navigation throws; otherwise the pending publications of the approver's department, newest first |
| PublicationService.ApproverListMatchesApproval | PFE.Application/UseCases/Publications/PublicationService.cs:61-73 | the approver's list holds exactly the pending publications the approver may approve |
| PublicationService.ListedIsApprovable | PFE.Application/UseCases/Publications/PublicationService.cs:65-70 | every listed publication passes the approval check |
| PublicationService.ApprovableIsListed | PFE.Application/UseCases/Publications/PublicationService.cs:65-70 | every pending publication that passes the approval check is listed |
| PublicationService.FindOwnRow | PFE.Infrastructure/Repositories/PublicationRepository.cs:38 | with distinct keys a publication is found by its own key |
| PublicationService.GetPublicationById | PFE.Application/UseCases/Publications/PublicationService.cs:85-89 | null exactly when no publication has the key; otherwise the publication with its author, comments and reactions |
| PublicationService.CheckTarget | PFE.Application/UseCases/Publications/PublicationService.cs:93-135 | the publication is checked before the user: "Publication not found." first, then "User not found." |
| PublicationService.AddComment | PFE.Application/UseCases/Publications/PublicationService.cs:91-123 | after the checks, exactly one comment with the given publication, user and text, created at `now`, is stored and shown with the user's name; a refusal stores nothing |
| PublicationService.AddedCommentShown | PFE.Application/UseCases/Publications/PublicationService.cs:85-113 | the comment returned is the last comment the publication's details show afterwards |
| PublicationService.AddReaction | PFE.Application/UseCases/Publications/PublicationService.cs:125-163 | after the same checks in the same order, the toggle is applied and the row it returns is shown with the user's name |
| PublicationService.CommentAndReactionChecksAgree | PFE.Application/UseCases/Publications/PublicationService.cs:93-135 | comments and reactions are refused on the same inputs with the same error |
| PublicationService.AddReactionToggles | PFE.Application/UseCases/Publications/PublicationService.cs:137-147 | through the service the toggle keeps one reaction per pair and flips the user's reaction of that kind |
| PublicationService.GetReactionsForPublication | PFE.Application/UseCases/Publications/PublicationService.cs:198-209 | one view per reaction to the publication, in order, with its key, user, kind and creation time and the user's name or "Unknown User" |
| UserRepository.EmailIndex | PFE.Infrastructure/Repositories/UserRepository.cs:22-23 | the position of the first user row with exactly this e-mail; none exactly when no row has it |
| UserRepository.GetByEmail | PFE.Infrastructure/Repositories/UserRepository.cs:22-23 | a stored user with exactly this e-mail, or null exactly when no user has it |
| UserRepository.ExistsByEmailAgrees | PFE.Infrastructure/Repositories/UserRepository.cs:22-26 | the existence test answers true exactly when the lookup finds a user |
| UserRepository.EmailOwner | PFE.Infrastructure/Repositories/UserRepository.cs:22-23 | with one user per e-mail, the lookup finds the row that holds the e-mail |
| UserRepository.Create | PFE.Infrastructure/Repositories/UserRepository.cs:28-39 | "Invalid department" when the department does not exist, else "Invalid role" when the role does not, and success exactly when both exist; the user is stored once, under the next identity key, and nothing else changes |
| UserRepository.CreateThenFind | PFE.Infrastructure/Repositories/UserRepository.cs:28-39 | a created user is found again by its key, and user keys stay distinct and below the identity seed |
| UserRepository.Update | PFE.Infrastructure/Repositories/UserRepository.cs:41-46 | for a set key, the row with that key is replaced by the user; saving fails, having affected no row, when no row has the key, and is refused by the foreign keys when the row exists but the new department or role does not; for the unset key 0 the user is inserted under the next key, refused by the foreign keys exactly when its department or role does not exist |
| UserRepository.UpdateUnsetKeyIsCreate | PFE.Infrastructure/Repositories/UserRepository.cs:28-46 | updating a user with the unset key succeeds exactly when creating it does and stores the same table |
| UserRepository.UpdateStoredRow | PFE.Infrastructure/Repositories/UserRepository.cs:41-46 | with distinct positive user keys, updating a stored user's row to a department and role that exist succeeds and changes exactly that row |
| UserRepository.DeleteUser | PFE.Infrastructure/Repositories/UserRepository.cs:48-56 | an unknown key changes nothing; a user who sent a message, wrote or approved a publication is kept and the save fails on the restricting foreign key; otherwise the row goes with the user's comments, reactions and chat memberships, and nothing else changes |
| UserRepository.DeleteUserRemoves | PFE.Infrastructure/Repositories/UserRepository.cs:48-56 | after a delete, with distinct keys, the key finds no user |
| UserRepository.StoreResetToken | PFE.Infrastructure/Repositories/UserRepository.cs:65-74 | the first user with the e-mail gets the token and an expiry five hours after `now`; an unknown e-mail changes nothing; no other row or table changes |
| UserRepository.StoredTokenValidates | PFE.Infrastructure/Repositories/UserRepository.cs:76-82 | a stored token validates at any moment strictly before its expiry, and with one user per e-mail at no moment after |
| UserRepository.UpdatePassword | PFE.Infrastructure/Repositories/UserRepository.cs:84-94 | the first user with the e-mail gets the hash of the new password and loses the token and its expiry; an unknown e-mail changes nothing |
| UserRepository.UpdatePasswordConsumesToken | PFE.Infrastructure/Repositories/UserRepository.cs:84-94 | with one user per e-mail, no token validates for the e-mail after its password is updated |
| UserRepository.AddRole | PFE.Infrastructure/Repositories/UserRepository.cs:133-139 | one role with the name is appended under the next role key; nothing else changes |
| UserRepository.AddRoleThenFind | PFE.Infrastructure/Repositories/UserRepository.cs:126-139 | an added role is found by its key and its name then exists in any letter case; role keys stay distinct |
| UserRepository.UpdateRole | PFE.Infrastructure/Repositories/UserRepository.cs:141-151 | null exactly for an unknown key, changing nothing; otherwise the role with the new name, found so afterwards, while every other role is unchanged |
| UserRepository.DeleteRole | PFE.Infrastructure/Repositories/UserRepository.cs:153-163 | false for an unknown key; a role some user holds is kept and the save fails on the restricting foreign key; otherwise that row is removed and the answer is true |
| UserRepository.NameChecksIgnoreCase | PFE.Infrastructure/Repositories/UserRepository.cs:126-129 | the role-name and department-name checks give the same answer for names that differ only in letter case |
| UserRepository.AddDepartment | PFE.Infrastructure/Repositories/UserRepository.cs:164-170 | one department with the name is appended under the next department key; nothing else changes |
| UserRepository.EnsureDefaultDepartment | PFE.Infrastructure/Repositories/UserRepository.cs:111-118 | a store with departments is left alone; an empty department table gets exactly one "Default" department; afterwards there is always a department |
| UserRepository.EnsureDefaultIdempotent | PFE.Infrastructure/Repositories/UserRepository.cs:111-118 | ensuring the default department twice is the same as once |
| UserRepository.UpdateDepartment | PFE.Infrastructure/Repositories/UserRepository.cs:172-180 | null exactly for an unknown key, changing nothing; otherwise the department with the new name, found so afterwards, while every other department is unchanged |
| UserRepository.DeleteDepartment | PFE.Infrastructure/Repositories/UserRepository.cs:182-190 | false for an unknown key; a department with users is kept and the save fails on the restricting foreign key; otherwise the row is removed, chats that pointed at it lose their department, and other chats are unchanged |
| LoginUser.Execute | PFE.Application/UseCases/Auth/LoginUser.cs:10-19 | "User not found" for an unknown e-mail; otherwise success exactly when the verifier accepts the password against the stored hash, returning that stored user, and "Invalid password" when it does not |
| LoginUser.UnknownEmailIgnoresVerifier | PFE.Application/UseCases/Auth/LoginUser.cs:12-13 | for an unknown e-mail the answer does not depend on the verifier |
| LoginUser.VerifierAskedOnce | PFE.Application/UseCases/Auth/LoginUser.cs:15-18 | the answer depends on the verifier only through the found user's stored hash and the supplied password |
| ResetPassword.Execute | PFE.Application/UseCases/Auth/ResetPassword.cs:14-41 | the checks run in order: "Passwords do not match", "User not found", "Invalid reset token", then "Reset token has expired" for an expiry strictly before `now`; a reset that passes them saves the user's row with the new hash and no token |
| ResetPassword.ResetIsPasswordUpdate | PFE.Application/UseCases/Auth/ResetPassword.cs:36-40 | with distinct keys and every user's department and role existing, a reset that passes its checks succeeds and leaves the store exactly as the repository's password update does, given one deterministic `hash` (see Left out) |
| ResetPassword.ResetSucceedsAt | PFE.Application/UseCases/Auth/ResetPassword.cs:26-40 | with distinct keys and every user's department and role existing, a reset for the e-mail's user whose stored token matches and has not expired succeeds and changes exactly that user's row |
| ResetPassword.StoredTokenResets | PFE.Application/UseCases/Auth/ResetPassword.cs:26-40 | with distinct keys and every user's department and role existing, a token stored for a known e-mail resets the password at any moment up to and including its expiry |
| ResetPassword.ExpiryBoundary | PFE.Application/UseCases/Auth/ResetPassword.cs:32-33 | with distinct keys, one user per e-mail and every user's department and role existing, at the exact moment of expiry the repository no longer validates the token while the reset still accepts it |
| ResetPassword.TokenSingleUse | PFE.Application/UseCases/Auth/ResetPassword.cs:29-40 | repeating a successful reset with the same token fails with "Invalid reset token" |
| RegisterUser.Execute | PFE.Application/UseCases/RegisterUser.cs:11-29 | a foreign domain is refused, then an e-mail already in use; a success stores one user with the e-mail, name and password hash, in department 0 and role 0 |
| RegisterUser.RegistrationNeedsKeyZero | PFE.Application/UseCases/RegisterUser.cs:21-28 | registration as written succeeds only when a department and a role with key 0 exist; when every department key is at least 1, an allowed unused e-mail fails with "Invalid department" |
| RegisterUser.ExecutePlaced | PFE.Application/UseCases/RegisterUser.cs:11-29 | the same domain and duplicate checks in the same order, then creation in the given department and role |
| RegisterUser.PlacedRegistrationWorks | PFE.Application/UseCases/RegisterUser.cs:11-29 | an allowed unused e-mail with an existing department and role is registered, the new user can log in with the password, and the e-mail cannot be registered twice |

## Left out

- Concurrency: `ConcurrentDictionary` and the locks of the connection registry. Only the sequential meaning of each call is modelled.
- Entity Framework mechanics: change tracking, `AsNoTracking`, retries and migrations. Navigation properties are modelled as lookups by key. `Include` is modelled only where a result depends on what was loaded, such as the 20 newest messages of a chat and the comments and reactions of a publication.
- Database collation: e-mails are compared exactly. A case-insensitive collation of the database server would match e-mails that the model keeps apart.
- MessageRepository.GetChatMessages: the 32-bit wrap of the skip count is modelled. A negative skip count is then clamped to 0, and a `pageSize` of zero or less gives an empty page, as LINQ's `Skip` and `Take` do in memory. On SQL Server the query becomes `OFFSET m ROWS FETCH NEXT n ROWS ONLY`, and the server refuses a negative `m` and an `n` below 1, so the source call throws on those inputs instead.
- Image data of publications: copying the uploaded stream is I/O, and the bytes are never inspected.
- Password hashing: BCrypt and the password hasher are parameters, not implementations.
- Case folding and white space: `ToLower`, `ToLowerInvariant` and `OrdinalIgnoreCase` are ASCII-only here, and `Trim` removes ASCII white space, U+0085 and U+00A0 but no other Unicode space.
- SignalR transport, logging and console output: groups and clients are a table and an event log. Of the framework's own work on disconnect, only the removal of the connection from every group is modelled (`ChatHub.DropConnection`).
- Token generation and e-mail sending (`ForgotPassword`, the e-mail sender): they generate random values and do I/O.
- The data-annotation validation of the reset request (`Validator.ValidateObject` at PFE.Application/UseCases/Auth/ResetPassword.cs:17): its attributes live on a DTO that is not part of this model.
- PFE.Application/UseCases/Auth/RegisterUser.cs: it reads department and role fields that the registration DTO does not declare, so it has no coherent behaviour. The registration modelled is PFE.Application/UseCases/RegisterUser.cs.
- The `Intranet.*` projects do not build: their result classes declare a property and a method with the same name, and their handlers call repository methods the interface lacks.
- `GetPublicationWithCommentsAsync` throws `NotImplementedException` and has nothing to model.
- The service's `ApprovePublicationAsync` and `RejectPublicationAsync` only forward to the repository, so the repository members model them.
- `GetAll*`, `GetByIdAsync` and `GetUserWithDetailsAsync` of the repositories return a table or a row by key; `Entities.FindUser` and its siblings stand in for them.
- The two `DateTime.UtcNow` readings in the repository's `AddReactionAsync` are one `now`.
- `user.Name ?? "Unknown"` in the service's `AddCommentAsync` and `AddReactionAsync`: the name of a found user is never null, because the column is required.
- Foreign keys are enforced in the deletes of users, roles, departments and publications, in the participants of a custom group chat, in a user saved under the unset key 0, and in an update of an existing user row. Other inserts check the references the code itself checks.
- ChatService.CreateCustomGroupChat: when the selection both repeats a key and names a key with no user row, the model reports the foreign-key error. Both make the save throw a `DbUpdateException`; which message SQL Server gives depends on the order in which the participant rows are inserted, and the model does not pin it.
- ChatService.PrivateChatName: a participant whose user row is missing gives "Unknown User", where PFE.Application/Services/ChatService.cs:391 dereferences the null `User` and throws. The cascading foreign key from participants to users (PFE.Infrastructure/Data/ApplicationDbContext.cs:151-154) keeps such a row out of the database; the model does not enforce that key on inserts, so it answers instead of throwing.
- ChatService.ParticipantDtos: a participant whose user row is missing gets no name, where every `p.User.Name` of PFE.Application/Services/ChatService.cs (lines 54, 97, 187, 263 and 348) throws. The same cascading foreign key makes this state unreachable in the source.
- ResetPassword.ResetIsPasswordUpdate: `hash` is one deterministic function, so the reset and the repository's password update store the same hash. BCrypt draws a fresh salt on each call, so in the source the two stored hashes differ, while each still verifies the same password.
- UserRepository.StoredTokenValidates: the "only until expiry" direction assumes one user per e-mail. No unique index on e-mails exists, and with duplicates a later row can still validate.
- UserRepository.UpdatePasswordConsumesToken: stated for one user per e-mail, for the same reason.
- ChatService.MarkMessagesAsRead: "other messages unchanged" is stated under distinct message keys, the database's primary-key guarantee.
- ChatService.LastMessage: states that the result has the greatest `SentAt`. Which message wins a tie between equal `SentAt` values is not stated.
- LastActivityAt is a plain time: every path that creates a chat sets it, so the nullable column is never null in the model.

## Findings

| source | as written | input that shows it | evidently intended | confidence | as-written member | corrected member |
|---|---|---|---|---|---|---|
| PFE.Application/UseCases/RegisterUser.cs:21-28 | the new user is created with `DepartmentId` and `RoleId` left at 0, and `CreateAsync` rejects a department that does not exist | any allowed, unused e-mail in a database whose department keys start at 1 (identity keys do) fails with "Invalid department" | registration places the user in an existing department and role, so a new employee can register and then log in | medium, not executed: a department and role with key 0 inserted by hand would let it through | RegisterUser.Execute | RegisterUser.ExecutePlaced |

=== FILE: chat_hub.dfy ===
/** The real-time chat hub as an event state machine. Its state is the
    connection registry, the group subscription table and the store; each
    handler takes the calling connection, returns the new state, and
    returns the events it sends, in order. Handlers catch their own
    failures and report them to the caller, so none of them fails. */
module ChatHub {
  import opened Wrappers
  import opened Sequences
  import opened Entities
  import Text
  import ConnectionRegistry
  import ChatService
  import ChatRepository
  import MessageRepository

  // ---------------------------------------------------------------------------
  // Caller identity
  // ---------------------------------------------------------------------------

  datatype Claim = Claim(kind: string, value: string)

  /** The calling connection: its id and the claims of its user, absent
      when the request carries no user. */
  datatype Context = Context(connectionId: string, user: Option<seq<Claim>>)

  /** The claim types the hub looks for, already lower-cased: a claim
      matches when its lower-cased type equals one of them, which is the
      ordinal case-insensitive comparison `FindFirst` makes. */
  const NameIdentifierClaim := "http://schemas.xmlsoap.org/ws/2005/05/identity/claims/nameidentifier"
  const SubjectClaim := "sub"
  const UserIdClaim := "userid"

  const InvalidAuthentication := Error(Unauthorized, "Invalid user authentication")
  const SpoofedSender := Error(Unauthorized, "You can only send messages as yourself")
  const NotInChat := Error(Unauthorized, "You are not a participant in this chat")

  predicate HasType(c: Claim, lowered: string)
  {
    Text.Lower(c.kind) == lowered
  }

  /** `FindFirst(type)`: the first claim whose type matches, ignoring case. */
  function FindFirst(claims: seq<Claim>, lowered: string): (r: Option<Claim>)
    ensures r.Some? ==> r.value in claims && HasType(r.value, lowered)
    ensures r.None? <==> forall i :: 0 <= i < |claims| ==> !HasType(claims[i], lowered)
  {
    FirstWhere(claims, (c: Claim) => HasType(c, lowered))
  }

  /** The claim the hub reads the user id from: the name identifier, else
      "sub", else "userId"; none without a user. */
  function IdentityClaim(user: Option<seq<Claim>>): (r: Option<Claim>)
    ensures user.None? ==> r.None?
    ensures user.Some? && FindFirst(user.value, NameIdentifierClaim).Some? ==>
              r == FindFirst(user.value, NameIdentifierClaim)
    ensures user.Some? && FindFirst(user.value, NameIdentifierClaim).None? && FindFirst(user.value, SubjectClaim).Some? ==>
              r == FindFirst(user.value, SubjectClaim)
    ensures user.Some? && FindFirst(user.value, NameIdentifierClaim).None? && FindFirst(user.value, SubjectClaim).None? ==>
              r == FindFirst(user.value, UserIdClaim)
  {
    match user
    case None => None
    case Some(claims) =>
      var first := FindFirst(claims, NameIdentifierClaim);
      if first.Some? then first
      else
        var second := FindFirst(claims, SubjectClaim);
        if second.Some? then second else FindFirst(claims, UserIdClaim)
  }

  /** `GetUserIdFromContext`: the identity claim's value read as a 32-bit
      integer; a missing claim or a value that does not parse is refused,
      and a later claim is not tried once an earlier one is present. */
  function CallerId(user: Option<seq<Claim>>): (r: Result<int, Error>)
    ensures r.Failure? <==> IdentityClaim(user).None? || Text.ParseInt32(IdentityClaim(user).value.value).None?
    ensures r.Failure? ==> r.error == InvalidAuthentication
    ensures r.Success? ==> IsInt32(r.value) && Text.ParseInt32(IdentityClaim(user).value.value) == Some(r.value)
  {
    match IdentityClaim(user)
    case None => Failure(InvalidAuthentication)
    case Some(claim) =>
      match Text.ParseInt32(claim.value)
      case None => Failure(InvalidAuthentication)
      case Some(id) => Success(id)
  }

  /** A name identifier that does not parse refuses the caller even when a
      well-formed "sub" claim follows it. */
  lemma LaterClaimsNotTried(nameId: Claim, sub: Claim)
    requires HasType(nameId, NameIdentifierClaim) && Text.ParseInt32(nameId.value).None?
    requires HasType(sub, SubjectClaim) && Text.ParseInt32(sub.value).Some?
    ensures CallerId(Some([nameId, sub])) == Failure(InvalidAuthentication)
  {
    assert FindFirst([nameId, sub], NameIdentifierClaim) == Some(nameId) by {
      assert IndexOfFirst([nameId, sub], (c: Claim) => HasType(c, NameIdentifierClaim)) == Some(0);
    }
  }

  /** Whatever 32-bit id a lone "userId" claim carries, the hub reads it back. */
  lemma UserIdClaimRead(claim: Claim, id: int)
    requires IsInt32(id)
    requires HasType(claim, UserIdClaim) && claim.value == Text.ShowInt(id)
    ensures CallerId(Some([claim])) == Success(id)
  {
    assert !HasType(claim, NameIdentifierClaim) && !HasType(claim, SubjectClaim) by {
      assert |Text.Lower(claim.kind)| == 6;
    }
    assert FindFirst([claim], UserIdClaim) == Some(claim) by {
      assert IndexOfFirst([claim], (c: Claim) => HasType(c, UserIdClaim)) == Some(0);
    }
    Text.ParseShowRoundTrip(id);
  }

  // ---------------------------------------------------------------------------
  // State and events
  // ---------------------------------------------------------------------------

  /** The group a chat's messages are broadcast to: "chat_" and the key. */
  function GroupName(chatId: int): (r: string)
    ensures |r| > 5 && r[..5] == "chat_"
    ensures r[5..] == Text.ShowInt(chatId)
  {
    "chat_" + Text.ShowInt(chatId)
  }

  /** Distinct chats have distinct groups. */
  lemma GroupNameInjective(a: int, b: int)
    requires GroupName(a) == GroupName(b)
    ensures a == b
  {
    assert GroupName(a)[5..] == Text.ShowInt(a);
    assert GroupName(b)[5..] == Text.ShowInt(b);
    Text.ShowIntInjective(a, b);
  }

  type Groups = map<string, set<string>>

  datatype Hub = Hub(registry: ConnectionRegistry.Registry, groups: Groups, store: Store)

  datatype Target = ToCaller(connectionId: string) | ToGroup(name: string)

  datatype Payload =
    | ChatKey(chatId: int)
    | ErrorText(text: string)
    | Delivered(message: ChatService.MessageDto)

  datatype Event = Event(target: Target, name: string, payload: Payload)

  /** The connections subscribed to a group; none for an unknown group. */
  function Members(g: Groups, name: string): (r: set<string>)
    ensures name !in g ==> r == {}
  {
    if name in g then g[name] else {}
  }

  /** The connections an event reaches. */
  function Recipients(g: Groups, e: Event): (r: set<string>)
    ensures e.target.ToCaller? ==> r == {e.target.connectionId}
    ensures e.target.ToGroup? ==> r == Members(g, e.target.name)
  {
    match e.target
    case ToCaller(c) => {c}
    case ToGroup(name) => Members(g, name)
  }

  /** `Groups.AddToGroupAsync`. */
  function Join(g: Groups, connectionId: string, name: string): (r: Groups)
    ensures Members(r, name) == Members(g, name) + {connectionId}
    ensures forall n :: n != name ==> Members(r, n) == Members(g, n)
  {
    g[name := Members(g, name) + {connectionId}]
  }

  /** `Groups.RemoveFromGroupAsync`. */
  function Leave(g: Groups, connectionId: string, name: string): (r: Groups)
    ensures Members(r, name) == Members(g, name) - {connectionId}
    ensures forall n :: n != name ==> Members(r, n) == Members(g, n)
  {
    if name in g then g[name := g[name] - {connectionId}] else g
  }

  /** Joins one group after another, in order. */
  function JoinAll(g: Groups, connectionId: string, names: seq<string>): (r: Groups)
    ensures forall n :: n in names ==> Members(r, n) == Members(g, n) + {connectionId}
    ensures forall n :: n !in names ==> Members(r, n) == Members(g, n)
    decreases |names|
  {
    if |names| == 0 then g
    else JoinAll(Join(g, connectionId, names[0]), connectionId, names[1..])
  }

  /** `ErrorOccurred` with the exception's message, to the caller only. */
  function ReportError(ctx: Context, e: Error): Event
  {
    Event(ToCaller(ctx.connectionId), "ErrorOccurred", ErrorText(e.message))
  }

  /** Every event goes to the calling connection alone. */
  predicate ToCallerOnly(ctx: Context, events: seq<Event>)
  {
    forall i :: 0 <= i < |events| ==> events[i].target == ToCaller(ctx.connectionId)
  }

  // ---------------------------------------------------------------------------
  // Lifecycle
  // ---------------------------------------------------------------------------

  /** A failure of the service or of the group manager while connecting,
      which the handler catches: the chat query throws, or the group join
      after the first `n` throws. */
  datatype Fault = NoFault | FetchFails | JoinFailsAfter(n: nat)

  /** The groups of the user's chats, in the order the chat query lists them. */
  function ChatGroups(s: Store, userId: int): (r: seq<string>)
    ensures |r| == |ChatService.GetUserChats(s, userId)|
    ensures forall i :: 0 <= i < |r| ==> r[i] == GroupName(ChatService.GetUserChats(s, userId)[i].id)
  {
    var chats := ChatService.GetUserChats(s, userId);
    seq(|chats|, i requires 0 <= i < |chats| => GroupName(chats[i].id))
  }

  /** The subscriptions after joining `names` in order until the fault
      strikes. */
  function JoinUntilFault(g: Groups, connectionId: string, names: seq<string>, fault: Fault): (r: Groups)
    ensures fault == FetchFails ==> r == g
    ensures fault == NoFault ==> forall n :: n in names ==> connectionId in Members(r, n)
    ensures forall n :: connectionId in Members(g, n) ==> connectionId in Members(r, n)
    ensures forall n, c :: c != connectionId ==> (c in Members(r, n) <==> c in Members(g, n))
  {
    match fault
    case FetchFails => g
    case NoFault => JoinAll(g, connectionId, names)
    case JoinFailsAfter(n) => JoinAll(g, connectionId, names[..if n < |names| then n else |names|])
  }

  /** `OnConnectedAsync` once the caller is known: the connection is
      registered first; then it joins the group of each of the user's
      chats. A failure part-way is swallowed, so the registration stays and
      only the joins made before it remain. No event is sent. */
  function ConnectedAs(h: Hub, connectionId: string, userId: int, fault: Fault): (r: Hub)
    ensures r.registry == ConnectionRegistry.AddConnection(h.registry, userId, connectionId)
    ensures r.store == h.store
    ensures fault == FetchFails ==> r.groups == h.groups
    ensures forall n :: connectionId in Members(h.groups, n) ==> connectionId in Members(r.groups, n)
    ensures forall n, c :: c != connectionId ==> (c in Members(r.groups, n) <==> c in Members(h.groups, n))
    ensures fault == NoFault ==>
              forall n :: n in ChatGroups(h.store, userId) ==> connectionId in Members(r.groups, n)
  {
    Hub(ConnectionRegistry.AddConnection(h.registry, userId, connectionId),
        JoinUntilFault(h.groups, connectionId, ChatGroups(h.store, userId), fault),
        h.store)
  }

  /** `OnConnectedAsync`: an unauthenticated caller changes nothing. */
  function OnConnected(h: Hub, ctx: Context, fault: Fault): (r: Hub)
    ensures CallerId(ctx.user).Failure? ==> r == h
    ensures CallerId(ctx.user).Success? ==> r == ConnectedAs(h, ctx.connectionId, CallerId(ctx.user).value, fault)
  {
    match CallerId(ctx.user)
    case Failure(_) => h
    case Success(userId) => ConnectedAs(h, ctx.connectionId, userId, fault)
  }

  /** Every chat the user takes part in has its group among the user's groups. */
  lemma ChatGroupListed(s: Store, userId: int, c: Chat)
    requires c in s.chats && IsParticipant(c, userId)
    ensures GroupName(c.id) in ChatGroups(s, userId)
  {
    var chats := ChatService.GetUserChats(s, userId);
    var d := ChatService.ToChatDto(s, c, userId, ChatRepository.UserChatsWindow);
    assert d in chats;
    var k :| 0 <= k < |chats| && chats[k] == d;
    assert d.id == c.id;
    assert ChatGroups(s, userId)[k] == GroupName(c.id);
  }

  /** Without a fault, the new connection is subscribed to the group of
      every chat its user takes part in. */
  lemma ConnectedJoinsEveryChat(h: Hub, connectionId: string, userId: int, c: Chat)
    requires c in h.store.chats && IsParticipant(c, userId)
    ensures connectionId in Members(ConnectedAs(h, connectionId, userId, NoFault).groups, GroupName(c.id))
  {
    ChatGroupListed(h.store, userId, c);
  }

  /** The group manager's part of a closed connection: SignalR's lifetime
      manager takes it out of every group, whatever the hub does. */
  function DropConnection(g: Groups, connectionId: string): (r: Groups)
    ensures forall n :: Members(r, n) == Members(g, n) - {connectionId}
    ensures forall n, c :: c != connectionId ==> (c in Members(r, n) <==> c in Members(g, n))
    ensures r.Keys == g.Keys
  {
    map n | n in g :: g[n] - {connectionId}
  }

  /** `OnDisconnectedAsync` once the caller is known: exactly that
      connection leaves the registry and, through the group manager, every
      group; the store stays. */
  function DisconnectedAs(h: Hub, connectionId: string, userId: int): (r: Hub)
    ensures r.store == h.store
    ensures forall n :: Members(r.groups, n) == Members(h.groups, n) - {connectionId}
    ensures forall u :: u in h.registry && u != userId ==> u in r.registry && r.registry[u] == h.registry[u]
    ensures r.registry.Keys <= h.registry.Keys
    ensures ConnectionRegistry.Valid(h.registry) ==>
              ConnectionRegistry.Valid(r.registry)
              && connectionId !in ConnectionRegistry.GetConnections(r.registry, userId)
  {
    Hub(ConnectionRegistry.RemoveConnection(h.registry, userId, connectionId),
        DropConnection(h.groups, connectionId),
        h.store)
  }

  /** `OnDisconnectedAsync`: for an unauthenticated caller the registry and
      store stay and only the group manager drops the connection. */
  function OnDisconnected(h: Hub, ctx: Context): (r: Hub)
    ensures CallerId(ctx.user).Failure? ==> r == h.(groups := DropConnection(h.groups, ctx.connectionId))
    ensures CallerId(ctx.user).Success? ==> r == DisconnectedAs(h, ctx.connectionId, CallerId(ctx.user).value)
  {
    match CallerId(ctx.user)
    case Failure(_) => h.(groups := DropConnection(h.groups, ctx.connectionId))
    case Success(userId) => DisconnectedAs(h, ctx.connectionId, userId)
  }

  /** A closed connection receives no later group event, whoever the caller
      was. */
  lemma DisconnectedReceivesNothing(h: Hub, ctx: Context, e: Event)
    requires e.target.ToGroup?
    ensures ctx.connectionId !in Recipients(OnDisconnected(h, ctx).groups, e)
  {
  }

  /** A user's first connection, closed again, leaves the registry as it
      was, whatever failed while connecting; when the connection was in no
      group before, the groups are as they were too. */
  lemma ConnectThenDisconnect(h: Hub, connectionId: string, userId: int, fault: Fault)
    requires userId !in h.registry
    ensures DisconnectedAs(ConnectedAs(h, connectionId, userId, fault), connectionId, userId).registry == h.registry
    ensures (forall n :: connectionId !in Members(h.groups, n)) ==>
              forall n :: Members(DisconnectedAs(ConnectedAs(h, connectionId, userId, fault), connectionId, userId).groups, n)
                          == Members(h.groups, n)
  {
    ConnectionRegistry.AddThenRemoveFreshUser(h.registry, userId, connectionId);
    var mid := ConnectedAs(h, connectionId, userId, fault);
    var r := DisconnectedAs(mid, connectionId, userId);
    if forall n :: connectionId !in Members(h.groups, n) {
      forall n
        ensures Members(r.groups, n) == Members(h.groups, n)
      {
        assert Members(r.groups, n) == Members(mid.groups, n) - {connectionId};
        forall c
          ensures c in Members(r.groups, n) <==> c in Members(h.groups, n)
        {
          if c != connectionId {
            assert c in Members(mid.groups, n) <==> c in Members(h.groups, n);
          }
        }
      }
    }
  }

  // ---------------------------------------------------------------------------
  // Client calls
  // ---------------------------------------------------------------------------

  /** What a client sends to post a message. */
  datatype MessageCreate = MessageCreate(content: string, senderId: int, chatId: int)

  /** `SendMessage` once the caller is known: the caller may only post as
      themself; the message is stored (time `now`), the chat's last
      activity is set once more (time `later`), and the stored message goes
      to the chat's group. Any failure is reported to the caller only and
      changes nothing. */
  function SendMessageAs(h: Hub, connectionId: string, userId: int, dto: MessageCreate, now: int, later: int): (r: (Hub, seq<Event>))
    ensures r.0.registry == h.registry && r.0.groups == h.groups
    ensures |r.1| == 1
    ensures r.1[0].target.ToGroup? <==> userId == dto.senderId && ChatService.MayAccess(h.store, dto.chatId, userId)
    ensures userId != dto.senderId ==> r == (h, [Event(ToCaller(connectionId), "ErrorOccurred", ErrorText(SpoofedSender.message))])
    ensures userId == dto.senderId && !ChatService.MayAccess(h.store, dto.chatId, userId) ==>
              r == (h, [Event(ToCaller(connectionId), "ErrorOccurred", ErrorText(ChatService.NotParticipant.message))])
    ensures r.1[0].target.ToGroup? ==>
              && r.1[0].target == ToGroup(GroupName(dto.chatId)) && r.1[0].name == "ReceiveMessage"
              && r.0.store.messages == h.store.messages + [Message(h.store.next.message, dto.content, now, false, dto.senderId, dto.chatId)]
              && r.1[0].payload.Delivered? && r.1[0].payload.message.id == h.store.next.message
  {
    if userId != dto.senderId then (h, [Event(ToCaller(connectionId), "ErrorOccurred", ErrorText(SpoofedSender.message))])
    else
      match ChatService.AddMessage(h.store, dto.content, dto.senderId, dto.chatId, now)
      case Failure(e) => (h, [Event(ToCaller(connectionId), "ErrorOccurred", ErrorText(e.message))])
      case Success((s1, message)) =>
        var s2 := ChatService.UpdateChatLastActivity(s1, dto.chatId, later);
        (h.(store := s2), [Event(ToGroup(GroupName(dto.chatId)), "ReceiveMessage", Delivered(message))])
  }

  /** `SendMessage`: an unauthenticated caller is told so and nothing changes. */
  function SendMessage(h: Hub, ctx: Context, dto: MessageCreate, now: int, later: int): (r: (Hub, seq<Event>))
    ensures CallerId(ctx.user).Failure? ==> r == (h, [ReportError(ctx, InvalidAuthentication)])
    ensures CallerId(ctx.user).Success? ==> r == SendMessageAs(h, ctx.connectionId, CallerId(ctx.user).value, dto, now, later)
  {
    match CallerId(ctx.user)
    case Failure(e) => (h, [ReportError(ctx, e)])
    case Success(userId) => SendMessageAs(h, ctx.connectionId, userId, dto, now, later)
  }

  /** When nothing is broadcast, only the caller hears of it and the hub is
      untouched. */
  lemma RefusedSendChangesNothing(h: Hub, connectionId: string, userId: int, dto: MessageCreate, now: int, later: int)
    requires SendMessageAs(h, connectionId, userId, dto, now, later).1[0].target.ToCaller?
    ensures SendMessageAs(h, connectionId, userId, dto, now, later).0 == h
    ensures SendMessageAs(h, connectionId, userId, dto, now, later).1[0].target == ToCaller(connectionId)
  {
  }

  /** After a broadcast the chat's last activity is the second clock reading. */
  lemma SendMessageTouchesChatTwice(h: Hub, connectionId: string, userId: int, dto: MessageCreate, now: int, later: int)
    requires SendMessageAs(h, connectionId, userId, dto, now, later).1[0].target.ToGroup?
    ensures var h' := SendMessageAs(h, connectionId, userId, dto, now, later).0;
            ChatRepository.GetChatById(h'.store, dto.chatId) ==
              Some(ChatRepository.GetChatById(h.store, dto.chatId).value.(lastActivityAt := later))
  {
    var s1 := ChatService.AddMessage(h.store, dto.content, dto.senderId, dto.chatId, now).value.0;
    var c := ChatRepository.GetChatById(h.store, dto.chatId).value;
    assert ChatRepository.GetChatById(s1, dto.chatId) == Some(c.(lastActivityAt := now)) by {
      assert s1.chats == ChatService.UpdateChatLastActivity(h.store, dto.chatId, now).chats;
      assert ChatService.UpdateChatLastActivity(h.store, dto.chatId, now).chats == s1.chats;
    }
  }

  /** `JoinChat` once the caller is known: a participant's connection joins
      the chat's group and is told so; an unknown chat or an outsider gets
      an error and no group changes. */
  function JoinChatAs(h: Hub, connectionId: string, userId: int, chatId: int): (r: (Hub, seq<Event>))
    ensures r.0.registry == h.registry && r.0.store == h.store
    ensures |r.1| == 1 && r.1[0].target == ToCaller(connectionId)
    ensures ChatRepository.GetChatById(h.store, chatId).None? ==>
              r == (h, [Event(ToCaller(connectionId), "ErrorOccurred", ErrorText(NotInChat.message))])
    ensures ChatRepository.GetChatById(h.store, chatId).Some? && !ChatService.MayAccess(h.store, chatId, userId) ==>
              r == (h, [Event(ToCaller(connectionId), "ErrorOccurred", ErrorText(ChatService.NotParticipant.message))])
    ensures ChatService.MayAccess(h.store, chatId, userId) ==>
              && r.1[0] == Event(ToCaller(connectionId), "JoinedChat", ChatKey(chatId))
              && Members(r.0.groups, GroupName(chatId)) == Members(h.groups, GroupName(chatId)) + {connectionId}
              && forall n :: n != GroupName(chatId) ==> Members(r.0.groups, n) == Members(h.groups, n)
  {
    match ChatService.GetChatById(h.store, chatId, userId)
    case Failure(e) => (h, [Event(ToCaller(connectionId), "ErrorOccurred", ErrorText(e.message))])
    case Success(None) => (h, [Event(ToCaller(connectionId), "ErrorOccurred", ErrorText(NotInChat.message))])
    case Success(Some(_)) =>
      (h.(groups := Join(h.groups, connectionId, GroupName(chatId))),
       [Event(ToCaller(connectionId), "JoinedChat", ChatKey(chatId))])
  }

  /** `JoinChat`: an unauthenticated caller is told so and nothing changes. */
  function JoinChat(h: Hub, ctx: Context, chatId: int): (r: (Hub, seq<Event>))
    ensures CallerId(ctx.user).Failure? ==> r == (h, [ReportError(ctx, InvalidAuthentication)])
    ensures CallerId(ctx.user).Success? ==> r == JoinChatAs(h, ctx.connectionId, CallerId(ctx.user).value, chatId)
  {
    match CallerId(ctx.user)
    case Failure(e) => (h, [ReportError(ctx, e)])
    case Success(userId) => JoinChatAs(h, ctx.connectionId, userId, chatId)
  }

  /** `LeaveChat`: no identity check; the connection leaves the chat's
      group, is told so, and nothing else changes. */
  function LeaveChat(h: Hub, ctx: Context, chatId: int): (r: (Hub, seq<Event>))
    ensures r.0 == h.(groups := r.0.groups)
    ensures Members(r.0.groups, GroupName(chatId)) == Members(h.groups, GroupName(chatId)) - {ctx.connectionId}
    ensures forall n :: n != GroupName(chatId) ==> Members(r.0.groups, n) == Members(h.groups, n)
    ensures r.1 == [Event(ToCaller(ctx.connectionId), "LeftChat", ChatKey(chatId))]
  {
    (h.(groups := Leave(h.groups, ctx.connectionId, GroupName(chatId))),
     [Event(ToCaller(ctx.connectionId), "LeftChat", ChatKey(chatId))])
  }

  /** A connection that joined a chat receives every later message posted
      to that chat, and one that left it receives none of them. */
  lemma GroupMembershipDecidesDelivery(h: Hub, ctx: Context, userId: int, chatId: int,
                                       poster: Context, posterId: int, dto: MessageCreate, now: int, later: int)
    requires ChatService.MayAccess(h.store, chatId, userId)
    requires dto.chatId == chatId
    ensures var h1 := JoinChatAs(h, ctx.connectionId, userId, chatId).0;
            var events := SendMessageAs(h1, poster.connectionId, posterId, dto, now, later).1;
            events[0].target.ToGroup? ==> ctx.connectionId in Recipients(h1.groups, events[0])
    ensures var h1 := LeaveChat(h, ctx, chatId).0;
            var events := SendMessageAs(h1, poster.connectionId, posterId, dto, now, later).1;
            events[0].target.ToGroup? ==> ctx.connectionId !in Recipients(h1.groups, events[0])
  {
  }

  /** Leaving right after joining restores every group when the connection
      was not in the chat's group before. */
  lemma JoinThenLeave(h: Hub, ctx: Context, userId: int, chatId: int)
    requires ctx.connectionId !in Members(h.groups, GroupName(chatId))
    ensures var h1 := JoinChatAs(h, ctx.connectionId, userId, chatId).0;
            forall n :: Members(LeaveChat(h1, ctx, chatId).0.groups, n) == Members(h.groups, n)
  {
  }

  /** `MarkMessagesAsRead` once the caller is known: a participant's unread
      messages in the chat become read and the caller is told so; an
      outsider is told of the error and nothing changes. */
  function MarkMessagesAsReadAs(h: Hub, connectionId: string, userId: int, chatId: int): (r: (Hub, seq<Event>))
    ensures r.0.registry == h.registry && r.0.groups == h.groups
    ensures |r.1| == 1 && r.1[0].target == ToCaller(connectionId)
    ensures !ChatService.MayAccess(h.store, chatId, userId) ==>
              r == (h, [Event(ToCaller(connectionId), "ErrorOccurred", ErrorText(ChatService.NotParticipant.message))])
    ensures ChatService.MayAccess(h.store, chatId, userId) ==>
              && r.1[0] == Event(ToCaller(connectionId), "MessagesMarkedAsRead", ChatKey(chatId))
              && MessageRepository.GetUnreadMessages(r.0.store.messages, chatId, userId) == []
              && r.0.store == h.store.(messages := r.0.store.messages)
  {
    match ChatService.MarkMessagesAsRead(h.store, chatId, userId)
    case Failure(e) => (h, [Event(ToCaller(connectionId), "ErrorOccurred", ErrorText(e.message))])
    case Success(s') => (h.(store := s'), [Event(ToCaller(connectionId), "MessagesMarkedAsRead", ChatKey(chatId))])
  }

  /** `MarkMessagesAsRead`: an unauthenticated caller is told so and nothing changes. */
  function MarkMessagesAsRead(h: Hub, ctx: Context, chatId: int): (r: (Hub, seq<Event>))
    ensures CallerId(ctx.user).Failure? ==> r == (h, [ReportError(ctx, InvalidAuthentication)])
    ensures CallerId(ctx.user).Success? ==> r == MarkMessagesAsReadAs(h, ctx.connectionId, CallerId(ctx.user).value, chatId)
  {
    match CallerId(ctx.user)
    case Failure(e) => (h, [ReportError(ctx, e)])
    case Success(userId) => MarkMessagesAsReadAs(h, ctx.connectionId, userId, chatId)
  }

  /** Only `SendMessage` addresses a group, and only with "ReceiveMessage";
      every other handler talks to the caller alone. */
  lemma GroupEventsAreMessages(h: Hub, ctx: Context, chatId: int, dto: MessageCreate, now: int, later: int)
    ensures ToCallerOnly(ctx, JoinChat(h, ctx, chatId).1)
    ensures ToCallerOnly(ctx, LeaveChat(h, ctx, chatId).1)
    ensures ToCallerOnly(ctx, MarkMessagesAsRead(h, ctx, chatId).1)
    ensures var events := SendMessage(h, ctx, dto, now, later).1;
            forall i :: 0 <= i < |events| && events[i].target.ToGroup? ==> events[i].name == "ReceiveMessage"
  {
    JoinChatToCaller(h, ctx, chatId);
    LeaveChatToCaller(h, ctx, chatId);
    MarkMessagesAsReadToCaller(h, ctx, chatId);
    SendMessageGroupEvent(h, ctx, dto, now, later);
  }

  /** A single event addressed to the caller goes to the caller only. */
  lemma SingleToCaller(ctx: Context, events: seq<Event>)
    requires |events| == 1 && events[0].target == ToCaller(ctx.connectionId)
    ensures ToCallerOnly(ctx, events)
  {
  }

  lemma JoinChatToCaller(h: Hub, ctx: Context, chatId: int)
    ensures ToCallerOnly(ctx, JoinChat(h, ctx, chatId).1)
  {
    SingleToCaller(ctx, JoinChat(h, ctx, chatId).1);
  }

  lemma LeaveChatToCaller(h: Hub, ctx: Context, chatId: int)
    ensures ToCallerOnly(ctx, LeaveChat(h, ctx, chatId).1)
  {
    SingleToCaller(ctx, LeaveChat(h, ctx, chatId).1);
  }

  lemma MarkMessagesAsReadToCaller(h: Hub, ctx: Context, chatId: int)
    ensures ToCallerOnly(ctx, MarkMessagesAsRead(h, ctx, chatId).1)
  {
    SingleToCaller(ctx, MarkMessagesAsRead(h, ctx, chatId).1);
  }

  lemma SendMessageGroupEvent(h: Hub, ctx: Context, dto: MessageCreate, now: int, later: int)
    ensures var events := SendMessage(h, ctx, dto, now, later).1;
            forall i :: 0 <= i < |events| && events[i].target.ToGroup? ==> events[i].name == "ReceiveMessage"
  {
    var events := SendMessage(h, ctx, dto, now, later).1;
    SingleEventGroupName(events);
  }

  /** In a one-event list, a claim about the first event covers all of them. */
  lemma SingleEventGroupName(events: seq<Event>)
    requires |events| == 1
    requires events[0].target.ToGroup? ==> events[0].name == "ReceiveMessage"
    ensures forall i :: 0 <= i < |events| && events[i].target.ToGroup? ==> events[i].name == "ReceiveMessage"
  {
  }
}

=== FILE: chat_repository.dfy ===
/** The chat repository: the chat queries and the insert the chat rules
    issue, as pure selections over the chat table. */
module ChatRepository {
  import opened Wrappers
  import opened Sequences
  import opened Entities
  import MessageRepository

  /** How many newest messages `GetChatByIdAsync` loads with the chat. */
  const ChatByIdWindow: nat := 20

  /** How many newest messages `GetUserChatsAsync` loads with each chat. */
  const UserChatsWindow: nat := 1

  /** `GetChatByIdAsync`: the first chat with this key, or null. */
  function GetChatById(s: Store, chatId: int): (r: Option<Chat>)
    ensures r.Some? ==> r.value in s.chats && r.value.id == chatId
    ensures r.None? <==> forall i :: 0 <= i < |s.chats| ==> s.chats[i].id != chatId
  {
    FirstWhere(s.chats, (c: Chat) => c.id == chatId)
  }

  /** With unique chat keys, looking up a stored chat's key finds that chat. */
  lemma GetChatByIdFindsStored(s: Store, c: Chat)
    ensures ChatsWellFormed(s) && c in s.chats ==> GetChatById(s, c.id) == Some(c)
  {
    if ChatsWellFormed(s) && c in s.chats {
      var k :| 0 <= k < |s.chats| && s.chats[k] == c;
      var r := GetChatById(s, c.id);
      assert s.chats[k].id == c.id;
      var j :| 0 <= j < |s.chats| && s.chats[j] == r.value;
      assert j == k;
    }
  }

  /** The messages a filtered include `Messages.OrderByDescending(SentAt).Take(n)`
      attaches to a chat: the `n` newest of that chat. */
  function LoadedMessages(ms: seq<Message>, chatId: int, n: nat): (r: seq<Message>)
    ensures |r| <= n
    ensures |r| == Clamp(n, |MessageRepository.OfChat(ms, chatId)|)
    ensures r == MessageRepository.NewestFirst(ms, chatId)[..|r|]
  {
    Take(MessageRepository.NewestFirst(ms, chatId), n)
  }

  /** A non-empty window is empty exactly when the chat has no message, and
      its first element is the newest message of the chat. */
  lemma LoadedHeadIsNewest(ms: seq<Message>, chatId: int, n: nat)
    requires n > 0
    ensures |LoadedMessages(ms, chatId, n)| == 0 <==> forall m :: m in ms ==> m.chatId != chatId
    ensures |LoadedMessages(ms, chatId, n)| > 0 ==>
              var head := LoadedMessages(ms, chatId, n)[0];
              head in ms && head.chatId == chatId &&
              forall m :: m in ms && m.chatId == chatId ==> m.sentAt <= head.sentAt
  {
    var all := MessageRepository.NewestFirst(ms, chatId);
    var r := LoadedMessages(ms, chatId, n);
    assert |r| == 0 <==> |all| == 0;
    if |all| > 0 {
      assert all[0] in all;
      assert r[0] == all[0];
      forall m | m in ms && m.chatId == chatId
        ensures m.sentAt <= all[0].sentAt
      {
        assert m in all;
        var j :| 0 <= j < |all| && all[j] == m;
        if j > 0 {
          assert MessageRepository.SentAt(all[0]) >= MessageRepository.SentAt(all[j]);
        }
      }
    }
  }

  /** The sort key of `OrderByDescending(c => c.LastActivityAt)`. */
  function LastActivity(c: Chat): int { c.lastActivityAt }

  /** `GetUserChatsAsync`: the chats the user takes part in, most recently
      active first. */
  function GetUserChats(s: Store, userId: int): (r: seq<Chat>)
    ensures forall c :: c in r <==> c in s.chats && IsParticipant(c, userId)
    ensures SortedDesc(r, LastActivity)
    ensures |r| == Count(s.chats, (c: Chat) => IsParticipant(c, userId))
  {
    FilterLength(s.chats, (c: Chat) => IsParticipant(c, userId));
    SortDesc(Filter(s.chats, (c: Chat) => IsParticipant(c, userId)), LastActivity)
  }

  /** A private chat in which both users take part. */
  predicate IsPrivateBetween(c: Chat, user1: int, user2: int)
  {
    c.chatType == Private && IsParticipant(c, user1) && IsParticipant(c, user2)
  }

  /** `GetPrivateChatBetweenUsersAsync`: the first private chat containing
      both users, or null. */
  function GetPrivateChatBetween(s: Store, user1: int, user2: int): (r: Option<Chat>)
    ensures r.Some? ==> r.value in s.chats && r.value.chatType == Private
    ensures r.Some? ==> IsParticipant(r.value, user1) && IsParticipant(r.value, user2)
    ensures r.None? <==> forall i :: 0 <= i < |s.chats| ==> !IsPrivateBetween(s.chats[i], user1, user2)
  {
    FirstWhere(s.chats, (c: Chat) => IsPrivateBetween(c, user1, user2))
  }

  /** The lookup does not depend on the order of the two users. */
  lemma PrivateChatBetweenSymmetric(s: Store, user1: int, user2: int)
    ensures GetPrivateChatBetween(s, user1, user2) == GetPrivateChatBetween(s, user2, user1)
  {
    FirstWhereAgree(s.chats, (c: Chat) => IsPrivateBetween(c, user1, user2),
                             (c: Chat) => IsPrivateBetween(c, user2, user1));
  }

  /** With both arguments equal the lookup asks only for a private chat the
      user takes part in, so any conversation of that user with someone else
      is found. */
  lemma PrivateChatWithSelf(s: Store, userId: int, i: nat)
    requires i < |s.chats|
    requires s.chats[i].chatType == Private && IsParticipant(s.chats[i], userId)
    ensures GetPrivateChatBetween(s, userId, userId).Some?
  {
    assert IsPrivateBetween(s.chats[i], userId, userId);
  }

  /** A group chat is never found as a private chat, whoever is in it. */
  lemma GroupChatsNotPrivate(s: Store, user1: int, user2: int)
    requires forall i :: 0 <= i < |s.chats| ==> s.chats[i].chatType == Group
    ensures GetPrivateChatBetween(s, user1, user2) == None
  {
  }

  /** The chat a department-chat lookup accepts. Custom group chats also
      carry the department key, so they qualify too. */
  predicate IsDepartmentChat(c: Chat, departmentId: int)
  {
    c.departmentId == Some(departmentId) && c.chatType == Group
  }

  /** `GetDepartmentChatAsync`: the first group chat of the department. */
  function GetDepartmentChat(s: Store, departmentId: int): (r: Option<Chat>)
    ensures r.Some? ==> r.value in s.chats && r.value.chatType == Group
    ensures r.Some? ==> r.value.departmentId == Some(departmentId)
    ensures r.None? <==> forall i :: 0 <= i < |s.chats| ==> !IsDepartmentChat(s.chats[i], departmentId)
  {
    FirstWhere(s.chats, (c: Chat) => IsDepartmentChat(c, departmentId))
  }

  const DuplicateParticipant := Error(DbUpdate, "Cannot insert duplicate key row in object 'ChatParticipants' with unique index on (ChatId, UserId).")

  /** `CreateChatAsync`: the chat receives the next chat key and is saved
      with its participants. A participant list naming a user twice breaks
      the unique (chat, user) index, so the save fails and nothing is stored. */
  function CreateChat(s: Store, chat: Chat): (r: Result<(Store, Chat), Error>)
    ensures r.Failure? <==> !ParticipantsUnique(chat)
    ensures r.Failure? ==> r.error.kind == DbUpdate
    ensures r.Success? ==> r.value.1 == chat.(id := s.next.chat)
    ensures r.Success? ==> r.value.0.chats == s.chats + [r.value.1]
    ensures r.Success? ==> r.value.0.next == s.next.(chat := s.next.chat + 1)
    ensures r.Success? ==> r.value.0 == s.(chats := r.value.0.chats, next := r.value.0.next)
  {
    if !ParticipantsUnique(chat) then Failure(DuplicateParticipant)
    else
      var stored := chat.(id := s.next.chat);
      Success((s.(chats := s.chats + [stored], next := s.next.(chat := s.next.chat + 1)), stored))
  }

  /** Saving keeps chat keys distinct and below the seed, and every chat
      within the unique participant index. */
  lemma CreateChatWellFormed(s: Store, chat: Chat)
    requires ChatsWellFormed(s)
    ensures CreateChat(s, chat).Success? ==> ChatsWellFormed(CreateChat(s, chat).value.0)
  {
  }

  /** Reloading the saved chat by its new key yields the chat returned. */
  lemma CreateChatReload(s: Store, chat: Chat)
    requires ChatsWellFormed(s)
    requires ParticipantsUnique(chat)
    ensures var (s', c) := CreateChat(s, chat).value; GetChatById(s', c.id) == Some(c)
  {
    var (s', c) := CreateChat(s, chat).value;
    assert s'.chats[|s.chats|] == c;
    var found := GetChatById(s', c.id);
    if found.Some? {
      var k :| 0 <= k < |s'.chats| && s'.chats[k] == found.value;
      assert k == |s.chats|;
    }
  }
}

=== FILE: chat_service.dfy ===
/** The chat rules: who may see a chat and its messages, how a chat is shown
    to one viewer, how new messages are recorded, and how private,
    department and custom group chats are created or reused. Every
    operation takes the store and returns the new store (when it writes)
    together with its answer, or the exception it throws. */
module ChatService {
  import opened Wrappers
  import opened Sequences
  import opened Entities
  import MessageRepository
  import ChatRepository

  const UnknownUser := "Unknown User"
  const NotParticipant := Error(Unauthorized, "User is not a participant in this chat")
  const UsersMissing := Error(Argument, "One or both users do not exist")
  const CreatorMissing := Error(Argument, "User does not exist")
  const CreatorOutsideDepartment := Error(Unauthorized, "User is not a member of this department")
  const DepartmentMissing := Error(Argument, "Department does not exist")
  const SelectionOutsideDepartment := Error(Argument, "All selected users must be from the same department")
  const ParticipantUserMissing := Error(DbUpdate, "The INSERT statement conflicted with the FOREIGN KEY constraint \"FK_ChatParticipants_Users_UserId\".")

  // ---------------------------------------------------------------------------
  // Views
  // ---------------------------------------------------------------------------

  datatype MessageDto = MessageDto(
    id: int,
    content: string,
    sentAt: int,
    isRead: bool,
    senderId: int,
    senderName: string,
    chatId: int)

  /** `userName` is absent only for a participant whose user row is missing. */
  datatype ParticipantDto = ParticipantDto(userId: int, userName: Option<string>, isAdmin: bool, joinedAt: int)

  datatype ChatDto = ChatDto(
    id: int,
    name: Option<string>,
    chatType: ChatType,
    createdAt: int,
    lastActivityAt: int,
    departmentId: Option<int>,
    departmentName: Option<string>,
    lastMessage: Option<MessageDto>,
    unreadCount: nat,
    participants: seq<ParticipantDto>)

  /** `MapMessageToDto`: the message as shown, with its sender's name, or
      "Unknown User" when the sender row is missing. */
  function MapMessageToDto(s: Store, m: Message): (r: MessageDto)
    ensures r.id == m.id && r.content == m.content && r.sentAt == m.sentAt
    ensures r.isRead == m.isRead && r.senderId == m.senderId && r.chatId == m.chatId
    ensures FindUser(s, m.senderId).None? ==> r.senderName == UnknownUser
    ensures FindUser(s, m.senderId).Some? ==> r.senderName == FindUser(s, m.senderId).value.name
  {
    MessageDto(m.id, m.content, m.sentAt, m.isRead, m.senderId,
               UserName(s, m.senderId).GetOr(UnknownUser), m.chatId)
  }

  /** `GetPrivateChatName`: the name of the first participant other than
      the viewer, or "Unknown User" when there is none. */
  function PrivateChatName(s: Store, c: Chat, viewer: int): (r: string)
    ensures (forall i :: 0 <= i < |c.participants| ==> c.participants[i].userId == viewer) ==> r == UnknownUser
    ensures forall k :: 0 <= k < |c.participants| && c.participants[k].userId != viewer &&
                        (forall j :: 0 <= j < k ==> c.participants[j].userId == viewer)
                   ==> r == UserName(s, c.participants[k].userId).GetOr(UnknownUser)
  {
    match FirstWhere(c.participants, (p: Participant) => p.userId != viewer)
    case None => UnknownUser
    case Some(p) => UserName(s, p.userId).GetOr(UnknownUser)
  }

  /** In a two-person conversation each side sees the other's name. */
  lemma PrivateChatNamesCross(s: Store, c: Chat, a: User, b: User)
    requires c.participants == [Participant(a.id, false, c.createdAt), Participant(b.id, false, c.createdAt)]
    requires a.id != b.id
    requires FindUser(s, a.id) == Some(a) && FindUser(s, b.id) == Some(b)
    ensures PrivateChatName(s, c, a.id) == b.name
    ensures PrivateChatName(s, c, b.id) == a.name
  {
    var other := (p: Participant) => p.userId != a.id;
    assert IndexOfFirst(c.participants, other) == Some(1);
    var otherB := (p: Participant) => p.userId != b.id;
    assert IndexOfFirst(c.participants, otherB) == Some(0);
  }

  /** The participant list as shown; `admin` says which rows are flagged. */
  function ParticipantDtos(s: Store, ps: seq<Participant>, admin: Participant -> bool): (r: seq<ParticipantDto>)
    ensures |r| == |ps|
    ensures forall i :: 0 <= i < |ps| ==> r[i].userId == ps[i].userId && r[i].joinedAt == ps[i].joinedAt
    ensures forall i :: 0 <= i < |ps| ==> r[i].isAdmin == admin(ps[i])
    ensures forall i :: 0 <= i < |ps| ==> r[i].userName == UserName(s, ps[i].userId)
  {
    seq(|ps|, i requires 0 <= i < |ps| =>
      ParticipantDto(ps[i].userId, UserName(s, ps[i].userId), admin(ps[i]), ps[i].joinedAt))
  }

  /** The newest message of the chat among the `window` newest loaded with
      it, re-sorted newest first: `Messages.OrderByDescending(SentAt).First()`. */
  function LastMessage(ms: seq<Message>, chatId: int, window: nat): (r: Option<Message>)
    requires window > 0
    ensures r.None? <==> forall m :: m in ms ==> m.chatId != chatId
    ensures r.Some? ==> r.value in ms && r.value.chatId == chatId
    ensures r.Some? ==> forall m :: m in ms && m.chatId == chatId ==> m.sentAt <= r.value.sentAt
  {
    var loaded := ChatRepository.LoadedMessages(ms, chatId, window);
    ChatRepository.LoadedHeadIsNewest(ms, chatId, window);
    if |loaded| == 0 then None
    else
      ResortedHeadInChat(ms, chatId, window);
      ResortedHeadIsMax(ms, chatId, window);
      Some(SortDesc(loaded, MessageRepository.SentAt)[0])
  }

  /** Re-sorting the loaded window puts a message of the chat first. */
  lemma ResortedHeadInChat(ms: seq<Message>, chatId: int, window: nat)
    requires window > 0 && |ChatRepository.LoadedMessages(ms, chatId, window)| > 0
    ensures var newest := SortDesc(ChatRepository.LoadedMessages(ms, chatId, window), MessageRepository.SentAt)[0];
            newest in ms && newest.chatId == chatId
  {
    var loaded := ChatRepository.LoadedMessages(ms, chatId, window);
    var all := MessageRepository.NewestFirst(ms, chatId);
    var newest := SortDesc(loaded, MessageRepository.SentAt)[0];
    SortDescHeadIsMax(loaded, MessageRepository.SentAt);
    assert loaded == all[..|loaded|];
    assert newest in all[..|loaded|];
  }

  /** Re-sorting the loaded window puts a newest message of the chat first. */
  lemma ResortedHeadIsMax(ms: seq<Message>, chatId: int, window: nat)
    requires window > 0 && |ChatRepository.LoadedMessages(ms, chatId, window)| > 0
    ensures var newest := SortDesc(ChatRepository.LoadedMessages(ms, chatId, window), MessageRepository.SentAt)[0];
            forall m :: m in ms && m.chatId == chatId ==> m.sentAt <= newest.sentAt
  {
    var loaded := ChatRepository.LoadedMessages(ms, chatId, window);
    ChatRepository.LoadedHeadIsNewest(ms, chatId, window);
    SortDescHeadIsMax(loaded, MessageRepository.SentAt);
    assert loaded[0] in loaded;
  }

  /** A chat as one viewer sees it; `window` is the number of newest
      messages the query that fetched the chat loaded with it. */
  function ToChatDto(s: Store, c: Chat, viewer: int, window: nat): (r: ChatDto)
    requires window > 0
    ensures r.id == c.id && r.chatType == c.chatType && r.departmentId == c.departmentId
    ensures r.createdAt == c.createdAt && r.lastActivityAt == c.lastActivityAt
    ensures c.chatType == Group ==> r.name == c.name
    ensures c.chatType == Private ==> r.name == Some(PrivateChatName(s, c, viewer))
    ensures r.unreadCount == Count(s.messages, (m: Message) => MessageRepository.IsUnreadFor(m, c.id, viewer))
    ensures r.lastMessage.None? <==> forall m :: m in s.messages ==> m.chatId != c.id
    ensures r.lastMessage.Some? ==> r.lastMessage.value.chatId == c.id
    ensures r.lastMessage.Some? ==>
              forall m :: m in s.messages && m.chatId == c.id ==> m.sentAt <= r.lastMessage.value.sentAt
    ensures LastMessage(s.messages, c.id, window).Some? ==>
              r.lastMessage == Some(MapMessageToDto(s, LastMessage(s.messages, c.id, window).value))
    ensures c.departmentId.None? ==> r.departmentName.None?
    ensures c.departmentId.Some? ==>
              (r.departmentName.Some? <==> FindDepartment(s, c.departmentId.value).Some?)
              && (r.departmentName.Some? ==> r.departmentName.value == FindDepartment(s, c.departmentId.value).value.name)
    ensures |r.participants| == |c.participants|
    ensures forall i :: 0 <= i < |c.participants| ==>
              && r.participants[i].userId == c.participants[i].userId
              && r.participants[i].isAdmin == c.participants[i].isAdmin
              && r.participants[i].joinedAt == c.participants[i].joinedAt
              && r.participants[i].userName == UserName(s, c.participants[i].userId)
  {
    var unread := MessageRepository.GetUnreadMessages(s.messages, c.id, viewer);
    var last := LastMessage(s.messages, c.id, window);
    ChatDto(
      c.id,
      if c.chatType == Private then Some(PrivateChatName(s, c, viewer)) else c.name,
      c.chatType,
      c.createdAt,
      c.lastActivityAt,
      c.departmentId,
      DepartmentName(s, c.departmentId),
      if last.None? then None else Some(MapMessageToDto(s, last.value)),
      |unread|,
      ParticipantDtos(s, c.participants, (p: Participant) => p.isAdmin))
  }

  // ---------------------------------------------------------------------------
  // Queries
  // ---------------------------------------------------------------------------

  function ActivityOf(d: ChatDto): int { d.lastActivityAt }

  /** `GetUserChatsAsync`: every chat the user takes part in, most recently
      active first, each shown to that user. */
  function GetUserChats(s: Store, userId: int): (r: seq<ChatDto>)
    ensures |r| == Count(s.chats, (c: Chat) => IsParticipant(c, userId))
    ensures SortedDesc(r, ActivityOf)
    ensures forall c :: c in s.chats && IsParticipant(c, userId) ==>
              ToChatDto(s, c, userId, ChatRepository.UserChatsWindow) in r
  {
    var chats := ChatRepository.GetUserChats(s, userId);
    var show := (c: Chat) => ToChatDto(s, c, userId, ChatRepository.UserChatsWindow);
    MapSortedDesc(chats, show, ChatRepository.LastActivity, ActivityOf);
    forall c | c in s.chats && IsParticipant(c, userId)
      ensures show(c) in Map(chats, show)
    {
      MapContains(chats, show, c);
    }
    Map(chats, show)
  }

  /** Every chat shown to a user counts exactly the messages of that chat
      the user has not read and did not send. */
  lemma UserChatsUnreadCounts(s: Store, userId: int)
    ensures forall d :: d in GetUserChats(s, userId) ==>
              d.unreadCount == Count(s.messages, (m: Message) => MessageRepository.IsUnreadFor(m, d.id, userId))
  {
    var chats := ChatRepository.GetUserChats(s, userId);
    forall d | d in GetUserChats(s, userId)
      ensures d.unreadCount == Count(s.messages, (m: Message) => MessageRepository.IsUnreadFor(m, d.id, userId))
    {
      var k :| 0 <= k < |chats| && GetUserChats(s, userId)[k] == d;
      assert d == ToChatDto(s, chats[k], userId, ChatRepository.UserChatsWindow);
    }
  }

  /** `GetChatByIdAsync(chatId, userId)`: null for an unknown chat; a chat
      the user does not take part in is refused. */
  function GetChatById(s: Store, chatId: int, userId: int): (r: Result<Option<ChatDto>, Error>)
    ensures ChatRepository.GetChatById(s, chatId).None? ==> r == Success(None)
    ensures ChatRepository.GetChatById(s, chatId).Some? && !IsParticipant(ChatRepository.GetChatById(s, chatId).value, userId)
            ==> r == Failure(NotParticipant)
    ensures ChatRepository.GetChatById(s, chatId).Some? && IsParticipant(ChatRepository.GetChatById(s, chatId).value, userId)
            ==> r == Success(Some(ToChatDto(s, ChatRepository.GetChatById(s, chatId).value, userId, ChatRepository.ChatByIdWindow)))
    ensures r.Success? && r.value.Some? ==>
              var c := ChatRepository.GetChatById(s, chatId).value;
              IsParticipant(c, userId) && r.value.value == ToChatDto(s, c, userId, ChatRepository.ChatByIdWindow)
  {
    match ChatRepository.GetChatById(s, chatId)
    case None => Success(None)
    case Some(c) =>
      if !IsParticipant(c, userId) then Failure(NotParticipant)
      else Success(Some(ToChatDto(s, c, userId, ChatRepository.ChatByIdWindow)))
  }

  /** The participant check `GetChatMessagesAsync`, `AddMessageAsync` and
      `MarkMessagesAsReadAsync` share: an unknown chat is refused as well. */
  predicate MayAccess(s: Store, chatId: int, userId: int)
  {
    var c := ChatRepository.GetChatById(s, chatId);
    c.Some? && IsParticipant(c.value, userId)
  }

  function SentAtOf(d: MessageDto): int { d.sentAt }

  /** The views of a run of message rows, one per row and in the same
      order; rows of one chat, newest first, stay so. */
  function MessageViews(s: Store, rows: seq<Message>, chatId: int): (r: seq<MessageDto>)
    requires forall m :: m in rows ==> m.chatId == chatId
    requires SortedDesc(rows, MessageRepository.SentAt)
    ensures |r| == |rows|
    ensures forall i :: 0 <= i < |r| ==> r[i] == MapMessageToDto(s, rows[i])
    ensures forall i :: 0 <= i < |r| ==> r[i].chatId == chatId
    ensures SortedDesc(r, SentAtOf)
  {
    var show := (m: Message) => MapMessageToDto(s, m);
    MapSortedDesc(rows, show, MessageRepository.SentAt, SentAtOf);
    assert forall i :: 0 <= i < |rows| ==> rows[i].chatId == chatId by {
      forall i | 0 <= i < |rows|
        ensures rows[i].chatId == chatId
      {
        assert rows[i] in rows;
      }
    }
    Map(rows, show)
  }

  /** `GetChatMessagesAsync`: one page of the chat's messages, newest
      first, for a participant only. */
  function GetChatMessages(s: Store, chatId: int, userId: int, page: int32, pageSize: int32): (r: Result<seq<MessageDto>, Error>)
    ensures r.Failure? <==> !MayAccess(s, chatId, userId)
    ensures r.Failure? ==> r.error == NotParticipant
    ensures r.Success? ==> |r.value| == |MessageRepository.GetChatMessages(s.messages, chatId, page, pageSize)|
    ensures r.Success? ==> forall i :: 0 <= i < |r.value| ==> r.value[i].chatId == chatId
    ensures r.Success? ==> SortedDesc(r.value, SentAtOf)
    ensures r.Success? ==>
              var rows := MessageRepository.GetChatMessages(s.messages, chatId, page, pageSize);
              forall i :: 0 <= i < |r.value| ==> r.value[i] == MapMessageToDto(s, rows[i])
  {
    if !MayAccess(s, chatId, userId) then Failure(NotParticipant)
    else Success(MessageViews(s, MessageRepository.GetChatMessages(s.messages, chatId, page, pageSize), chatId))
  }

  // ---------------------------------------------------------------------------
  // Messages
  // ---------------------------------------------------------------------------

  /** `UpdateChatLastActivityAsync`: the chat the key finds gets `now` as
      its last activity; an unknown key changes nothing. */
  function UpdateChatLastActivity(s: Store, chatId: int, now: int): (r: Store)
    ensures ChatRepository.GetChatById(s, chatId).None? ==> r == s
    ensures r == s.(chats := r.chats)
    ensures |r.chats| == |s.chats|
    ensures forall i :: 0 <= i < |s.chats| && s.chats[i].id != chatId ==> r.chats[i] == s.chats[i]
    ensures forall i :: 0 <= i < |s.chats| ==> r.chats[i] == s.chats[i].(lastActivityAt := r.chats[i].lastActivityAt)
    ensures ChatRepository.GetChatById(s, chatId).Some? ==>
              ChatRepository.GetChatById(r, chatId) == Some(ChatRepository.GetChatById(s, chatId).value.(lastActivityAt := now))
  {
    match IndexOfFirst(s.chats, (c: Chat) => c.id == chatId)
    case None => s
    case Some(k) =>
      var r := s.(chats := s.chats[k := s.chats[k].(lastActivityAt := now)]);
      assert IndexOfFirst(r.chats, (c: Chat) => c.id == chatId) == Some(k) by {
        FirstWhereAgreeUpTo(s.chats, r.chats, chatId, k);
      }
      r
  }

  /** Changing a row that keeps its key does not move the first row with that key. */
  lemma FirstWhereAgreeUpTo(a: seq<Chat>, b: seq<Chat>, chatId: int, k: nat)
    requires |a| == |b| && k < |a|
    requires forall i :: 0 <= i < |a| ==> a[i].id == b[i].id
    requires IndexOfFirst(a, (c: Chat) => c.id == chatId) == Some(k)
    ensures IndexOfFirst(b, (c: Chat) => c.id == chatId) == Some(k)
  {
    FirstWhereAgree(b, (c: Chat) => c.id == chatId, (c: Chat) => c.id == chatId);
    IndexOfFirstById(a, b, chatId);
  }

  lemma {:induction false} IndexOfFirstById(a: seq<Chat>, b: seq<Chat>, chatId: int)
    requires |a| == |b|
    requires forall i :: 0 <= i < |a| ==> a[i].id == b[i].id
    ensures IndexOfFirst(a, (c: Chat) => c.id == chatId) == IndexOfFirst(b, (c: Chat) => c.id == chatId)
  {
    if |a| > 0 {
      IndexOfFirstById(a[1..], b[1..], chatId);
    }
  }

  /** `AddMessageAsync`: a participant's message is stored unread with the
      current time, the chat's last activity becomes `now`, and the stored
      message is returned as shown. */
  function AddMessage(s: Store, content: string, senderId: int, chatId: int, now: int): (r: Result<(Store, MessageDto), Error>)
    ensures r.Failure? <==> !MayAccess(s, chatId, senderId)
    ensures r.Failure? ==> r.error == NotParticipant
    ensures r.Success? ==>
              r.value.0.messages == s.messages + [Message(s.next.message, content, now, false, senderId, chatId)]
    ensures r.Success? ==> r.value.0.next == s.next.(message := s.next.message + 1)
    ensures r.Success? ==> r.value.0 == s.(messages := r.value.0.messages, chats := r.value.0.chats, next := r.value.0.next)
    ensures r.Success? ==> r.value.0.chats == UpdateChatLastActivity(s, chatId, now).chats
    ensures r.Success? ==> r.value.1.id == s.next.message && r.value.1.content == content
    ensures r.Success? ==> r.value.1.senderId == senderId && r.value.1.chatId == chatId && !r.value.1.isRead
  {
    if !MayAccess(s, chatId, senderId) then Failure(NotParticipant)
    else
      var (s1, stored) := MessageRepository.AddMessage(s, Message(0, content, now, false, senderId, chatId));
      var s2 := UpdateChatLastActivity(s1, chatId, now);
      Success((s2, MapMessageToDto(s2, stored)))
  }

  /** `MarkMessagesAsReadAsync`: for a participant, every unread message of
      the chat from someone else becomes read. */
  function MarkMessagesAsRead(s: Store, chatId: int, userId: int): (r: Result<Store, Error>)
    ensures r.Failure? <==> !MayAccess(s, chatId, userId)
    ensures r.Failure? ==> r.error == NotParticipant
    ensures r.Success? ==> r.value == s.(messages := r.value.messages)
    ensures r.Success? ==> MessageRepository.GetUnreadMessages(r.value.messages, chatId, userId) == []
    ensures r.Success? ==> |r.value.messages| == |s.messages|
    ensures r.Success? && MessagesWellFormed(s) ==>
              forall i :: 0 <= i < |s.messages| && !MessageRepository.IsUnreadFor(s.messages[i], chatId, userId)
                ==> r.value.messages[i] == s.messages[i]
    ensures r.Success? && MessagesWellFormed(s) ==>
              forall i :: 0 <= i < |s.messages| && MessageRepository.IsUnreadFor(s.messages[i], chatId, userId)
                ==> r.value.messages[i] == s.messages[i].(isRead := true)
  {
    if !MayAccess(s, chatId, userId) then Failure(NotParticipant)
    else
      var unread := MessageRepository.GetUnreadMessages(s.messages, chatId, userId);
      if |unread| == 0 then
        MessageRepository.FilterUnreadEmpty(s.messages, chatId, userId);
        Success(s)
      else
        var marked := MessageRepository.MarkAsRead(s.messages, unread);
        MessageRepository.MarkUnreadClearsUnread(s.messages, chatId, userId);
        assert MessagesWellFormed(s) ==>
                 forall i :: 0 <= i < |s.messages| ==>
                   marked[i] == if MessageRepository.IsUnreadFor(s.messages[i], chatId, userId)
                                then s.messages[i].(isRead := true) else s.messages[i] by {
          if MessagesWellFormed(s) {
            MessageRepository.MarkUnreadFrame(s.messages, chatId, userId);
          }
        }
        Success(s.(messages := marked))
  }

  // ---------------------------------------------------------------------------
  // Creating chats
  // ---------------------------------------------------------------------------

  /** `s'` is `s` with one more chat, saved under the next chat key and
      within the unique participant index; nothing else differs. */
  ghost predicate AppendsOneChat(s: Store, s': Store)
  {
    && |s'.chats| == |s.chats| + 1
    && s' == s.(chats := s.chats + [s'.chats[|s.chats|]], next := s.next.(chat := s.next.chat + 1))
    && s'.chats[|s.chats|].id == s.next.chat
    && ParticipantsUnique(s'.chats[|s.chats|])
  }

  /** The chat an `AppendsOneChat` step added. */
  function NewChat(s: Store, s': Store): Chat
    requires |s'.chats| > |s.chats|
  {
    s'.chats[|s.chats|]
  }

  /** A successful save appends exactly the returned chat. */
  lemma CreateChatAppends(s: Store, chat: Chat)
    requires ChatRepository.CreateChat(s, chat).Success?
    ensures var (s', c) := ChatRepository.CreateChat(s, chat).value;
            AppendsOneChat(s, s') && NewChat(s, s') == c && c.participants == chat.participants
  {
  }

  /** Appending a chat keeps the chat table well formed. */
  lemma AppendedChatKeepsChatsWellFormed(s: Store, s': Store)
    requires ChatsWellFormed(s)
    requires AppendsOneChat(s, s')
    ensures ChatsWellFormed(s')
  {
    assert s'.chats == s.chats + [NewChat(s, s')];
  }

  /** Appending a chat keeps the tables well formed. */
  lemma AppendedChatKeepsWellFormed(s: Store, s': Store)
    requires ChatsWellFormed(s) && MessagesWellFormed(s)
    requires AppendsOneChat(s, s')
    ensures ChatsWellFormed(s') && MessagesWellFormed(s')
  {
    assert s'.chats == s.chats + [NewChat(s, s')];
  }

  /** The chat `CreatePrivateChatAsync` saves: private, unnamed, with the
      two users as participants in that order and no admin. */
  predicate PrivateChatShape(c: Chat, userId: int, otherUserId: int)
  {
    && c.chatType == Private && c.name == None && c.departmentId == None
    && ParticipantIds(c) == [userId, otherUserId]
    && (forall p :: p in c.participants ==> !p.isAdmin)
  }

  /** `CreatePrivateChatAsync`: an existing private chat of the two users is
      shown instead of creating one; otherwise both users must exist and a
      private chat with exactly the two of them, neither an admin, is
      created and shown with the other user's name. */
  function CreatePrivateChat(s: Store, userId: int, otherUserId: int, now: int): (r: Result<(Store, Option<ChatDto>), Error>)
    ensures ChatRepository.GetPrivateChatBetween(s, userId, otherUserId).Some? ==> r.Success? ==> r.value.0 == s
    ensures ChatRepository.GetPrivateChatBetween(s, userId, otherUserId).None?
            && (FindUser(s, userId).None? || FindUser(s, otherUserId).None?)
            ==> r == Failure(UsersMissing)
    ensures ChatRepository.GetPrivateChatBetween(s, userId, otherUserId).None?
            && FindUser(s, userId).Some? && FindUser(s, otherUserId).Some?
            ==> (r.Success? <==> userId != otherUserId)
    ensures ChatRepository.GetPrivateChatBetween(s, userId, otherUserId).None? && r.Success? ==>
              && AppendsOneChat(s, r.value.0)
              && PrivateChatShape(NewChat(s, r.value.0), userId, otherUserId)
              && r.value.1.Some? && r.value.1.value.id == NewChat(s, r.value.0).id
              && r.value.1.value.name == Some(FindUser(s, otherUserId).value.name)
              && r.value.1.value.unreadCount == 0
    ensures ChatsWellFormed(s) && ChatRepository.GetPrivateChatBetween(s, userId, otherUserId).Some? ==>
              && r.Success? && r.value.0 == s && r.value.1.Some?
              && r.value.1.value.id == ChatRepository.GetPrivateChatBetween(s, userId, otherUserId).value.id
  {
    match ChatRepository.GetPrivateChatBetween(s, userId, otherUserId)
    case Some(existing) =>
      ChatRepository.GetChatByIdFindsStored(s, existing);
      (match GetChatById(s, existing.id, userId)
       case Failure(e) => Failure(e)
       case Success(d) => Success((s, d)))
    case None =>
      var user := FindUser(s, userId);
      var other := FindUser(s, otherUserId);
      if user.None? || other.None? then Failure(UsersMissing)
      else
        var chat := Chat(0, None, Private, now, now, None,
                         [Participant(userId, false, now), Participant(otherUserId, false, now)]);
        assert ParticipantsUnique(chat) <==> userId != otherUserId by {
          var ids := ParticipantIds(chat);
          assert ids[0] == userId && ids[1] == otherUserId && |ids| == 2;
        }
        match ChatRepository.CreateChat(s, chat)
        case Failure(e) => Failure(e)
        case Success((s', c)) =>
          CreateChatAppends(s, chat);
          assert ParticipantIds(c) == [userId, otherUserId];
          Success((s', Some(ChatDto(c.id, Some(other.value.name), Private, c.createdAt, c.lastActivityAt,
                                    None, None, None, 0,
                                    ParticipantDtos(s', c.participants, (p: Participant) => false)))))
  }

  /** Asking again for the private chat just created reuses it: the second
      call leaves the store as it is and, on unique chat keys, shows the
      same chat, whichever of the two users asks first. */
  lemma CreatePrivateChatReuses(s: Store, userId: int, otherUserId: int, now: int, later: int)
    requires CreatePrivateChat(s, userId, otherUserId, now).Success?
    ensures var s' := CreatePrivateChat(s, userId, otherUserId, now).value.0;
            ChatRepository.GetPrivateChatBetween(s', userId, otherUserId).Some?
    ensures var s' := CreatePrivateChat(s, userId, otherUserId, now).value.0;
            CreatePrivateChat(s', userId, otherUserId, later).Success? ==>
              CreatePrivateChat(s', userId, otherUserId, later).value.0 == s'
    ensures var r := CreatePrivateChat(s, userId, otherUserId, now);
            var again := CreatePrivateChat(r.value.0, userId, otherUserId, later);
            ChatsWellFormed(s) ==>
              && r.value.1.Some? && again.Success? && again.value.0 == r.value.0
              && again.value.1.Some? && again.value.1.value.id == r.value.1.value.id
    ensures var r := CreatePrivateChat(s, userId, otherUserId, now);
            var swapped := CreatePrivateChat(r.value.0, otherUserId, userId, later);
            ChatsWellFormed(s) ==>
              && r.value.1.Some? && swapped.Success? && swapped.value.0 == r.value.0
              && swapped.value.1.Some? && swapped.value.1.value.id == r.value.1.value.id
  {
    var r := CreatePrivateChat(s, userId, otherUserId, now);
    var s' := r.value.0;
    if ChatRepository.GetPrivateChatBetween(s, userId, otherUserId).None? {
      var c := NewChat(s, s');
      assert ParticipantIds(c)[0] == userId && ParticipantIds(c)[1] == otherUserId;
      assert ChatRepository.IsPrivateBetween(s'.chats[|s.chats|], userId, otherUserId);
    }
    if ChatsWellFormed(s) {
      var found := ChatRepository.GetPrivateChatBetween(s', userId, otherUserId).value;
      if ChatRepository.GetPrivateChatBetween(s, userId, otherUserId).None? {
        AppendedChatKeepsChatsWellFormed(s, s');
        assert s'.chats == s.chats + [NewChat(s, s')];
        assert found == NewChat(s, s');
      }
      assert ChatsWellFormed(s') && r.value.1.value.id == found.id;
      ChatRepository.PrivateChatBetweenSymmetric(s', userId, otherUserId);
    }
  }

  /** Creating a private chat keeps the chat and message tables well formed. */
  lemma CreatePrivateChatKeepsWellFormed(s: Store, userId: int, otherUserId: int, now: int)
    requires ChatsWellFormed(s) && MessagesWellFormed(s)
    ensures var r := CreatePrivateChat(s, userId, otherUserId, now);
            r.Success? ==> ChatsWellFormed(r.value.0) && MessagesWellFormed(r.value.0)
  {
    var r := CreatePrivateChat(s, userId, otherUserId, now);
    if r.Success? && ChatRepository.GetPrivateChatBetween(s, userId, otherUserId).None? {
      AppendedChatKeepsWellFormed(s, r.value.0);
    }
  }

  /** The checks department and custom group chats make first, in order:
      the creator exists, belongs to the department, and the department
      exists. */
  function CheckCreator(s: Store, creatorId: int, departmentId: int): (r: Result<User, Error>)
    ensures FindUser(s, creatorId).None? <==> r == Failure(CreatorMissing)
    ensures r.Success? <==>
              FindUser(s, creatorId).Some? && FindUser(s, creatorId).value.departmentId == departmentId
              && DepartmentExists(s, departmentId)
    ensures r.Success? ==> r.value == FindUser(s, creatorId).value
    ensures FindUser(s, creatorId).Some? && FindUser(s, creatorId).value.departmentId != departmentId
            ==> r == Failure(CreatorOutsideDepartment)
    ensures FindUser(s, creatorId).Some? && FindUser(s, creatorId).value.departmentId == departmentId
            && !DepartmentExists(s, departmentId)
            ==> r == Failure(DepartmentMissing)
  {
    match FindUser(s, creatorId)
    case None => Failure(CreatorMissing)
    case Some(creator) =>
      if creator.departmentId != departmentId then Failure(CreatorOutsideDepartment)
      else if !DepartmentExists(s, departmentId) then Failure(DepartmentMissing)
      else Success(creator)
  }

  /** Users of one department, in table order. */
  function DepartmentUsers(s: Store, departmentId: int): (r: seq<User>)
    ensures forall u :: u in r <==> u in s.users && u.departmentId == departmentId
  {
    Filter(s.users, (u: User) => u.departmentId == departmentId)
  }

  function UserKey(u: User): int { u.id }

  /** One participant row per department user, the creator as admin. */
  function DepartmentParticipants(users: seq<User>, creatorId: int, now: int): (r: seq<Participant>)
    ensures |r| == |users|
    ensures forall i :: 0 <= i < |users| ==> r[i].userId == users[i].id && r[i].joinedAt == now
    ensures forall i :: 0 <= i < |users| ==> (r[i].isAdmin <==> users[i].id == creatorId)
  {
    seq(|users|, i requires 0 <= i < |users| => Participant(users[i].id, users[i].id == creatorId, now))
  }

  /** The chat `CreateDepartmentGroupChatAsync` saves: a named group chat
      of the department whose participant keys are exactly the keys of the
      department's users, in table order, the creator among them, with the
      creator's rows, and only theirs, as admin rows. */
  ghost predicate DepartmentChatShape(s: Store, c: Chat, creatorId: int, departmentId: int, chatName: string)
  {
    && c.chatType == Group && c.name == Some(chatName) && c.departmentId == Some(departmentId)
    && ParticipantIds(c) == Map(DepartmentUsers(s, departmentId), UserKey)
    && (forall u :: u in s.users && u.departmentId == departmentId ==> u.id in ParticipantIds(c))
    && (forall p :: p in c.participants ==> (p.isAdmin <==> p.userId == creatorId))
    && IsParticipant(c, creatorId)
  }

  /** The department participant list names every department user, the
      creator included, and is duplicate-free when user keys are. */
  lemma DepartmentParticipantsFacts(s: Store, members: seq<User>, creatorId: int, creator: User, now: int)
    requires members == DepartmentUsers(s, creator.departmentId)
    requires creator in s.users && creator.id == creatorId
    ensures |members| > 0
    ensures var c := Chat(0, None, Group, now, now, None, DepartmentParticipants(members, creatorId, now));
            && (forall u :: u in s.users && u.departmentId == creator.departmentId ==> u.id in ParticipantIds(c))
            && ParticipantIds(c) == Map(members, UserKey)
            && IsParticipant(c, creatorId)
            && (UsersWellFormed(s) ==> ParticipantsUnique(c))
  {
    var ps := DepartmentParticipants(members, creatorId, now);
    var c := Chat(0, None, Group, now, now, None, ps);
    assert ParticipantIds(c) == Map(members, UserKey);
    assert creator in members;
    forall u | u in s.users && u.departmentId == creator.departmentId
      ensures u.id in ParticipantIds(c)
    {
      assert u in members;
      var k :| 0 <= k < |members| && members[k] == u;
      assert ParticipantIds(c)[k] == u.id;
    }
    if UsersWellFormed(s) {
      forall i, j | 0 <= i < j < |ps|
        ensures ParticipantIds(c)[i] != ParticipantIds(c)[j]
      {
        FilterDistinctKeys(s.users, (u: User) => u.departmentId == creator.departmentId, UserKey);
        assert ParticipantIds(c)[i] == UserKey(members[i]) && ParticipantIds(c)[j] == UserKey(members[j]);
      }
    }
  }

  /** The creating half of `CreateDepartmentGroupChatAsync`, reached once
      the checks passed and no department chat exists. */
  function NewDepartmentChat(s: Store, creator: User, chatName: string, now: int): (r: Result<(Store, ChatDto), Error>)
    requires creator in s.users
    ensures r.Success? ==> AppendsOneChat(s, r.value.0)
    ensures r.Success? ==> DepartmentChatShape(s, NewChat(s, r.value.0), creator.id, creator.departmentId, chatName)
    ensures r.Success? ==> r.value.1.id == NewChat(s, r.value.0).id && r.value.1.unreadCount == 0
    ensures UsersWellFormed(s) ==> r.Success?
  {
    var members := DepartmentUsers(s, creator.departmentId);
    var participants := DepartmentParticipants(members, creator.id, now);
    var chat := Chat(0, Some(chatName), Group, now, now, Some(creator.departmentId), participants);
    DepartmentParticipantsFacts(s, members, creator.id, creator, now);
    assert ParticipantIds(chat) == ParticipantIds(Chat(0, None, Group, now, now, None, participants));
    match ChatRepository.CreateChat(s, chat)
    case Failure(e) => Failure(e)
    case Success((s', c)) =>
      CreateChatAppends(s, chat);
      Success((s', ChatDto(c.id, Some(chatName), Group, c.createdAt, c.lastActivityAt,
                           Some(creator.departmentId),
                           DepartmentName(s, Some(members[0].departmentId)),
                           None, 0,
                           ParticipantDtos(s', c.participants, (p: Participant) => p.userId == creator.id))))
  }

  /** `CreateDepartmentGroupChatAsync`: after the creator checks, an
      existing group chat of the department is shown instead of creating
      one; otherwise a group chat of all department users, with the creator
      as the only admin, is created. */
  function CreateDepartmentGroupChat(s: Store, creatorId: int, departmentId: int, chatName: string, now: int): (r: Result<(Store, Option<ChatDto>), Error>)
    ensures CheckCreator(s, creatorId, departmentId).Failure? ==> r == Failure(CheckCreator(s, creatorId, departmentId).error)
    ensures ChatRepository.GetDepartmentChat(s, departmentId).Some? && r.Success? ==> r.value.0 == s
    ensures CheckCreator(s, creatorId, departmentId).Success? && ChatRepository.GetDepartmentChat(s, departmentId).Some?
            && ChatsWellFormed(s)
            ==> var c := ChatRepository.GetDepartmentChat(s, departmentId).value;
                && (r.Success? <==> IsParticipant(c, creatorId))
                && (r.Failure? ==> r.error == NotParticipant)
                && (r.Success? ==> r.value == (s, Some(ToChatDto(s, c, creatorId, ChatRepository.ChatByIdWindow))))
    ensures ChatRepository.GetDepartmentChat(s, departmentId).None? && r.Success? ==>
              && AppendsOneChat(s, r.value.0)
              && DepartmentChatShape(s, NewChat(s, r.value.0), creatorId, departmentId, chatName)
              && r.value.1.Some? && r.value.1.value.id == NewChat(s, r.value.0).id
    ensures CheckCreator(s, creatorId, departmentId).Success? && ChatRepository.GetDepartmentChat(s, departmentId).None?
            && UsersWellFormed(s)
            ==> r.Success?
  {
    var creator :- CheckCreator(s, creatorId, departmentId);
    match ChatRepository.GetDepartmentChat(s, departmentId)
    case Some(existing) =>
      ChatRepository.GetChatByIdFindsStored(s, existing);
      (match GetChatById(s, existing.id, creatorId)
       case Failure(e) => Failure(e)
       case Success(d) => Success((s, d)))
    case None =>
      match NewDepartmentChat(s, creator, chatName, now)
      case Failure(e) => Failure(e)
      case Success((s', d)) => Success((s', Some(d)))
  }

  /** Asking again for the department chat just created reuses it: on
      unique chat keys the creator's second call, whatever name it passes,
      leaves the store as it is and shows the same chat. */
  lemma CreateDepartmentGroupChatReuses(s: Store, creatorId: int, departmentId: int, chatName: string, now: int,
                                        otherName: string, later: int)
    requires ChatsWellFormed(s)
    requires ChatRepository.GetDepartmentChat(s, departmentId).None?
    requires CreateDepartmentGroupChat(s, creatorId, departmentId, chatName, now).Success?
    ensures var r := CreateDepartmentGroupChat(s, creatorId, departmentId, chatName, now);
            var again := CreateDepartmentGroupChat(r.value.0, creatorId, departmentId, otherName, later);
            && again.Success? && again.value.0 == r.value.0
            && again.value.1.Some? && again.value.1.value.id == NewChat(s, r.value.0).id
  {
    var r := CreateDepartmentGroupChat(s, creatorId, departmentId, chatName, now);
    var s' := r.value.0;
    var c := NewChat(s, s');
    AppendedChatKeepsChatsWellFormed(s, s');
    assert s'.chats == s.chats + [c];
    assert ChatRepository.IsDepartmentChat(s'.chats[|s.chats|], departmentId);
    var found := ChatRepository.GetDepartmentChat(s', departmentId);
    assert found == Some(c);
    assert CheckCreator(s', creatorId, departmentId) == CheckCreator(s, creatorId, departmentId);
    ChatRepository.GetChatByIdFindsStored(s', c);
  }

  /** Creating a department chat keeps the chat and message tables well formed. */
  lemma CreateDepartmentGroupChatKeepsWellFormed(s: Store, creatorId: int, departmentId: int, chatName: string, now: int)
    requires ChatsWellFormed(s) && MessagesWellFormed(s)
    ensures var r := CreateDepartmentGroupChat(s, creatorId, departmentId, chatName, now);
            r.Success? ==> ChatsWellFormed(r.value.0) && MessagesWellFormed(r.value.0)
  {
    var r := CreateDepartmentGroupChat(s, creatorId, departmentId, chatName, now);
    if r.Success? && ChatRepository.GetDepartmentChat(s, departmentId).None? {
      AppendedChatKeepsWellFormed(s, r.value.0);
    }
  }

  /** Some user named in the selection belongs to another department. */
  predicate SelectionLeavesDepartment(s: Store, selected: seq<int>, departmentId: int)
  {
    exists i :: 0 <= i < |s.users| && s.users[i].id in selected && s.users[i].departmentId != departmentId
  }

  /** One participant row per selected key, in order, then the creator as
      admin when the selection does not name them. */
  function CustomParticipants(selected: seq<int>, creatorId: int, now: int): (r: seq<Participant>)
    ensures creatorId in selected ==> |r| == |selected|
    ensures creatorId !in selected ==> |r| == |selected| + 1 && r[|selected|] == Participant(creatorId, true, now)
    ensures forall i :: 0 <= i < |selected| ==> r[i] == Participant(selected[i], selected[i] == creatorId, now)
  {
    var listed := seq(|selected|, i requires 0 <= i < |selected| => Participant(selected[i], selected[i] == creatorId, now));
    if creatorId in selected then listed else listed + [Participant(creatorId, true, now)]
  }

  /** The chat `CreateCustomGroupChatAsync` saves: a named group chat of
      the department whose participant keys are the selection, in order,
      followed by the creator when the selection leaves them out; the
      creator's rows, and only theirs, are admin rows. */
  predicate CustomChatShape(c: Chat, creatorId: int, departmentId: int, chatName: string, selected: seq<int>)
  {
    && c.chatType == Group && c.name == Some(chatName) && c.departmentId == Some(departmentId)
    && ParticipantIds(c) == selected + (if creatorId in selected then [] else [creatorId])
    && (forall p :: p in c.participants ==> (p.isAdmin <==> p.userId == creatorId))
  }

  /** The custom participant list has the keys and admin flags the shape
      names, and obeys the unique index exactly when the selection repeats
      no key. */
  lemma CustomParticipantsFacts(selected: seq<int>, creatorId: int, now: int)
    ensures var c := Chat(0, None, Group, now, now, None, CustomParticipants(selected, creatorId, now));
            && ParticipantIds(c) == selected + (if creatorId in selected then [] else [creatorId])
            && IsParticipant(c, creatorId)
            && (forall p :: p in c.participants ==> (p.isAdmin <==> p.userId == creatorId))
            && (ParticipantsUnique(c) <==> NoDuplicates(selected))
  {
    var ps := CustomParticipants(selected, creatorId, now);
    var c := Chat(0, None, Group, now, now, None, ps);
    var ids := selected + (if creatorId in selected then [] else [creatorId]);
    assert ParticipantIds(c) == ids;
    assert creatorId in ids;
    if NoDuplicates(selected) {
      forall i, j | 0 <= i < j < |ids|
        ensures ids[i] != ids[j]
      {
        if j == |selected| {
          assert ids[i] == selected[i] && selected[i] in selected;
        }
      }
    }
    if NoDuplicates(ids) {
      forall i, j | 0 <= i < j < |selected|
        ensures selected[i] != selected[j]
      {
        assert ids[i] == selected[i] && ids[j] == selected[j];
      }
    }
  }

  /** Whether the selection names a key that no user row has. */
  predicate SelectionNamesUnknownUser(s: Store, selected: seq<int>)
  {
    exists i :: 0 <= i < |selected| && FindUser(s, selected[i]).None?
  }

  /** `CreateCustomGroupChatAsync`: after the creator checks, refuses a
      selection naming a user of another department. Keys with no user row
      pass that check, but the save then breaks the participant-to-user
      foreign key, as a repeated key breaks the unique participant index;
      otherwise a new group chat of the selected keys is created, in order,
      with the creator added as admin when not selected. */
  function CreateCustomGroupChat(s: Store, creatorId: int, departmentId: int, chatName: string, selected: seq<int>, now: int): (r: Result<(Store, ChatDto), Error>)
    ensures CheckCreator(s, creatorId, departmentId).Failure? ==> r == Failure(CheckCreator(s, creatorId, departmentId).error)
    ensures CheckCreator(s, creatorId, departmentId).Success? && SelectionLeavesDepartment(s, selected, departmentId)
            ==> r == Failure(SelectionOutsideDepartment)
    ensures CheckCreator(s, creatorId, departmentId).Success? && !SelectionLeavesDepartment(s, selected, departmentId)
            ==> (r.Success? <==> NoDuplicates(selected) && !SelectionNamesUnknownUser(s, selected))
    ensures CheckCreator(s, creatorId, departmentId).Success? && !SelectionLeavesDepartment(s, selected, departmentId)
            ==> (r.Failure? ==> r.error.kind == DbUpdate)
    ensures r.Success? ==> AppendsOneChat(s, r.value.0)
    ensures r.Success? ==> CustomChatShape(NewChat(s, r.value.0), creatorId, departmentId, chatName, selected)
    ensures r.Success? ==> forall k :: k in ParticipantIds(NewChat(s, r.value.0)) ==> FindUser(s, k).Some?
    ensures r.Success? ==> r.value.1.id == NewChat(s, r.value.0).id && r.value.1.unreadCount == 0
  {
    var creator :- CheckCreator(s, creatorId, departmentId);
    if SelectionLeavesDepartment(s, selected, departmentId) then Failure(SelectionOutsideDepartment)
    else if SelectionNamesUnknownUser(s, selected) then Failure(ParticipantUserMissing)
    else
      var participants := CustomParticipants(selected, creatorId, now);
      var chat := Chat(0, Some(chatName), Group, now, now, Some(departmentId), participants);
      CustomParticipantsFacts(selected, creatorId, now);
      assert ParticipantIds(chat) == ParticipantIds(Chat(0, None, Group, now, now, None, participants));
      match ChatRepository.CreateChat(s, chat)
      case Failure(e) => Failure(e)
      case Success((s', c)) =>
        CreateChatAppends(s, chat);
        Success((s', ChatDto(c.id, Some(chatName), Group, c.createdAt, c.lastActivityAt,
                             Some(departmentId), DepartmentName(s, Some(creator.departmentId)),
                             None, 0,
                             ParticipantDtos(s', c.participants, (p: Participant) => p.userId == creatorId))))
  }

  /** Creating a custom group chat keeps the chat and message tables well formed. */
  lemma CreateCustomGroupChatKeepsWellFormed(s: Store, creatorId: int, departmentId: int, chatName: string, selected: seq<int>, now: int)
    requires ChatsWellFormed(s) && MessagesWellFormed(s)
    ensures var r := CreateCustomGroupChat(s, creatorId, departmentId, chatName, selected, now);
            r.Success? ==> ChatsWellFormed(r.value.0) && MessagesWellFormed(r.value.0)
  {
    var r := CreateCustomGroupChat(s, creatorId, departmentId, chatName, selected, now);
    if r.Success? {
      AppendedChatKeepsWellFormed(s, r.value.0);
    }
  }

  /** A custom group chat is never reused: asking twice creates two chats. */
  lemma CustomGroupChatNeverReused(s: Store, creatorId: int, departmentId: int, chatName: string, selected: seq<int>, now: int)
    requires CreateCustomGroupChat(s, creatorId, departmentId, chatName, selected, now).Success?
    ensures |CreateCustomGroupChat(s, creatorId, departmentId, chatName, selected, now).value.0.chats| == |s.chats| + 1
  {
  }

  // ---------------------------------------------------------------------------
  // Invariants of the message operations
  // ---------------------------------------------------------------------------

  /** Sending a message keeps the chat and message tables well formed. */
  lemma AddMessageKeepsWellFormed(s: Store, content: string, senderId: int, chatId: int, now: int)
    requires ChatsWellFormed(s) && MessagesWellFormed(s)
    ensures var r := AddMessage(s, content, senderId, chatId, now);
            r.Success? ==> ChatsWellFormed(r.value.0) && MessagesWellFormed(r.value.0)
  {
    var r := AddMessage(s, content, senderId, chatId, now);
    if r.Success? {
      var s' := r.value.0;
      assert ChatsWellFormed(s') by {
        TouchKeepsChatsWellFormed(s, chatId, now);
        assert s'.chats == UpdateChatLastActivity(s, chatId, now).chats;
        assert s'.next.chat == s.next.chat;
      }
      assert MessagesWellFormed(s') by {
        var added := MessageRepository.AddMessage(s, Message(0, content, now, false, senderId, chatId)).0;
        MessageRepository.AddMessageWellFormed(s, Message(0, content, now, false, senderId, chatId));
        assert s'.messages == added.messages && s'.next.message == added.next.message;
      }
    }
  }

  /** Touching a chat's last activity keeps keys and participants. */
  lemma TouchKeepsChatsWellFormed(s: Store, chatId: int, now: int)
    requires ChatsWellFormed(s)
    ensures ChatsWellFormed(UpdateChatLastActivity(s, chatId, now))
  {
    var touched := UpdateChatLastActivity(s, chatId, now);
    forall i | 0 <= i < |s.chats|
      ensures touched.chats[i].id == s.chats[i].id && ParticipantIds(touched.chats[i]) == ParticipantIds(s.chats[i])
    {
      assert touched.chats[i] == s.chats[i].(lastActivityAt := touched.chats[i].lastActivityAt);
    }
  }

  /** Marking messages read keeps the chat and message tables well formed. */
  lemma MarkMessagesAsReadKeepsWellFormed(s: Store, chatId: int, userId: int)
    requires ChatsWellFormed(s) && MessagesWellFormed(s)
    ensures var r := MarkMessagesAsRead(s, chatId, userId);
            r.Success? ==> ChatsWellFormed(r.value) && MessagesWellFormed(r.value)
  {
    var r := MarkMessagesAsRead(s, chatId, userId);
    if r.Success? {
      forall i | 0 <= i < |s.messages|
        ensures r.value.messages[i].id == s.messages[i].id
      {
        if MessageRepository.IsUnreadFor(s.messages[i], chatId, userId) {
          assert r.value.messages[i] == s.messages[i].(isRead := true);
        }
      }
    }
  }
}

=== FILE: connection_registry.dfy ===
/** The user connection manager: an in-memory map from a user id to the
    list of that user's live real-time connection ids. Only the sequential
    semantics is modelled; each operation is atomic. */
module ConnectionRegistry {
  import opened Sequences

  type Registry = map<int, seq<string>>

  /** Every stored list is non-empty and free of duplicates. */
  ghost predicate Valid(r: Registry)
  {
    forall u :: u in r ==> |r[u]| > 0 && NoDuplicates(r[u])
  }

  /** `List.Remove(x)`: drops the first occurrence of `x`, if any. */
  function RemoveFirst(s: seq<string>, x: string): (r: seq<string>)
    ensures x !in s ==> r == s
    ensures x in s ==> |r| == |s| - 1
    ensures forall y :: y in r ==> y in s
    ensures forall y :: y in s && y != x ==> y in r
  {
    if |s| == 0 then s
    else if s[0] == x then s[1..]
    else [s[0]] + RemoveFirst(s[1..], x)
  }

  /** In a duplicate-free list, removal takes the id out for good and keeps
      the list duplicate-free. */
  lemma {:induction false} RemoveFirstNoDuplicates(s: seq<string>, x: string)
    requires NoDuplicates(s)
    ensures NoDuplicates(RemoveFirst(s, x))
    ensures x !in RemoveFirst(s, x)
  {
    if |s| > 0 {
      forall k | 0 <= k < |s| - 1
        ensures s[1..][k] != s[0]
      {
        assert s[1..][k] == s[k + 1];
      }
      assert s[0] !in s[1..];
      if s[0] != x {
        RemoveFirstNoDuplicates(s[1..], x);
      }
    }
  }

  /** Registers `connectionId` for `userId`. A user without an entry gets the
      one-element list; a known id leaves the list as it is; a new id is
      appended. Nobody else's entry changes. */
  function AddConnection(r: Registry, userId: int, connectionId: string): (r': Registry)
    ensures userId in r'
    ensures userId !in r ==> r'[userId] == [connectionId]
    ensures userId in r && connectionId in r[userId] ==> r' == r
    ensures userId in r && connectionId !in r[userId] ==> r'[userId] == r[userId] + [connectionId]
    ensures r'.Keys == r.Keys + {userId}
    ensures forall u :: u in r && u != userId ==> r'[u] == r[u]
    ensures Valid(r) ==> Valid(r')
  {
    if userId !in r then r[userId := [connectionId]]
    else if connectionId in r[userId] then r
    else
      var list := r[userId] + [connectionId];
      assert NoDuplicates(r[userId]) ==> NoDuplicates(list);
      r[userId := list]
  }

  /** Unregisters `connectionId`; the user's key disappears together with
      the last connection. An unknown user is a no-op. */
  function RemoveConnection(r: Registry, userId: int, connectionId: string): (r': Registry)
    ensures userId !in r ==> r' == r
    ensures userId in r' ==> userId in r && r'[userId] == RemoveFirst(r[userId], connectionId)
    ensures userId in r && userId !in r' ==> RemoveFirst(r[userId], connectionId) == []
    ensures r'.Keys <= r.Keys
    ensures forall u :: u in r && u != userId ==> u in r' && r'[u] == r[u]
    ensures Valid(r) ==> Valid(r')
    ensures Valid(r) ==> connectionId !in GetConnections(r', userId)
  {
    if userId !in r then r
    else
      var rest := RemoveFirst(r[userId], connectionId);
      assert Valid(r) ==> NoDuplicates(rest) && connectionId !in rest by {
        if Valid(r) {
          RemoveFirstNoDuplicates(r[userId], connectionId);
        }
      }
      if |rest| == 0 then r - {userId} else r[userId := rest]
  }

  /** A snapshot of the user's connections; empty for an unknown user. */
  function GetConnections(r: Registry, userId: int): (conns: seq<string>)
    ensures forall c :: c in conns <==> userId in r && c in r[userId]
    ensures userId !in r ==> conns == []
  {
    if userId in r then r[userId] else []
  }

  // ---------------------------------------------------------------------------
  // Properties relating several calls
  // ---------------------------------------------------------------------------

  /** A connection is visible right after it has been added. */
  lemma AddThenGet(r: Registry, userId: int, connectionId: string)
    ensures connectionId in GetConnections(AddConnection(r, userId, connectionId), userId)
  {
  }

  /** Adding the same connection twice is adding it once. */
  lemma AddIdempotent(r: Registry, userId: int, connectionId: string)
    ensures AddConnection(AddConnection(r, userId, connectionId), userId, connectionId)
         == AddConnection(r, userId, connectionId)
  {
  }

  /** Removing an id the user does not hold changes nothing in a valid registry. */
  lemma RemoveAbsentIsNoop(r: Registry, userId: int, connectionId: string)
    requires Valid(r)
    requires connectionId !in GetConnections(r, userId)
    ensures RemoveConnection(r, userId, connectionId) == r
  {
  }

  /** Connecting a fresh user and disconnecting it again restores the map. */
  lemma AddThenRemoveFreshUser(r: Registry, userId: int, connectionId: string)
    requires userId !in r
    ensures RemoveConnection(AddConnection(r, userId, connectionId), userId, connectionId) == r
  {
    var added := AddConnection(r, userId, connectionId);
    assert added[userId] == [connectionId];
    assert RemoveFirst([connectionId], connectionId) == [];
  }

  /** A fresh id added to a known user and removed again restores the map. */
  lemma AddThenRemoveFreshConnection(r: Registry, userId: int, connectionId: string)
    requires Valid(r)
    requires userId in r && connectionId !in r[userId]
    ensures RemoveConnection(AddConnection(r, userId, connectionId), userId, connectionId) == r
  {
    var list := r[userId];
    RemoveFirstAppended(list, connectionId);
  }

  lemma {:induction false} RemoveFirstAppended(s: seq<string>, x: string)
    requires x !in s
    ensures RemoveFirst(s + [x], x) == s
  {
    if |s| > 0 {
      assert (s + [x])[1..] == s[1..] + [x];
      RemoveFirstAppended(s[1..], x);
    }
  }

  /** Adding a connection twice and removing it once leaves it absent. */
  lemma AddTwiceRemoveOnce(r: Registry, userId: int, connectionId: string)
    requires Valid(r)
    ensures var r' := AddConnection(AddConnection(r, userId, connectionId), userId, connectionId);
            connectionId !in GetConnections(RemoveConnection(r', userId, connectionId), userId)
  {
  }
}

=== FILE: entities.dfy ===
/** The portal's persistent state: one immutable value holding every table
    the business rules read or write, mirroring the entity classes of the
    domain layer (users, roles, departments, chats with their participants,
    messages, publications, comments and reactions). Tables are sequences in
    row order, because several queries return the FIRST matching row. Each
    table has an identity seed: the key the database gives the next row. */
module Entities {
  import opened Wrappers
  import opened Sequences

  // ---------------------------------------------------------------------------
  // Failures
  // ---------------------------------------------------------------------------

  /** The exception types the business layer throws. */
  datatype ErrorKind =
    | Unauthorized       // UnauthorizedAccessException
    | Argument           // ArgumentException
    | InvalidOperation   // InvalidOperationException
    | Validation         // ValidationException
    | General            // Exception
    | NullReference      // NullReferenceException
    | DbUpdate           // DbUpdateException raised by the store on save

  datatype Error = Error(kind: ErrorKind, message: string)

  const NullDereference := Error(NullReference, "Object reference not set to an instance of an object.")

  // ---------------------------------------------------------------------------
  // Entities
  // ---------------------------------------------------------------------------

  datatype Role = Role(id: int, name: string)

  datatype Department = Department(id: int, name: string)

  /** A user account; time stamps are in seconds. */
  datatype User = User(
    id: int,
    email: string,
    passwordHash: string,
    name: string,
    departmentId: int,
    roleId: int,
    resetToken: Option<string>,
    resetTokenExpiry: Option<int>,
    createdAt: int)

  datatype ChatType = Private | Group

  /** One row of the chat/user join table. */
  datatype Participant = Participant(userId: int, isAdmin: bool, joinedAt: int)

  datatype Chat = Chat(
    id: int,
    name: Option<string>,
    chatType: ChatType,
    createdAt: int,
    lastActivityAt: int,
    departmentId: Option<int>,
    participants: seq<Participant>)

  datatype Message = Message(
    id: int,
    content: string,
    sentAt: int,
    isRead: bool,
    senderId: int,
    chatId: int)

  datatype Publication = Publication(
    id: int,
    content: string,
    isApproved: bool,
    authorId: int,
    approvedById: Option<int>,
    createdAt: int,
    approvedAt: Option<int>)

  datatype Comment = Comment(id: int, publicationId: int, userId: int, text: string, createdAt: int)

  /** A reaction of one user to one publication; `kind` is the free-form
      reaction type ("Like", ...). */
  datatype Reaction = Reaction(id: int, publicationId: int, userId: int, kind: string, createdAt: int)

  /** Next identity value of each table. */
  datatype Seeds = Seeds(
    user: int,
    department: int,
    role: int,
    chat: int,
    message: int,
    publication: int,
    comment: int,
    reaction: int)

  datatype Store = Store(
    users: seq<User>,
    departments: seq<Department>,
    roles: seq<Role>,
    chats: seq<Chat>,
    messages: seq<Message>,
    publications: seq<Publication>,
    comments: seq<Comment>,
    reactions: seq<Reaction>,
    next: Seeds)

  // ---------------------------------------------------------------------------
  // Row lookups by key
  // ---------------------------------------------------------------------------

  function FindUser(s: Store, id: int): (r: Option<User>)
    ensures r.Some? ==> r.value in s.users && r.value.id == id
    ensures r.None? <==> forall i :: 0 <= i < |s.users| ==> s.users[i].id != id
  {
    FirstWhere(s.users, (u: User) => u.id == id)
  }

  function FindRole(s: Store, id: int): (r: Option<Role>)
    ensures r.Some? ==> r.value in s.roles && r.value.id == id
    ensures r.None? <==> forall i :: 0 <= i < |s.roles| ==> s.roles[i].id != id
  {
    FirstWhere(s.roles, (x: Role) => x.id == id)
  }

  function FindDepartment(s: Store, id: int): (r: Option<Department>)
    ensures r.Some? ==> r.value in s.departments && r.value.id == id
    ensures r.None? <==> forall i :: 0 <= i < |s.departments| ==> s.departments[i].id != id
  {
    FirstWhere(s.departments, (d: Department) => d.id == id)
  }

  function FindPublication(s: Store, id: int): (r: Option<Publication>)
    ensures r.Some? ==> r.value in s.publications && r.value.id == id
    ensures r.None? <==> forall i :: 0 <= i < |s.publications| ==> s.publications[i].id != id
  {
    FirstWhere(s.publications, (p: Publication) => p.id == id)
  }

  /** `DepartmentExistsAsync`: some department row has this key. */
  predicate DepartmentExists(s: Store, id: int)
  {
    FindDepartment(s, id).Some?
  }

  /** `RoleExistsAsync`: some role row has this key. */
  predicate RoleExists(s: Store, id: int)
  {
    FindRole(s, id).Some?
  }

  /** Name reached through a `User` navigation property, when the row exists. */
  function UserName(s: Store, id: int): Option<string>
  {
    match FindUser(s, id)
    case Some(u) => Some(u.name)
    case None => None
  }

  /** Name reached through a `Department` navigation property. */
  function DepartmentName(s: Store, id: Option<int>): Option<string>
  {
    if id.None? then None
    else match FindDepartment(s, id.value)
      case Some(d) => Some(d.name)
      case None => None
  }

  /** Name of the user's role, reached through the `Role` navigation. */
  function RoleName(s: Store, u: User): Option<string>
  {
    match FindRole(s, u.roleId)
    case Some(r) => Some(r.name)
    case None => None
  }

  // ---------------------------------------------------------------------------
  // Chat participants
  // ---------------------------------------------------------------------------

  function ParticipantIds(c: Chat): (r: seq<int>)
    ensures |r| == |c.participants|
    ensures forall i :: 0 <= i < |r| ==> r[i] == c.participants[i].userId
  {
    seq(|c.participants|, i requires 0 <= i < |c.participants| => c.participants[i].userId)
  }

  /** `chat.Participants.Any(p => p.UserId == userId)`. */
  predicate IsParticipant(c: Chat, userId: int)
  {
    userId in ParticipantIds(c)
  }

  /** The unique (chat, user) index of the participant table. */
  predicate ParticipantsUnique(c: Chat)
  {
    NoDuplicates(ParticipantIds(c))
  }

  // ---------------------------------------------------------------------------
  // Key integrity of the tables the chat rules write
  // ---------------------------------------------------------------------------

  /** Chat keys are distinct, below the identity seed, and every chat obeys
      the unique participant index. */
  ghost predicate ChatsWellFormed(s: Store)
  {
    && (forall i :: 0 <= i < |s.chats| ==> s.chats[i].id < s.next.chat)
    && (forall i, j :: 0 <= i < j < |s.chats| ==> s.chats[i].id != s.chats[j].id)
    && (forall i :: 0 <= i < |s.chats| ==> ParticipantsUnique(s.chats[i]))
  }

  /** User keys are distinct, as the primary key guarantees, and positive,
      as identity keys are: none is the unset key 0. */
  ghost predicate UsersWellFormed(s: Store)
  {
    && (forall i, j :: 0 <= i < j < |s.users| ==> s.users[i].id != s.users[j].id)
    && (forall i :: 0 <= i < |s.users| ==> s.users[i].id > 0)
  }

  /** Every user's department and role exist, as the restricting foreign
      keys guarantee. */
  ghost predicate UserReferencesExist(s: Store)
  {
    forall i :: 0 <= i < |s.users| ==>
      DepartmentExists(s, s.users[i].departmentId) && RoleExists(s, s.users[i].roleId)
  }

  /** Changing user rows but not their keys keeps the keys well formed. */
  lemma UserKeysFrame(s: Store, s': Store)
    requires UsersWellFormed(s)
    requires |s'.users| == |s.users| && forall i :: 0 <= i < |s.users| ==> s'.users[i].id == s.users[i].id
    ensures UsersWellFormed(s')
  {
  }

  /** Changing user rows but not their departments or roles, and neither
      the department nor the role table, keeps every reference in place. */
  lemma UserReferencesFrame(s: Store, s': Store)
    requires UserReferencesExist(s)
    requires s'.departments == s.departments && s'.roles == s.roles && |s'.users| == |s.users|
    requires forall i :: 0 <= i < |s.users| ==>
               s'.users[i].departmentId == s.users[i].departmentId && s'.users[i].roleId == s.users[i].roleId
    ensures UserReferencesExist(s')
  {
    forall i | 0 <= i < |s'.users|
      ensures DepartmentExists(s', s'.users[i].departmentId) && RoleExists(s', s'.users[i].roleId)
    {
      assert DepartmentExists(s, s.users[i].departmentId) && RoleExists(s, s.users[i].roleId);
    }
  }

  /** Message keys are distinct and below the identity seed. */
  ghost predicate MessagesWellFormed(s: Store)
  {
    && (forall i :: 0 <= i < |s.messages| ==> s.messages[i].id < s.next.message)
    && (forall i, j :: 0 <= i < j < |s.messages| ==> s.messages[i].id != s.messages[j].id)
  }
}

=== FILE: login_user.dfy ===
/** Logging in: the user is looked up by e-mail, then the supplied password
    is checked against the stored hash. The password hasher is a parameter:
    `verify(hash, password)` answers whether the password matches. */
module LoginUser {
  import opened Wrappers
  import opened Entities
  import UserRepository

  const UserNotFound := Error(General, "User not found")
  const InvalidPassword := Error(General, "Invalid password")

  /** `Execute`: the lookup comes first, then the verifier; success returns
      the stored user and the store is not touched (the result holds no
      store). */
  function Execute(s: Store, email: string, password: string, verify: (string, string) -> bool): (r: Result<User, Error>)
    ensures UserRepository.GetByEmail(s, email).None? ==> r == Failure(UserNotFound)
    ensures r.Success? <==>
              UserRepository.GetByEmail(s, email).Some? && verify(UserRepository.GetByEmail(s, email).value.passwordHash, password)
    ensures r.Success? ==> r.value in s.users && r.value.email == email
    ensures r.Failure? && UserRepository.GetByEmail(s, email).Some? ==> r.error == InvalidPassword
  {
    match UserRepository.GetByEmail(s, email)
    case None => Failure(UserNotFound)
    case Some(u) =>
      if !verify(u.passwordHash, password) then Failure(InvalidPassword)
      else Success(u)
  }

  /** For an unknown e-mail the verifier is never consulted: any two
      verifiers give the same answer. */
  lemma UnknownEmailIgnoresVerifier(s: Store, email: string, password: string, v1: (string, string) -> bool, v2: (string, string) -> bool)
    requires UserRepository.GetByEmail(s, email).None?
    ensures Execute(s, email, password, v1) == Execute(s, email, password, v2)
  {
  }

  /** The verifier is asked about one pair only: the found user's stored
      hash and the supplied password. Verifiers that agree on that pair
      give the same answer. */
  lemma VerifierAskedOnce(s: Store, email: string, password: string, v1: (string, string) -> bool, v2: (string, string) -> bool)
    requires UserRepository.GetByEmail(s, email).Some?
    requires v1(UserRepository.GetByEmail(s, email).value.passwordHash, password)
             == v2(UserRepository.GetByEmail(s, email).value.passwordHash, password)
    ensures Execute(s, email, password, v1) == Execute(s, email, password, v2)
  {
  }
}

=== FILE: message_repository.dfy ===
/** The message repository: the queries and updates the chat rules issue
    against the message table, as pure filters, sorts and slices. */
module MessageRepository {
  import opened Sequences
  import opened Entities

  /** The sort key of `OrderByDescending(m => m.SentAt)`. */
  function SentAt(m: Message): int { m.sentAt }

  /** Messages of one chat, in table order. */
  function OfChat(ms: seq<Message>, chatId: int): (r: seq<Message>)
    ensures forall m :: m in r <==> m in ms && m.chatId == chatId
  {
    Filter(ms, (m: Message) => m.chatId == chatId)
  }

  /** Messages of one chat ordered by `SentAt`, newest first. */
  function NewestFirst(ms: seq<Message>, chatId: int): (r: seq<Message>)
    ensures forall m :: m in r <==> m in ms && m.chatId == chatId
    ensures SortedDesc(r, SentAt)
    ensures |r| == |OfChat(ms, chatId)|
    ensures multiset(r) == multiset(OfChat(ms, chatId))
  {
    SortDesc(OfChat(ms, chatId), SentAt)
  }

  /** Where page `page` starts in the newest-first list of the chat. */
  function PageStart(ms: seq<Message>, chatId: int, page: int32, pageSize: int32): (lo: nat)
    ensures lo <= |NewestFirst(ms, chatId)|
  {
    Clamp(PageOffset(page, pageSize), |NewestFirst(ms, chatId)|)
  }

  /** `GetChatMessagesAsync`: the chat's messages newest first, skipping
      `(page - 1) * pageSize` of them and taking `pageSize`, or all that
      remain when fewer do (none for a negative `pageSize`). */
  function GetChatMessages(ms: seq<Message>, chatId: int, page: int32, pageSize: int32): (r: seq<Message>)
    ensures forall m :: m in r ==> m in ms && m.chatId == chatId
    ensures SortedDesc(r, SentAt)
    ensures IsPageAt(r, NewestFirst(ms, chatId), PageStart(ms, chatId, page, pageSize), pageSize)
  {
    var all := NewestFirst(ms, chatId);
    var offset := PageOffset(page, pageSize);
    PageOfSorted(all, offset, pageSize, SentAt);
    PageIsPageAt(all, offset, pageSize);
    Page(all, offset, pageSize)
  }

  /** Two consecutive pages of the same size, in the normal range of page
      numbers, together form the page of twice that size starting where the
      first one starts. */
  lemma ConsecutivePages(ms: seq<Message>, chatId: int, page: int32, pageSize: int32)
    requires 1 <= page && 0 <= pageSize
    requires page + 1 <= Int32Max && page * pageSize <= Int32Max
    ensures GetChatMessages(ms, chatId, page, pageSize)
              + GetChatMessages(ms, chatId, (page + 1) as int32, pageSize)
            == Page(NewestFirst(ms, chatId), (page - 1) * pageSize, 2 * pageSize)
  {
    ConsecutiveOffsets(NewestFirst(ms, chatId), page, pageSize);
  }

  /** `AddMessageAsync`: appends the message, which receives the next
      message key; every other field is stored as given. */
  function AddMessage(s: Store, m: Message): (r: (Store, Message))
    ensures r.1 == m.(id := s.next.message)
    ensures r.0.messages == s.messages + [r.1]
    ensures r.0 == s.(messages := r.0.messages, next := r.0.next)
    ensures r.0.next == s.next.(message := s.next.message + 1)
  {
    var stored := m.(id := s.next.message);
    (s.(messages := s.messages + [stored], next := s.next.(message := s.next.message + 1)), stored)
  }

  /** Appending keeps message keys distinct and below the seed. */
  lemma AddMessageWellFormed(s: Store, m: Message)
    requires MessagesWellFormed(s)
    ensures MessagesWellFormed(AddMessage(s, m).0)
  {
  }

  predicate IsUnreadFor(m: Message, chatId: int, userId: int)
  {
    m.chatId == chatId && m.senderId != userId && !m.isRead
  }

  /** `GetUnreadMessagesAsync`: unread messages of the chat sent by someone
      other than `userId`. */
  function GetUnreadMessages(ms: seq<Message>, chatId: int, userId: int): (r: seq<Message>)
    ensures forall m :: m in r <==> m in ms && m.chatId == chatId && m.senderId != userId && !m.isRead
    ensures |r| == Count(ms, (m: Message) => IsUnreadFor(m, chatId, userId))
  {
    FilterLength(ms, (m: Message) => IsUnreadFor(m, chatId, userId));
    Filter(ms, (m: Message) => IsUnreadFor(m, chatId, userId))
  }

  function Ids(ms: seq<Message>): set<int>
  {
    set m | m in ms :: m.id
  }

  /** `MarkMessagesAsReadAsync`: every stored message whose key is among the
      given ones becomes read; nothing else changes. */
  function MarkAsRead(ms: seq<Message>, marked: seq<Message>): (r: seq<Message>)
    ensures |r| == |ms|
    ensures forall i :: 0 <= i < |ms| && ms[i].id in Ids(marked) ==> r[i] == ms[i].(isRead := true)
    ensures forall i :: 0 <= i < |ms| && ms[i].id !in Ids(marked) ==> r[i] == ms[i]
  {
    var ids := Ids(marked);
    seq(|ms|, i requires 0 <= i < |ms| => if ms[i].id in ids then ms[i].(isRead := true) else ms[i])
  }

  /** Marking the same messages twice is marking them once. */
  lemma MarkAsReadIdempotent(ms: seq<Message>, marked: seq<Message>)
    ensures MarkAsRead(MarkAsRead(ms, marked), marked) == MarkAsRead(ms, marked)
  {
  }

  /** Marking the unread messages of a chat leaves none unread for that user. */
  lemma MarkUnreadClearsUnread(ms: seq<Message>, chatId: int, userId: int)
    ensures GetUnreadMessages(MarkAsRead(ms, GetUnreadMessages(ms, chatId, userId)), chatId, userId) == []
  {
    var unread := GetUnreadMessages(ms, chatId, userId);
    var r := MarkAsRead(ms, unread);
    forall i | 0 <= i < |r|
      ensures !IsUnreadFor(r[i], chatId, userId)
    {
      if IsUnreadFor(ms[i], chatId, userId) {
        assert ms[i] in unread;
        assert ms[i].id in Ids(unread);
      }
    }
    FilterEmpty(r, (m: Message) => IsUnreadFor(m, chatId, userId));
  }

  /** When the unread query finds nothing, no message is unread for the user. */
  lemma FilterUnreadEmpty(ms: seq<Message>, chatId: int, userId: int)
    ensures GetUnreadMessages(ms, chatId, userId) == [] ==>
              forall i :: 0 <= i < |ms| ==> !IsUnreadFor(ms[i], chatId, userId)
  {
    FilterEmpty(ms, (m: Message) => IsUnreadFor(m, chatId, userId));
  }

  /** With distinct message keys, marking the unread messages changes
      exactly those and nothing else. */
  lemma MarkUnreadFrame(ms: seq<Message>, chatId: int, userId: int)
    requires forall i, j :: 0 <= i < j < |ms| ==> ms[i].id != ms[j].id
    ensures forall i :: 0 <= i < |ms| && IsUnreadFor(ms[i], chatId, userId) ==>
              MarkAsRead(ms, GetUnreadMessages(ms, chatId, userId))[i] == ms[i].(isRead := true)
    ensures forall i :: 0 <= i < |ms| && !IsUnreadFor(ms[i], chatId, userId) ==>
              MarkAsRead(ms, GetUnreadMessages(ms, chatId, userId))[i] == ms[i]
  {
    var unread := GetUnreadMessages(ms, chatId, userId);
    forall i | 0 <= i < |ms|
      ensures ms[i].id in Ids(unread) <==> IsUnreadFor(ms[i], chatId, userId)
    {
      if IsUnreadFor(ms[i], chatId, userId) {
        assert ms[i] in unread;
      }
      if ms[i].id in Ids(unread) {
        var m :| m in unread && m.id == ms[i].id;
        var j :| 0 <= j < |ms| && ms[j] == m;
        assert j == i;
      }
    }
  }
}

=== FILE: publication_repository.dfy ===
/** The publication repository: inserting a publication, the approved and
    pending queries, approval and rejection by a head of department, comments,
    and the reaction toggle that keeps at most one reaction per user and
    publication. */
module PublicationRepository {
  import opened Wrappers
  import opened Sequences
  import opened Entities
  import Text

  // ---------------------------------------------------------------------------
  // The head-of-department role
  // ---------------------------------------------------------------------------

  /** The role name that grants approval rights, already lower-cased. */
  const HeadDepartment: string := "head department"

  /** The role check: the name, trimmed and lower-cased, is exactly "head
      department". The repository lower-cases and compares; the service
      compares ignoring case, which for a lower-case constant is the same
      test. */
  predicate IsHeadDepartment(roleName: string)
  {
    Text.Lower(Text.Trim(roleName)) == HeadDepartment
  }

  // ---------------------------------------------------------------------------
  // Insert
  // ---------------------------------------------------------------------------

  const InvalidAuthor := Error(InvalidOperation, "Invalid author")

  /** `UserExistsAsync`. */
  predicate UserExists(s: Store, userId: int)
  {
    FindUser(s, userId).Some?
  }

  /** Publication keys are distinct and below the identity seed. */
  ghost predicate PublicationsWellFormed(s: Store)
  {
    && (forall i :: 0 <= i < |s.publications| ==> s.publications[i].id < s.next.publication)
    && (forall i, j :: 0 <= i < j < |s.publications| ==> s.publications[i].id != s.publications[j].id)
  }

  /** `AddAsync`: refuses a publication whose author is not a user; otherwise
      stores it under the next publication key. */
  function Add(s: Store, p: Publication): (r: Result<(Store, Publication), Error>)
    ensures r.Failure? <==> !UserExists(s, p.authorId)
    ensures r.Failure? ==> r.error == InvalidAuthor
    ensures r.Success? ==> r.value.1 == p.(id := s.next.publication)
    ensures r.Success? ==> r.value.0.publications == s.publications + [r.value.1]
    ensures r.Success? ==> r.value.0.next == s.next.(publication := s.next.publication + 1)
    ensures r.Success? ==> r.value.0 == s.(publications := r.value.0.publications, next := r.value.0.next)
  {
    if !UserExists(s, p.authorId) then Failure(InvalidAuthor)
    else
      var stored := p.(id := s.next.publication);
      Success((s.(publications := s.publications + [stored],
                  next := s.next.(publication := s.next.publication + 1)), stored))
  }

  /** The stored publication is found again by its new key, and keys stay
      distinct. */
  lemma AddThenFind(s: Store, p: Publication)
    requires PublicationsWellFormed(s)
    requires UserExists(s, p.authorId)
    ensures PublicationsWellFormed(Add(s, p).value.0)
    ensures FindPublication(Add(s, p).value.0, Add(s, p).value.1.id) == Some(Add(s, p).value.1)
  {
    var (s', stored) := Add(s, p).value;
    var k := |s.publications|;
    assert s'.publications[k] == stored;
    IndexOfFirstAt(s'.publications, (q: Publication) => q.id == stored.id, k);
  }

  // ---------------------------------------------------------------------------
  // Approved and pending lists
  // ---------------------------------------------------------------------------

  /** The sort key of `OrderByDescending(p => p.CreatedAt)`. */
  function CreatedAt(p: Publication): int { p.createdAt }

  predicate Approved(p: Publication) { p.isApproved }

  predicate Pending(p: Publication) { !p.isApproved }

  /** `GetApprovedPublicationsAsync`: the approved publications, newest first. */
  function GetApproved(s: Store): (r: seq<Publication>)
    ensures forall p :: p in r <==> p in s.publications && p.isApproved
    ensures SortedDesc(r, CreatedAt)
    ensures |r| == Count(s.publications, Approved)
  {
    FilterLength(s.publications, Approved);
    SortDesc(Filter(s.publications, Approved), CreatedAt)
  }

  /** `GetPendingPublicationsAsync`: the publications awaiting approval, in
      table order. */
  function GetPending(s: Store): (r: seq<Publication>)
    ensures forall p :: p in r <==> p in s.publications && !p.isApproved
    ensures |r| == Count(s.publications, Pending)
  {
    FilterLength(s.publications, Pending);
    Filter(s.publications, Pending)
  }

  /** Every publication is either on the approved list or on the pending
      list, and not on both. */
  lemma ApprovedPendingPartition(s: Store)
    ensures |GetApproved(s)| + |GetPending(s)| == |s.publications|
    ensures forall p :: p in GetApproved(s) ==> p !in GetPending(s)
  {
    CountComplement(s.publications, Approved, Pending);
  }

  /** The author row of a publication exists and belongs to the department;
      a publication whose author row is missing has a null `Author`. */
  predicate AuthorIn(s: Store, p: Publication, departmentId: int)
  {
    match FindUser(s, p.authorId)
    case Some(u) => u.departmentId == departmentId
    case None => false
  }

  predicate PendingIn(s: Store, p: Publication, departmentId: int)
  {
    !p.isApproved && AuthorIn(s, p, departmentId)
  }

  /** `GetPendingPublicationsByDepartmentAsync`: pending publications whose
      author is in the department, newest first. */
  function GetPendingByDepartment(s: Store, departmentId: int): (r: seq<Publication>)
    ensures forall p :: p in r <==> p in s.publications && !p.isApproved && AuthorIn(s, p, departmentId)
    ensures SortedDesc(r, CreatedAt)
  {
    SortDesc(Filter(s.publications, (p: Publication) => PendingIn(s, p, departmentId)), CreatedAt)
  }

  /** The department's pending list is part of the full pending list. */
  lemma PendingByDepartmentIsPending(s: Store, departmentId: int)
    ensures forall p :: p in GetPendingByDepartment(s, departmentId) ==> p in GetPending(s)
  {
  }

  // ---------------------------------------------------------------------------
  // Approval and rejection
  // ---------------------------------------------------------------------------

  /** Everything the approval check requires: the publication and the
      approver exist, the approver's role is "head department", and the
      publication's author is in the approver's department. */
  predicate MayApprove(s: Store, publicationId: int, approverId: int)
  {
    && FindPublication(s, publicationId).Some?
    && FindUser(s, approverId).Some?
    && RoleName(s, FindUser(s, approverId).value).Some?
    && IsHeadDepartment(RoleName(s, FindUser(s, approverId).value).value)
    && AuthorIn(s, FindPublication(s, publicationId).value, FindUser(s, approverId).value.departmentId)
  }

  /** The inputs on which the check itself throws: the approver's `Role`
      navigation is null, or the role qualifies and the publication's `Author`
      navigation is null. */
  predicate CheckThrows(s: Store, publicationId: int, approverId: int)
  {
    && FindPublication(s, publicationId).Some?
    && FindUser(s, approverId).Some?
    && (|| RoleName(s, FindUser(s, approverId).value).None?
        || (&& IsHeadDepartment(RoleName(s, FindUser(s, approverId).value).value)
            && FindUser(s, FindPublication(s, publicationId).value.authorId).None?))
  }

  /** The outcome of the shared check of approve and reject: refuse, or go on
      with the publication at this table position. */
  datatype Decision = Refuse | Proceed(index: nat)

  /** The check both operations run before changing anything: the
      publication and approver lookups (either missing refuses), the role
      name (a missing role throws), the role test, then the author's
      department (a missing author throws). */
  function CheckApproval(s: Store, publicationId: int, approverId: int): (r: Result<Decision, Error>)
    ensures r.Failure? <==> CheckThrows(s, publicationId, approverId)
    ensures r.Failure? ==> r.error == NullDereference
    ensures r.Success? && r.value.Proceed? <==> MayApprove(s, publicationId, approverId)
    ensures r.Success? && r.value.Proceed? ==>
              IndexOfFirst(s.publications, (p: Publication) => p.id == publicationId) == Some(r.value.index)
  {
    match IndexOfFirst(s.publications, (p: Publication) => p.id == publicationId)
    case None => Success(Refuse)
    case Some(k) =>
      match FindUser(s, approverId)
      case None => Success(Refuse)
      case Some(approver) =>
        match RoleName(s, approver)
        case None => Failure(NullDereference)
        case Some(roleName) =>
          if !IsHeadDepartment(roleName) then Success(Refuse)
          else match FindUser(s, s.publications[k].authorId)
            case None => Failure(NullDereference)
            case Some(author) =>
              if author.departmentId != approver.departmentId then Success(Refuse)
              else Success(Proceed(k))
  }

  /** The row a successful approval writes. */
  function ApprovedRow(p: Publication, approverId: int, now: int): Publication
  {
    p.(isApproved := true, approvedById := Some(approverId), approvedAt := Some(now))
  }

  /** `ApprovePublicationAsync`: returns whether the publication was
      approved. An approval marks the publication approved by `approverId`
      at `now`; a refusal changes nothing. */
  function Approve(s: Store, publicationId: int, approverId: int, now: int): (r: Result<(Store, bool), Error>)
    ensures r.Failure? <==> CheckThrows(s, publicationId, approverId)
    ensures r.Failure? ==> r.error == NullDereference
    ensures r.Success? ==> (r.value.1 <==> MayApprove(s, publicationId, approverId))
    ensures r.Success? && !r.value.1 ==> r.value.0 == s
    ensures r.Success? && r.value.1 ==>
              var k := IndexOfFirst(s.publications, (p: Publication) => p.id == publicationId).value;
              && r.value.0 == s.(publications := s.publications[k := ApprovedRow(s.publications[k], approverId, now)])
  {
    var d :- CheckApproval(s, publicationId, approverId);
    match d
    case Refuse => Success((s, false))
    case Proceed(k) =>
      Success((s.(publications := s.publications[k := ApprovedRow(s.publications[k], approverId, now)]), true))
  }

  /** After an approval the publication is found approved by the approver,
      and it is no longer on any pending list. */
  lemma ApprovedLeavesPending(s: Store, publicationId: int, approverId: int, now: int, departmentId: int)
    requires PublicationsWellFormed(s)
    requires MayApprove(s, publicationId, approverId)
    ensures Approve(s, publicationId, approverId, now).Success?
    ensures var s' := Approve(s, publicationId, approverId, now).value.0;
            && FindPublication(s', publicationId) == Some(ApprovedRow(FindPublication(s, publicationId).value, approverId, now))
            && (forall p :: p in GetPending(s') ==> p.id != publicationId)
            && (forall p :: p in GetPendingByDepartment(s', departmentId) ==> p.id != publicationId)
  {
    var k := IndexOfFirst(s.publications, (p: Publication) => p.id == publicationId).value;
    var row := ApprovedRow(s.publications[k], approverId, now);
    var s' := Approve(s, publicationId, approverId, now).value.0;
    assert s'.publications == s.publications[k := row];
    assert FindPublication(s, publicationId) == Some(s.publications[k]);
    ApprovedStoreFacts(s, s', k, row, departmentId);
  }

  /** Replacing the row of a key by an approved row with the same key makes
      the lookup find it and takes the key off every pending list. */
  lemma ApprovedStoreFacts(s: Store, s': Store, k: nat, row: Publication, departmentId: int)
    requires PublicationsWellFormed(s)
    requires k < |s.publications| && row.id == s.publications[k].id && row.isApproved
    requires s'.publications == s.publications[k := row]
    ensures FindPublication(s', row.id) == Some(row)
    ensures forall p :: p in GetPending(s') ==> p.id != row.id
    ensures forall p :: p in GetPendingByDepartment(s', departmentId) ==> p.id != row.id
  {
    IndexOfFirstAt(s'.publications, (p: Publication) => p.id == row.id, k);
    forall p | p in s'.publications && p.id == row.id
      ensures p.isApproved
    {
      var j :| 0 <= j < |s'.publications| && s'.publications[j] == p;
      assert j == k;
    }
  }

  /** The rows the database deletes with a publication: its comments and
      reactions, by the cascading foreign keys. */
  predicate NotOnPublication(c: Comment, publicationId: int) { c.publicationId != publicationId }

  predicate ReactionNotOn(x: Reaction, publicationId: int) { x.publicationId != publicationId }

  /** `RejectPublicationAsync`: returns whether the publication was
      rejected. A rejection deletes the publication and, by cascade, its
      comments and reactions; a refusal changes nothing. */
  function Reject(s: Store, publicationId: int, approverId: int): (r: Result<(Store, bool), Error>)
    ensures r.Failure? <==> CheckThrows(s, publicationId, approverId)
    ensures r.Failure? ==> r.error == NullDereference
    ensures r.Success? ==> (r.value.1 <==> MayApprove(s, publicationId, approverId))
    ensures r.Success? && !r.value.1 ==> r.value.0 == s
    ensures r.Success? && r.value.1 ==>
              var k := IndexOfFirst(s.publications, (p: Publication) => p.id == publicationId).value;
              && r.value.0.publications == RemoveAt(s.publications, k)
              && r.value.0.comments == Filter(s.comments, (c: Comment) => NotOnPublication(c, publicationId))
              && r.value.0.reactions == Filter(s.reactions, (x: Reaction) => ReactionNotOn(x, publicationId))
              && r.value.0 == s.(publications := r.value.0.publications, comments := r.value.0.comments,
                                 reactions := r.value.0.reactions)
  {
    var d :- CheckApproval(s, publicationId, approverId);
    match d
    case Refuse => Success((s, false))
    case Proceed(k) =>
      Success((s.(publications := RemoveAt(s.publications, k),
                  comments := Filter(s.comments, (c: Comment) => NotOnPublication(c, publicationId)),
                  reactions := Filter(s.reactions, (x: Reaction) => ReactionNotOn(x, publicationId))), true))
  }

  /** Approve and reject decide alike: both throw, refuse or proceed on the
      same inputs. */
  lemma ApproveRejectAgree(s: Store, publicationId: int, approverId: int, now: int)
    ensures Approve(s, publicationId, approverId, now).Success? == Reject(s, publicationId, approverId).Success?
    ensures Approve(s, publicationId, approverId, now).Success? ==>
              Approve(s, publicationId, approverId, now).value.1 == Reject(s, publicationId, approverId).value.1
  {
  }

  /** After a rejection the publication, its comments and its reactions are
      gone, and every other publication is found as before. */
  lemma RejectRemoves(s: Store, publicationId: int, approverId: int, other: int)
    requires PublicationsWellFormed(s)
    requires MayApprove(s, publicationId, approverId)
    requires other != publicationId
    ensures Reject(s, publicationId, approverId).Success?
    ensures var s' := Reject(s, publicationId, approverId).value.0;
            && FindPublication(s', publicationId).None?
            && CommentsFor(s', publicationId) == []
            && ReactionsFor(s', publicationId) == []
            && FindPublication(s', other) == FindPublication(s, other)
  {
    var k := IndexOfFirst(s.publications, (p: Publication) => p.id == publicationId).value;
    var s' := Reject(s, publicationId, approverId).value.0;
    assert s'.publications == RemoveAt(s.publications, k);
    assert forall c :: c in s'.comments ==> c.publicationId != publicationId;
    assert forall x :: x in s'.reactions ==> x.publicationId != publicationId;
    RejectedStoreFacts(s, s', k, publicationId, other);
  }

  /** What a store left by a rejection no longer holds, stated over the
      rows the rejection keeps. */
  lemma RejectedStoreFacts(s: Store, s': Store, k: nat, publicationId: int, other: int)
    requires PublicationsWellFormed(s)
    requires k < |s.publications| && s.publications[k].id == publicationId
    requires other != publicationId
    requires s'.publications == RemoveAt(s.publications, k)
    requires forall c :: c in s'.comments ==> c.publicationId != publicationId
    requires forall x :: x in s'.reactions ==> x.publicationId != publicationId
    ensures FindPublication(s', publicationId).None?
    ensures CommentsFor(s', publicationId) == []
    ensures ReactionsFor(s', publicationId) == []
    ensures FindPublication(s', other) == FindPublication(s, other)
  {
    RemoveUniqueKey(s.publications, k, publicationId);
    FilterEmpty(s'.comments, (c: Comment) => c.publicationId == publicationId);
    FilterEmpty(s'.reactions, (x: Reaction) => x.publicationId == publicationId);
    RejectKeepsOthers(s, k, publicationId, other);
    assert FindPublication(s', other) == FindPublication(s.(publications := RemoveAt(s.publications, k)), other);
  }

  /** With distinct keys, removing the row of a key leaves no row with it. */
  lemma RemoveUniqueKey(ps: seq<Publication>, k: nat, publicationId: int)
    requires k < |ps| && ps[k].id == publicationId
    requires forall i, j :: 0 <= i < j < |ps| ==> ps[i].id != ps[j].id
    ensures forall i :: 0 <= i < |RemoveAt(ps, k)| ==> RemoveAt(ps, k)[i].id != publicationId
  {
    forall i | 0 <= i < |RemoveAt(ps, k)|
      ensures RemoveAt(ps, k)[i].id != publicationId
    {
      if i >= k {
        assert RemoveAt(ps, k)[i] == ps[i + 1];
      }
    }
  }

  /** Removing the row at `k`, whose key is `publicationId`, does not change
      the lookup of another key. */
  lemma RejectKeepsOthers(s: Store, k: nat, publicationId: int, other: int)
    requires k < |s.publications| && s.publications[k].id == publicationId
    requires other != publicationId
    ensures FindPublication(s.(publications := RemoveAt(s.publications, k)), other) == FindPublication(s, other)
  {
    var ps := s.publications;
    var isOther := (p: Publication) => p.id == other;
    match IndexOfFirst(ps, isOther)
    case None =>
      assert forall i :: 0 <= i < |RemoveAt(ps, k)| ==> !isOther(RemoveAt(ps, k)[i]);
    case Some(j) =>
      if j < k {
        IndexOfFirstAt(RemoveAt(ps, k), isOther, j);
      } else {
        assert RemoveAt(ps, k)[j - 1] == ps[j];
        IndexOfFirstAt(RemoveAt(ps, k), isOther, j - 1);
      }
  }

  // ---------------------------------------------------------------------------
  // Comments
  // ---------------------------------------------------------------------------

  /** The comments of one publication, in table order. */
  function CommentsFor(s: Store, publicationId: int): (r: seq<Comment>)
    ensures forall c :: c in r <==> c in s.comments && c.publicationId == publicationId
  {
    Filter(s.comments, (c: Comment) => c.publicationId == publicationId)
  }

  /** `AddCommentAsync`: stores the comment under the next comment key. */
  function AddComment(s: Store, c: Comment): (r: (Store, Comment))
    ensures r.1 == c.(id := s.next.comment)
    ensures r.0.comments == s.comments + [r.1]
    ensures r.0.next == s.next.(comment := s.next.comment + 1)
    ensures r.0 == s.(comments := r.0.comments, next := r.0.next)
  {
    var stored := c.(id := s.next.comment);
    (s.(comments := s.comments + [stored], next := s.next.(comment := s.next.comment + 1)), stored)
  }

  /** The stored comment is listed with its publication's comments, after the
      ones that were there. */
  lemma AddCommentListed(s: Store, c: Comment)
    ensures CommentsFor(AddComment(s, c).0, c.publicationId) == CommentsFor(s, c.publicationId) + [AddComment(s, c).1]
  {
    var (s', stored) := AddComment(s, c);
    var on := (x: Comment) => x.publicationId == c.publicationId;
    FilterConcat(s.comments, [stored], on);
    FilterCons([stored], on);
    assert [stored][1..] == [];
  }

  // ---------------------------------------------------------------------------
  // Reactions
  // ---------------------------------------------------------------------------

  /** The reactions of one publication, in table order. */
  function ReactionsFor(s: Store, publicationId: int): (r: seq<Reaction>)
    ensures forall x :: x in r <==> x in s.reactions && x.publicationId == publicationId
  {
    Filter(s.reactions, (x: Reaction) => x.publicationId == publicationId)
  }

  /** The row belongs to this (publication, user) pair. */
  predicate OfPair(x: Reaction, publicationId: int, userId: int)
  {
    x.publicationId == publicationId && x.userId == userId
  }

  function Mine(publicationId: int, userId: int): Reaction -> bool
  {
    (x: Reaction) => OfPair(x, publicationId, userId)
  }

  function NotMine(publicationId: int, userId: int): Reaction -> bool
  {
    (x: Reaction) => !OfPair(x, publicationId, userId)
  }

  /** At most one reaction per (publication, user) pair. */
  ghost predicate ReactionsUnique(rs: seq<Reaction>)
  {
    forall i, j :: 0 <= i < j < |rs| ==> !OfPair(rs[j], rs[i].publicationId, rs[i].userId)
  }

  /** Position of the user's reaction to the publication: the first row of
      the pair, as `FirstOrDefaultAsync` finds it. */
  function Existing(rs: seq<Reaction>, publicationId: int, userId: int): (r: Option<nat>)
    ensures r.Some? ==> r.value < |rs| && OfPair(rs[r.value], publicationId, userId)
    ensures r.Some? ==> forall i :: 0 <= i < r.value ==> !OfPair(rs[i], publicationId, userId)
    ensures r.None? <==> forall i :: 0 <= i < |rs| ==> !OfPair(rs[i], publicationId, userId)
  {
    IndexOfFirst(rs, Mine(publicationId, userId))
  }

  /** The reaction kind the user has on the publication, if any. */
  function KindOf(rs: seq<Reaction>, publicationId: int, userId: int): (r: Option<string>)
    ensures r.None? <==> forall i :: 0 <= i < |rs| ==> !OfPair(rs[i], publicationId, userId)
  {
    match Existing(rs, publicationId, userId)
    case Some(k) => Some(rs[k].kind)
    case None => None
  }

  /** A row at `k` that is the first of its pair decides `KindOf`. */
  lemma KindAt(rs: seq<Reaction>, publicationId: int, userId: int, k: nat)
    requires k < |rs| && OfPair(rs[k], publicationId, userId)
    requires forall i :: 0 <= i < k ==> !OfPair(rs[i], publicationId, userId)
    ensures Existing(rs, publicationId, userId) == Some(k)
    ensures KindOf(rs, publicationId, userId) == Some(rs[k].kind)
  {
    IndexOfFirstAt(rs, Mine(publicationId, userId), k);
  }

  /** The rows of every other pair. */
  function OtherPairs(rs: seq<Reaction>, publicationId: int, userId: int): seq<Reaction>
  {
    Filter(rs, NotMine(publicationId, userId))
  }

  /** A new reaction, stored under the next reaction key. */
  function InsertReaction(s: Store, x: Reaction): (r: (Store, Reaction))
    ensures r.1 == x.(id := s.next.reaction)
    ensures r.0 == s.(reactions := s.reactions + [r.1], next := s.next.(reaction := s.next.reaction + 1))
    ensures OtherPairs(r.0.reactions, x.publicationId, x.userId) == OtherPairs(s.reactions, x.publicationId, x.userId)
  {
    var stored := x.(id := s.next.reaction);
    FilterSkipsRejected(s.reactions, stored, [], NotMine(x.publicationId, x.userId));
    assert s.reactions + [stored] + [] == s.reactions + [stored];
    assert s.reactions + [] == s.reactions;
    (s.(reactions := s.reactions + [stored], next := s.next.(reaction := s.next.reaction + 1)), stored)
  }

  /** The row at `k` deleted; the deleted row is returned. */
  function DeleteReaction(s: Store, k: nat): (r: (Store, Reaction))
    requires k < |s.reactions|
    ensures r.1 == s.reactions[k]
    ensures r.0 == s.(reactions := RemoveAt(s.reactions, k))
    ensures OtherPairs(r.0.reactions, r.1.publicationId, r.1.userId) == OtherPairs(s.reactions, r.1.publicationId, r.1.userId)
  {
    var existing := s.reactions[k];
    FilterIgnoresRejected(s.reactions, k, existing, NotMine(existing.publicationId, existing.userId));
    (s.(reactions := RemoveAt(s.reactions, k)), existing)
  }

  /** The row at `k` given another kind and the time `now`, in place. */
  function RetypeReaction(s: Store, k: nat, kind: string, now: int): (r: (Store, Reaction))
    requires k < |s.reactions|
    ensures r.1 == s.reactions[k].(kind := kind, createdAt := now)
    ensures r.0 == s.(reactions := s.reactions[k := r.1])
    ensures OtherPairs(r.0.reactions, r.1.publicationId, r.1.userId) == OtherPairs(s.reactions, r.1.publicationId, r.1.userId)
  {
    var updated := s.reactions[k].(kind := kind, createdAt := now);
    FilterIgnoresRejected(s.reactions, k, updated, NotMine(updated.publicationId, updated.userId));
    (s.(reactions := s.reactions[k := updated]), updated)
  }

  /** `AddReactionAsync`: the user's existing reaction to the publication
      decides. None: the reaction is added under the next key. Same kind: the
      row is removed (the toggle) and returned. Other kind: the row takes the
      new kind and the time `now` in place, and is returned. The rows of
      every other (publication, user) pair stay exactly as they were. */
  function AddReaction(s: Store, x: Reaction, now: int): (r: (Store, Reaction))
    ensures r.0 == s.(reactions := r.0.reactions, next := r.0.next)
    ensures OfPair(r.1, x.publicationId, x.userId)
    ensures OtherPairs(r.0.reactions, x.publicationId, x.userId) == OtherPairs(s.reactions, x.publicationId, x.userId)
    ensures Existing(s.reactions, x.publicationId, x.userId).None? ==>
              && r.1 == x.(id := s.next.reaction)
              && r.0.reactions == s.reactions + [r.1]
              && r.0.next == s.next.(reaction := s.next.reaction + 1)
    ensures Existing(s.reactions, x.publicationId, x.userId).Some? ==>
              var k := Existing(s.reactions, x.publicationId, x.userId).value;
              && r.0.next == s.next
              && (s.reactions[k].kind == x.kind ==> r.1 == s.reactions[k] && r.0.reactions == RemoveAt(s.reactions, k))
              && (s.reactions[k].kind != x.kind ==>
                    r.1 == s.reactions[k].(kind := x.kind, createdAt := now) && r.0.reactions == s.reactions[k := r.1])
  {
    match Existing(s.reactions, x.publicationId, x.userId)
    case None => InsertReaction(s, x)
    case Some(k) =>
      if s.reactions[k].kind == x.kind then DeleteReaction(s, k)
      else RetypeReaction(s, k, x.kind, now)
  }

  /** Removing a row keeps the pairs unique. */
  lemma RemoveAtUnique(rs: seq<Reaction>, k: nat)
    requires k < |rs| && ReactionsUnique(rs)
    ensures ReactionsUnique(RemoveAt(rs, k))
  {
    var r := RemoveAt(rs, k);
    forall i, j | 0 <= i < j < |r|
      ensures !OfPair(r[j], r[i].publicationId, r[i].userId)
    {
      var i0 := if i < k then i else i + 1;
      var j0 := if j < k then j else j + 1;
      assert r[i] == rs[i0] && r[j] == rs[j0] && i0 < j0;
    }
  }

  /** The toggle keeps at most one reaction per pair. Afterwards the pair has
      no reaction if it had one of the same kind, and one of the given kind
      otherwise. */
  lemma AddReactionToggles(s: Store, x: Reaction, now: int)
    requires ReactionsUnique(s.reactions)
    ensures var rs := AddReaction(s, x, now).0.reactions;
            && ReactionsUnique(rs)
            && KindOf(rs, x.publicationId, x.userId)
               == if KindOf(s.reactions, x.publicationId, x.userId) == Some(x.kind) then None else Some(x.kind)
  {
    match Existing(s.reactions, x.publicationId, x.userId)
    case None => ToggleInserts(s, x, now);
    case Some(k) =>
      if s.reactions[k].kind == x.kind {
        ToggleDeletes(s, x, now, k);
      } else {
        ToggleRetypes(s, x, now, k);
      }
  }

  lemma ToggleInserts(s: Store, x: Reaction, now: int)
    requires ReactionsUnique(s.reactions)
    requires Existing(s.reactions, x.publicationId, x.userId).None?
    ensures var rs := AddReaction(s, x, now).0.reactions;
            ReactionsUnique(rs) && KindOf(rs, x.publicationId, x.userId) == Some(x.kind)
  {
    var rs := s.reactions;
    var rs' := AddReaction(s, x, now).0.reactions;
    assert rs' == rs + [x.(id := s.next.reaction)];
    KindAt(rs', x.publicationId, x.userId, |rs|);
    forall i, j | 0 <= i < j < |rs'|
      ensures !OfPair(rs'[j], rs'[i].publicationId, rs'[i].userId)
    {
      if j == |rs| {
        assert !OfPair(rs[i], x.publicationId, x.userId);
      }
    }
  }

  lemma ToggleDeletes(s: Store, x: Reaction, now: int, k: nat)
    requires ReactionsUnique(s.reactions)
    requires Existing(s.reactions, x.publicationId, x.userId) == Some(k)
    requires s.reactions[k].kind == x.kind
    ensures var rs := AddReaction(s, x, now).0.reactions;
            ReactionsUnique(rs) && KindOf(rs, x.publicationId, x.userId).None?
  {
    var rs := s.reactions;
    var rs' := AddReaction(s, x, now).0.reactions;
    assert rs' == RemoveAt(rs, k);
    RemoveAtUnique(rs, k);
    forall i | 0 <= i < |rs'|
      ensures !OfPair(rs'[i], x.publicationId, x.userId)
    {
      if i >= k {
        assert rs'[i] == rs[i + 1];
        assert !OfPair(rs[i + 1], rs[k].publicationId, rs[k].userId);
      }
    }
  }

  lemma ToggleRetypes(s: Store, x: Reaction, now: int, k: nat)
    requires ReactionsUnique(s.reactions)
    requires Existing(s.reactions, x.publicationId, x.userId) == Some(k)
    requires s.reactions[k].kind != x.kind
    ensures var rs := AddReaction(s, x, now).0.reactions;
            ReactionsUnique(rs) && KindOf(rs, x.publicationId, x.userId) == Some(x.kind)
  {
    var rs := s.reactions;
    var rs' := AddReaction(s, x, now).0.reactions;
    assert rs' == rs[k := rs[k].(kind := x.kind, createdAt := now)];
    KindAt(rs', x.publicationId, x.userId, k);
    forall i, j | 0 <= i < j < |rs'|
      ensures !OfPair(rs'[j], rs'[i].publicationId, rs'[i].userId)
    {
      assert OfPair(rs'[i], rs[i].publicationId, rs[i].userId);
      assert OfPair(rs'[j], rs[j].publicationId, rs[j].userId);
    }
  }

  /** What a reaction table shows of a row: who reacted to what, and how;
      keys and time stamps aside. */
  function Shape(x: Reaction): (int, int, string)
  {
    (x.publicationId, x.userId, x.kind)
  }

  function Shapes(rs: seq<Reaction>): set<(int, int, string)>
  {
    set x | x in rs :: Shape(x)
  }

  /** Reacting twice in the same way restores the reactions as they were
      (keys and time stamps aside) when the user had no reaction or one of
      that kind; without a prior reaction the table is restored exactly. */
  lemma ToggleTwiceRestores(s: Store, x: Reaction, now: int, later: int)
    requires ReactionsUnique(s.reactions)
    requires KindOf(s.reactions, x.publicationId, x.userId).None? || KindOf(s.reactions, x.publicationId, x.userId) == Some(x.kind)
    ensures var s2 := AddReaction(AddReaction(s, x, now).0, x, later).0;
            && Shapes(s2.reactions) == Shapes(s.reactions)
            && (KindOf(s.reactions, x.publicationId, x.userId).None? ==> s2.reactions == s.reactions)
  {
    match Existing(s.reactions, x.publicationId, x.userId)
    case None => InsertThenDelete(s, x, now, later);
    case Some(k) => DeleteThenInsert(s, x, now, later, k);
  }

  lemma InsertThenDelete(s: Store, x: Reaction, now: int, later: int)
    requires Existing(s.reactions, x.publicationId, x.userId).None?
    ensures AddReaction(AddReaction(s, x, now).0, x, later).0.reactions == s.reactions
  {
    var rs := s.reactions;
    var s1 := AddReaction(s, x, now).0;
    assert s1.reactions == rs + [x.(id := s.next.reaction)];
    KindAt(s1.reactions, x.publicationId, x.userId, |rs|);
    assert AddReaction(s1, x, later).0.reactions == RemoveAt(s1.reactions, |rs|);
    assert RemoveAt(s1.reactions, |rs|) == rs;
  }

  lemma DeleteThenInsert(s: Store, x: Reaction, now: int, later: int, k: nat)
    requires ReactionsUnique(s.reactions)
    requires Existing(s.reactions, x.publicationId, x.userId) == Some(k)
    requires s.reactions[k].kind == x.kind
    ensures Shapes(AddReaction(AddReaction(s, x, now).0, x, later).0.reactions) == Shapes(s.reactions)
  {
    var rs := s.reactions;
    var gone := rs[k];
    var s1 := AddReaction(s, x, now).0;
    ToggleDeletes(s, x, now, k);
    assert s1.reactions == RemoveAt(rs, k);
    var added := x.(id := s1.next.reaction);
    var rs2 := AddReaction(s1, x, later).0.reactions;
    assert rs2 == s1.reactions + [added];
    assert Shape(added) == Shape(gone);
    RemoveAtMembers(rs, k);
    forall sh | sh in Shapes(rs)
      ensures sh in Shapes(rs2)
    {
      var y :| y in rs && Shape(y) == sh;
      var i :| 0 <= i < |rs| && rs[i] == y;
      if i == k {
        assert added in rs2;
      } else {
        assert y in s1.reactions;
        assert y in rs2;
      }
    }
    forall sh | sh in Shapes(rs2)
      ensures sh in Shapes(rs)
    {
      var y :| y in rs2 && Shape(y) == sh;
      if y == added {
        assert gone in rs;
      } else {
        assert y in s1.reactions;
      }
    }
  }

  /** When the user had a reaction of another kind, reacting twice in the same
      way leaves no reaction for the pair: the earlier kind is lost. */
  lemma ToggleTwiceOtherKind(s: Store, x: Reaction, now: int, later: int)
    requires ReactionsUnique(s.reactions)
    requires KindOf(s.reactions, x.publicationId, x.userId).Some?
    requires KindOf(s.reactions, x.publicationId, x.userId) != Some(x.kind)
    ensures KindOf(AddReaction(AddReaction(s, x, now).0, x, later).0.reactions, x.publicationId, x.userId).None?
  {
    var s1 := AddReaction(s, x, now).0;
    AddReactionToggles(s, x, now);
    AddReactionToggles(s1, x, later);
  }
}

=== FILE: publication_service.dfy ===
/** The publication rules: creating a publication (approved at once when the
    author heads a department), the approved and pending lists, the pending
    list a head of department reviews, comments and reactions with their
    existence checks, and how a publication is shown. */
module PublicationService {
  import opened Wrappers
  import opened Sequences
  import opened Entities
  import PublicationRepository

  const UserNotFound := Error(InvalidOperation, "User not found")
  const PublicationMissing := Error(General, "Publication not found.")
  const ReactorMissing := Error(General, "User not found.")
  const UnknownAuthor := "Unknown Author"
  const UnknownUser := "Unknown User"

  // ---------------------------------------------------------------------------
  // Views
  // ---------------------------------------------------------------------------

  datatype CommentDto = CommentDto(id: int, userId: int, userName: string, text: string, createdAt: int)

  datatype ReactionDto = ReactionDto(id: int, userId: int, userName: string, kind: string, createdAt: int)

  datatype PublicationDto = PublicationDto(
    id: int,
    content: string,
    authorName: string,
    authorId: int,
    authorDepartmentId: int,
    createdAt: int,
    isApproved: bool,
    comments: seq<CommentDto>,
    reactions: seq<ReactionDto>)

  /** What the query that produced a publication loaded with it: the author,
      the comments (always with their users), the reactions, and the users
      whose rows are attached to reactions. A list that is not loaded is the
      empty list the entity starts with. */
  datatype Loaded = Loaded(author: bool, comments: bool, reactions: bool, reactionUsers: set<int>)

  /** The approved list loads the author, the comments with their users and
      the reactions without their users, untracked. */
  const ApprovedLoad := Loaded(true, true, true, {})

  /** The pending lists load the author only. */
  const PendingLoad := Loaded(true, false, false, {})

  /** A publication just created is linked to its author, who was loaded to
      decide approval; it has no comments or reactions yet. */
  const CreatedLoad := Loaded(true, false, false, {})

  /** The details query loads the author, the comments with their users and
      the reactions, tracked: a reaction shows its user when that user was
      loaded as the author or as a commenter. */
  function DetailsLoad(s: Store, p: Publication): Loaded
  {
    var commenters := set c | c in PublicationRepository.CommentsFor(s, p.id) :: c.userId;
    Loaded(true, true, true, {p.authorId} + commenters)
  }

  /** A user's name where the row was loaded and exists, otherwise `default`. */
  function NameOr(s: Store, userId: int, loaded: bool, default: string): (r: string)
    ensures loaded && FindUser(s, userId).Some? ==> r == FindUser(s, userId).value.name
    ensures !loaded || FindUser(s, userId).None? ==> r == default
  {
    if loaded then UserName(s, userId).GetOr(default) else default
  }

  function MapComment(s: Store, c: Comment): CommentDto
  {
    CommentDto(c.id, c.userId, NameOr(s, c.userId, true, UnknownUser), c.text, c.createdAt)
  }

  function MapReaction(s: Store, x: Reaction, userLoaded: bool): ReactionDto
  {
    ReactionDto(x.id, x.userId, NameOr(s, x.userId, userLoaded, UnknownUser), x.kind, x.createdAt)
  }

  /** `MapToDto`: the publication as shown. Without a loaded author it shows
      "Unknown Author" and department 0; lists that were not loaded are
      empty; a comment or reaction whose user is not loaded shows "Unknown
      User". */
  function MapToDto(s: Store, p: Publication, load: Loaded): (r: PublicationDto)
    ensures r.id == p.id && r.content == p.content && r.authorId == p.authorId
    ensures r.createdAt == p.createdAt && r.isApproved == p.isApproved
    ensures load.author && FindUser(s, p.authorId).Some? ==>
              r.authorName == FindUser(s, p.authorId).value.name
              && r.authorDepartmentId == FindUser(s, p.authorId).value.departmentId
    ensures !load.author || FindUser(s, p.authorId).None? ==>
              r.authorName == UnknownAuthor && r.authorDepartmentId == 0
    ensures |r.comments| == if load.comments then |PublicationRepository.CommentsFor(s, p.id)| else 0
    ensures |r.reactions| == if load.reactions then |PublicationRepository.ReactionsFor(s, p.id)| else 0
    ensures forall i :: 0 <= i < |r.comments| ==>
              r.comments[i] == MapComment(s, PublicationRepository.CommentsFor(s, p.id)[i])
    ensures forall i :: 0 <= i < |r.reactions| ==>
              var x := PublicationRepository.ReactionsFor(s, p.id)[i];
              r.reactions[i] == MapReaction(s, x, x.userId in load.reactionUsers)
  {
    var author := if load.author then FindUser(s, p.authorId) else None;
    var comments := if load.comments then PublicationRepository.CommentsFor(s, p.id) else [];
    var reactions := if load.reactions then PublicationRepository.ReactionsFor(s, p.id) else [];
    PublicationDto(
      p.id, p.content,
      match author case Some(u) => u.name case None => UnknownAuthor,
      p.authorId,
      match author case Some(u) => u.departmentId case None => 0,
      p.createdAt, p.isApproved,
      Map(comments, (c: Comment) => MapComment(s, c)),
      Map(reactions, (x: Reaction) => MapReaction(s, x, x.userId in load.reactionUsers)))
  }

  // ---------------------------------------------------------------------------
  // Creating a publication
  // ---------------------------------------------------------------------------

  /** The auto-approval test: the author's role, trimmed, equals "head
      department" ignoring case; an author without a role row is not a
      head of department. */
  predicate AuthorIsHead(s: Store, author: User)
  {
    match RoleName(s, author)
    case Some(name) => PublicationRepository.IsHeadDepartment(name)
    case None => false
  }

  /** `CreatePublicationAsync`: an unknown author is refused; otherwise the
      publication is stored with the given content and author, created at
      `now`, and approved exactly when the author heads a department. */
  function CreatePublication(s: Store, content: string, authorId: int, now: int): (r: Result<(Store, PublicationDto), Error>)
    ensures r.Failure? <==> FindUser(s, authorId).None?
    ensures r.Failure? ==> r.error == UserNotFound
    ensures r.Success? ==>
              var (s', dto) := r.value;
              && |s'.publications| == |s.publications| + 1
              && s'.publications == s.publications + [s'.publications[|s.publications|]]
              && s' == s.(publications := s'.publications, next := s'.next)
              && var stored := s'.publications[|s.publications|];
              && stored.content == content && stored.authorId == authorId && stored.createdAt == now
              && stored.approvedById.None? && stored.approvedAt.None?
              && (stored.isApproved <==> AuthorIsHead(s, FindUser(s, authorId).value))
              && dto == MapToDto(s', stored, CreatedLoad)
  {
    match FindUser(s, authorId)
    case None => Failure(UserNotFound)
    case Some(author) =>
      var p := Publication(0, content, AuthorIsHead(s, author), authorId, None, now, None);
      var (s', stored) := PublicationRepository.Add(s, p).value;
      Success((s', MapToDto(s', stored, CreatedLoad)))
  }

  /** A new publication lands on the approved list when its author heads a
      department, and on the pending list otherwise; it is shown with its
      author's name and without comments or reactions. */
  lemma CreatedPublicationListed(s: Store, content: string, authorId: int, now: int)
    requires FindUser(s, authorId).Some?
    ensures var (s', dto) := CreatePublication(s, content, authorId, now).value;
            var stored := s'.publications[|s.publications|];
            && (AuthorIsHead(s, FindUser(s, authorId).value) ==> stored in PublicationRepository.GetApproved(s'))
            && (!AuthorIsHead(s, FindUser(s, authorId).value) ==> stored in PublicationRepository.GetPending(s'))
            && dto.authorName == FindUser(s, authorId).value.name
            && dto.comments == [] && dto.reactions == []
  {
    var (s', dto) := CreatePublication(s, content, authorId, now).value;
    assert s'.users == s.users;
    assert s'.publications[|s.publications|] in s'.publications;
  }

  // ---------------------------------------------------------------------------
  // Lists
  // ---------------------------------------------------------------------------

  function CreatedAtOf(d: PublicationDto): int { d.createdAt }

  /** `GetApprovedPublicationsAsync`: the approved publications, newest
      first, each shown with its comments and reactions. */
  function GetApprovedPublications(s: Store): (r: seq<PublicationDto>)
    ensures |r| == Count(s.publications, PublicationRepository.Approved)
    ensures forall i :: 0 <= i < |r| ==> r[i].isApproved
    ensures SortedDesc(r, CreatedAtOf)
    ensures |r| == |PublicationRepository.GetApproved(s)|
    ensures forall i :: 0 <= i < |r| ==> r[i] == MapToDto(s, PublicationRepository.GetApproved(s)[i], ApprovedLoad)
  {
    var rows := PublicationRepository.GetApproved(s);
    var show := (p: Publication) => MapToDto(s, p, ApprovedLoad);
    MapSortedDesc(rows, show, PublicationRepository.CreatedAt, CreatedAtOf);
    assert forall i :: 0 <= i < |rows| ==> rows[i].isApproved by {
      forall i | 0 <= i < |rows|
        ensures rows[i].isApproved
      {
        assert rows[i] in rows;
      }
    }
    Map(rows, show)
  }

  /** `GetPendingPublicationsAsync`: the publications awaiting approval, in
      table order, each shown with its author only. */
  function GetPendingPublications(s: Store): (r: seq<PublicationDto>)
    ensures |r| == Count(s.publications, PublicationRepository.Pending)
    ensures forall i :: 0 <= i < |r| ==> !r[i].isApproved && r[i].comments == [] && r[i].reactions == []
    ensures |r| == |PublicationRepository.GetPending(s)|
    ensures forall i :: 0 <= i < |r| ==> r[i] == MapToDto(s, PublicationRepository.GetPending(s)[i], PendingLoad)
  {
    var rows := PublicationRepository.GetPending(s);
    assert forall i :: 0 <= i < |rows| ==> !rows[i].isApproved by {
      forall i | 0 <= i < |rows|
        ensures !rows[i].isApproved
      {
        assert rows[i] in rows;
      }
    }
    Map(rows, (p: Publication) => MapToDto(s, p, PendingLoad))
  }

  /** The inputs on which the approver's pending list throws: the approver's
      `Role` is null, or the approver heads a department and the
      `Department` is null. */
  predicate ApproverListThrows(s: Store, approverId: int)
  {
    && FindUser(s, approverId).Some?
    && (|| RoleName(s, FindUser(s, approverId).value).None?
        || (&& PublicationRepository.IsHeadDepartment(RoleName(s, FindUser(s, approverId).value).value)
            && FindDepartment(s, FindUser(s, approverId).value.departmentId).None?))
  }

  /** `GetPendingPublicationsForApproverAsync`: empty for an unknown
      approver or one who does not head a department; otherwise the pending
      publications of the approver's department, newest first. */
  function GetPendingForApprover(s: Store, approverId: int): (r: Result<seq<PublicationDto>, Error>)
    ensures r.Failure? <==> ApproverListThrows(s, approverId)
    ensures r.Failure? ==> r.error == NullDereference
    ensures r.Success? && |r.value| > 0 ==>
              && FindUser(s, approverId).Some?
              && AuthorIsHead(s, FindUser(s, approverId).value)
    ensures r.Success? && FindUser(s, approverId).Some? && AuthorIsHead(s, FindUser(s, approverId).value) ==>
              r.value == Map(PublicationRepository.GetPendingByDepartment(s, FindUser(s, approverId).value.departmentId),
                             (p: Publication) => MapToDto(s, p, PendingLoad))
    ensures r.Success? ==> SortedDesc(r.value, CreatedAtOf)
  {
    match FindUser(s, approverId)
    case None => Success([])
    case Some(approver) =>
      match RoleName(s, approver)
      case None => Failure(NullDereference)
      case Some(name) =>
        if !PublicationRepository.IsHeadDepartment(name) then Success([])
        else match FindDepartment(s, approver.departmentId)
          case None => Failure(NullDereference)
          case Some(d) =>
            var rows := PublicationRepository.GetPendingByDepartment(s, d.id);
            var show := (p: Publication) => MapToDto(s, p, PendingLoad);
            MapSortedDesc(rows, show, PublicationRepository.CreatedAt, CreatedAtOf);
            Success(Map(rows, show))
  }

  /** The list an approver reviews holds exactly the pending publications the
      approver may approve: each one listed passes the approval check, and
      each pending publication that passes it is listed. */
  lemma ApproverListMatchesApproval(s: Store, approverId: int)
    requires PublicationRepository.PublicationsWellFormed(s)
    requires GetPendingForApprover(s, approverId).Success?
    ensures forall d :: d in GetPendingForApprover(s, approverId).value ==>
              PublicationRepository.MayApprove(s, d.id, approverId)
    ensures forall p :: p in s.publications && !p.isApproved && PublicationRepository.MayApprove(s, p.id, approverId) ==>
              exists d :: d in GetPendingForApprover(s, approverId).value && d.id == p.id
  {
    var listed := GetPendingForApprover(s, approverId).value;
    forall d | d in listed
      ensures PublicationRepository.MayApprove(s, d.id, approverId)
    {
      var i :| 0 <= i < |listed| && listed[i] == d;
      ListedIsApprovable(s, approverId, i);
    }
    forall p | p in s.publications && !p.isApproved && PublicationRepository.MayApprove(s, p.id, approverId)
      ensures exists d :: d in listed && d.id == p.id
    {
      ApprovableIsListed(s, approverId, p);
    }
  }

  lemma ListedIsApprovable(s: Store, approverId: int, i: nat)
    requires PublicationRepository.PublicationsWellFormed(s)
    requires GetPendingForApprover(s, approverId).Success?
    requires i < |GetPendingForApprover(s, approverId).value|
    ensures PublicationRepository.MayApprove(s, GetPendingForApprover(s, approverId).value[i].id, approverId)
  {
    var approver := FindUser(s, approverId).value;
    var rows := PublicationRepository.GetPendingByDepartment(s, approver.departmentId);
    assert GetPendingForApprover(s, approverId).value[i] == MapToDto(s, rows[i], PendingLoad);
    assert rows[i] in rows;
    FindOwnRow(s, rows[i]);
  }

  lemma ApprovableIsListed(s: Store, approverId: int, p: Publication)
    requires PublicationRepository.PublicationsWellFormed(s)
    requires GetPendingForApprover(s, approverId).Success?
    requires p in s.publications && !p.isApproved && PublicationRepository.MayApprove(s, p.id, approverId)
    ensures exists d :: d in GetPendingForApprover(s, approverId).value && d.id == p.id
  {
    var approver := FindUser(s, approverId).value;
    var rows := PublicationRepository.GetPendingByDepartment(s, approver.departmentId);
    FindOwnRow(s, p);
    assert PublicationRepository.AuthorIn(s, p, approver.departmentId);
    assert p in rows;
    var i :| 0 <= i < |rows| && rows[i] == p;
    var listed := GetPendingForApprover(s, approverId).value;
    assert listed[i] == MapToDto(s, p, PendingLoad);
    assert listed[i] in listed;
  }

  /** With distinct keys, a stored publication is the one its key finds. */
  lemma FindOwnRow(s: Store, p: Publication)
    requires PublicationRepository.PublicationsWellFormed(s)
    requires p in s.publications
    ensures FindPublication(s, p.id) == Some(p)
  {
    var k :| 0 <= k < |s.publications| && s.publications[k] == p;
    IndexOfFirstAt(s.publications, (q: Publication) => q.id == p.id, k);
  }

  /** `GetPublicationByIdAsync`: the publication with its details, or null. */
  function GetPublicationById(s: Store, id: int): (r: Option<PublicationDto>)
    ensures r.None? <==> FindPublication(s, id).None?
    ensures r.Some? ==> r.value == MapToDto(s, FindPublication(s, id).value, DetailsLoad(s, FindPublication(s, id).value))
  {
    match FindPublication(s, id)
    case None => None
    case Some(p) => Some(MapToDto(s, p, DetailsLoad(s, p)))
  }

  // ---------------------------------------------------------------------------
  // Comments and reactions
  // ---------------------------------------------------------------------------

  /** The two checks `AddCommentAsync` and `AddReactionAsync` run, in this
      order: the publication exists, then the user exists. */
  function CheckTarget(s: Store, publicationId: int, userId: int): (r: Result<User, Error>)
    ensures FindPublication(s, publicationId).None? ==> r == Failure(PublicationMissing)
    ensures FindPublication(s, publicationId).Some? && FindUser(s, userId).None? ==> r == Failure(ReactorMissing)
    ensures r.Success? <==> FindPublication(s, publicationId).Some? && FindUser(s, userId).Some?
    ensures r.Success? ==> r.value == FindUser(s, userId).value
  {
    if FindPublication(s, publicationId).None? then Failure(PublicationMissing)
    else match FindUser(s, userId)
      case None => Failure(ReactorMissing)
      case Some(u) => Success(u)
  }

  /** `AddCommentAsync`: after the checks, stores a comment carrying exactly
      the given publication, user and text, created at `now`, and shows it
      with the user's name. */
  function AddComment(s: Store, publicationId: int, userId: int, text: string, now: int): (r: Result<(Store, CommentDto), Error>)
    ensures r.Failure? <==> CheckTarget(s, publicationId, userId).Failure?
    ensures r.Failure? ==> r.error == CheckTarget(s, publicationId, userId).error
    ensures r.Success? ==>
              var (s', dto) := r.value;
              && s'.comments == s.comments + [Comment(s.next.comment, publicationId, userId, text, now)]
              && s' == s.(comments := s'.comments, next := s'.next)
              && dto == CommentDto(s.next.comment, userId, FindUser(s, userId).value.name, text, now)
  {
    var user :- CheckTarget(s, publicationId, userId);
    var (s', saved) := PublicationRepository.AddComment(s, Comment(0, publicationId, userId, text, now));
    Success((s', CommentDto(saved.id, saved.userId, user.name, saved.text, saved.createdAt)))
  }

  /** With distinct publication and user keys, the comment returned is the
      last comment the publication's details show afterwards. */
  lemma AddedCommentShown(s: Store, publicationId: int, userId: int, text: string, now: int)
    requires AddComment(s, publicationId, userId, text, now).Success?
    ensures var (s', dto) := AddComment(s, publicationId, userId, text, now).value;
            var shown := GetPublicationById(s', publicationId);
            && shown.Some?
            && |shown.value.comments| > 0
            && shown.value.comments[|shown.value.comments| - 1] == dto
  {
    var (s', dto) := AddComment(s, publicationId, userId, text, now).value;
    var c := Comment(s.next.comment, publicationId, userId, text, now);
    assert PublicationRepository.AddComment(s, Comment(0, publicationId, userId, text, now)) == (s', c);
    PublicationRepository.AddCommentListed(s, Comment(0, publicationId, userId, text, now));
    assert s'.users == s.users && s'.publications == s.publications;
    var p := FindPublication(s', publicationId).value;
    assert p.id == publicationId;
    var comments := PublicationRepository.CommentsFor(s', publicationId);
    assert comments[|comments| - 1] == c;
  }

  /** `AddReactionAsync`: after the same checks, applies the toggle to a
      reaction of the given kind created at `now`, and shows the row the
      toggle returns with the user's name. */
  function AddReaction(s: Store, publicationId: int, userId: int, kind: string, now: int): (r: Result<(Store, ReactionDto), Error>)
    ensures r.Failure? <==> CheckTarget(s, publicationId, userId).Failure?
    ensures r.Failure? ==> r.error == CheckTarget(s, publicationId, userId).error
    ensures r.Success? ==>
              var (s', saved) := PublicationRepository.AddReaction(s, Reaction(0, publicationId, userId, kind, now), now);
              && r.value.0 == s'
              && r.value.1 == ReactionDto(saved.id, userId, FindUser(s, userId).value.name, saved.kind, saved.createdAt)
  {
    var user :- CheckTarget(s, publicationId, userId);
    var (s', saved) := PublicationRepository.AddReaction(s, Reaction(0, publicationId, userId, kind, now), now);
    Success((s', ReactionDto(saved.id, saved.userId, user.name, saved.kind, saved.createdAt)))
  }

  /** Comments and reactions are refused on the same inputs with the same
      error, and a refusal changes nothing. */
  lemma CommentAndReactionChecksAgree(s: Store, publicationId: int, userId: int, text: string, kind: string, now: int)
    ensures AddComment(s, publicationId, userId, text, now).Failure? == AddReaction(s, publicationId, userId, kind, now).Failure?
    ensures AddComment(s, publicationId, userId, text, now).Failure? ==>
              AddComment(s, publicationId, userId, text, now).error == AddReaction(s, publicationId, userId, kind, now).error
    ensures FindPublication(s, publicationId).None? ==> AddReaction(s, publicationId, userId, kind, now) == Failure(PublicationMissing)
  {
  }

  /** A reaction through the service keeps at most one reaction per pair and
      toggles the user's reaction of that kind. */
  lemma AddReactionToggles(s: Store, publicationId: int, userId: int, kind: string, now: int)
    requires PublicationRepository.ReactionsUnique(s.reactions)
    requires AddReaction(s, publicationId, userId, kind, now).Success?
    ensures var rs := AddReaction(s, publicationId, userId, kind, now).value.0.reactions;
            && PublicationRepository.ReactionsUnique(rs)
            && PublicationRepository.KindOf(rs, publicationId, userId)
               == if PublicationRepository.KindOf(s.reactions, publicationId, userId) == Some(kind) then None else Some(kind)
  {
    PublicationRepository.AddReactionToggles(s, Reaction(0, publicationId, userId, kind, now), now);
  }

  /** `GetReactionsForPublicationAsync`: the publication's reactions, each
      with its user's name. */
  function GetReactionsForPublication(s: Store, publicationId: int): (r: seq<ReactionDto>)
    ensures |r| == |PublicationRepository.ReactionsFor(s, publicationId)|
    ensures forall i :: 0 <= i < |r| ==>
              var x := PublicationRepository.ReactionsFor(s, publicationId)[i];
              && r[i].id == x.id && r[i].userId == x.userId && r[i].kind == x.kind && r[i].createdAt == x.createdAt
              && r[i].userName == NameOr(s, x.userId, true, UnknownUser)
  {
    Map(PublicationRepository.ReactionsFor(s, publicationId), (x: Reaction) => MapReaction(s, x, true))
  }
}

=== FILE: register_user.dfy ===
/** Self-registration: only company addresses are accepted, an e-mail may
    be registered once, and the new user is created through the user
    repository, which checks the department and the role. The password
    hasher is a parameter. */
module RegisterUser {
  import opened Wrappers
  import opened Sequences
  import opened Entities
  import Text
  import UserRepository
  import LoginUser

  /** The company domain, already in lower case, so that comparing it
      ignoring case only needs the e-mail side lowered. */
  const DomainSuffix: string := "@astree.com.tn"

  const ForeignDomain := Error(General, "Only @astree.com .tn email addresses are allowed")
  const EmailTaken := Error(General, "Email already exists")

  /** The e-mail ends with the company domain, ignoring case. */
  predicate AllowedEmail(email: string)
  {
    |DomainSuffix| <= |email| && Text.Lower(email[|email| - |DomainSuffix|..]) == DomainSuffix
  }

  /** The row registration asks the repository to create. */
  function NewUser(email: string, password: string, name: string, departmentId: int, roleId: int,
                   hash: string -> string, now: int): User
  {
    User(0, email, hash(password), name, departmentId, roleId, None, None, now)
  }

  /** `Execute` as written: the domain check, then the duplicate check,
      then creation with the department and role keys left at 0. */
  function Execute(s: Store, email: string, password: string, name: string, hash: string -> string, now: int)
    : (r: Result<(Store, User), Error>)
    ensures !AllowedEmail(email) ==> r == Failure(ForeignDomain)
    ensures AllowedEmail(email) && UserRepository.ExistsByEmail(s, email) ==> r == Failure(EmailTaken)
    ensures r.Success? ==> !UserRepository.ExistsByEmail(s, email)
    ensures r.Success? ==>
              && r.value.1.departmentId == 0 && r.value.1.roleId == 0
              && r.value.1.email == email && r.value.1.name == name && r.value.1.passwordHash == hash(password)
              && r.value.0.users == s.users + [r.value.1]
  {
    if !AllowedEmail(email) then Failure(ForeignDomain)
    else if UserRepository.GetByEmail(s, email).Some? then
      UserRepository.ExistsByEmailAgrees(s, email);
      Failure(EmailTaken)
    else
      UserRepository.ExistsByEmailAgrees(s, email);
      UserRepository.Create(s, NewUser(email, password, name, 0, 0, hash, now))
  }

  /** Registration as written succeeds only in a store that holds a
      department and a role with key 0; identity keys start at 1, so an
      allowed, unused e-mail is always turned away for its department. */
  lemma RegistrationNeedsKeyZero(s: Store, email: string, password: string, name: string, hash: string -> string, now: int)
    ensures Execute(s, email, password, name, hash, now).Success? ==> DepartmentExists(s, 0) && RoleExists(s, 0)
    ensures (forall i :: 0 <= i < |s.departments| ==> s.departments[i].id >= 1) &&
            AllowedEmail(email) && !UserRepository.ExistsByEmail(s, email) ==>
              Execute(s, email, password, name, hash, now) == Failure(UserRepository.InvalidDepartment)
  {
    UserRepository.ExistsByEmailAgrees(s, email);
    if (forall i :: 0 <= i < |s.departments| ==> s.departments[i].id >= 1) {
      assert !DepartmentExists(s, 0);
    }
  }

  /** Registration placing the new user in a department and a role chosen
      by the caller, with the same domain and duplicate checks in the same
      order. */
  function ExecutePlaced(s: Store, email: string, password: string, name: string, departmentId: int, roleId: int,
                         hash: string -> string, now: int)
    : (r: Result<(Store, User), Error>)
    ensures !AllowedEmail(email) ==> r == Failure(ForeignDomain)
    ensures AllowedEmail(email) && UserRepository.ExistsByEmail(s, email) ==> r == Failure(EmailTaken)
    ensures AllowedEmail(email) && !UserRepository.ExistsByEmail(s, email) ==>
              r == UserRepository.Create(s, NewUser(email, password, name, departmentId, roleId, hash, now))
  {
    if !AllowedEmail(email) then Failure(ForeignDomain)
    else if UserRepository.GetByEmail(s, email).Some? then
      UserRepository.ExistsByEmailAgrees(s, email);
      Failure(EmailTaken)
    else
      UserRepository.ExistsByEmailAgrees(s, email);
      UserRepository.Create(s, NewUser(email, password, name, departmentId, roleId, hash, now))
  }

  /** An allowed, unused e-mail with an existing department and role is
      registered: the user can then log in with the password (given a
      verifier that accepts the password against its hash), and the same
      e-mail cannot be registered again. */
  lemma PlacedRegistrationWorks(s: Store, email: string, password: string, name: string, departmentId: int, roleId: int,
                                hash: string -> string, verify: (string, string) -> bool, now: int)
    requires AllowedEmail(email) && !UserRepository.ExistsByEmail(s, email)
    requires DepartmentExists(s, departmentId) && RoleExists(s, roleId)
    requires verify(hash(password), password)
    ensures ExecutePlaced(s, email, password, name, departmentId, roleId, hash, now).Success?
    ensures var (s', u) := ExecutePlaced(s, email, password, name, departmentId, roleId, hash, now).value;
            && LoginUser.Execute(s', email, password, verify) == Success(u)
            && ExecutePlaced(s', email, password, name, departmentId, roleId, hash, now) == Failure(EmailTaken)
  {
    var (s', u) := ExecutePlaced(s, email, password, name, departmentId, roleId, hash, now).value;
    assert s'.users == s.users + [u];
    assert u.email == email;
    assert forall i :: 0 <= i < |s.users| ==> s'.users[i].email != email;
    IndexOfFirstAt(s'.users, UserRepository.HasEmail(email), |s.users|);
    assert s'.users[|s.users|] == u;
  }
}

=== FILE: reset_password.dfy ===
/** Resetting a password with the token sent by e-mail. The checks run in a
    fixed order (confirmation, user, token, expiry); the new password is
    then hashed and the token consumed. The hash function is a parameter. */
module ResetPassword {
  import opened Wrappers
  import opened Sequences
  import opened Entities
  import UserRepository

  const PasswordsDiffer := Error(Validation, "Passwords do not match")
  const UserNotFound := Error(Validation, "User not found")
  const InvalidToken := Error(Validation, "Invalid reset token")
  const TokenExpired := Error(Validation, "Reset token has expired")

  /** The expiry test of the reset: a missing expiry never counts as
      expired, and an expiry equal to `now` does not either. */
  predicate Expired(u: User, now: int)
  {
    u.resetTokenExpiry.Some? && u.resetTokenExpiry.value < now
  }

  /** The row after a successful reset. */
  function ResetRow(u: User, newPassword: string, hash: string -> string): User
  {
    u.(passwordHash := hash(newPassword), resetToken := None, resetTokenExpiry := None)
  }

  /** `Execute`. */
  function Execute(s: Store, email: string, token: string, newPassword: string, confirmPassword: string,
                   hash: string -> string, now: int): (r: Result<Store, Error>)
    ensures newPassword != confirmPassword ==> r == Failure(PasswordsDiffer)
    ensures newPassword == confirmPassword && UserRepository.GetByEmail(s, email).None? ==> r == Failure(UserNotFound)
    ensures newPassword == confirmPassword && UserRepository.GetByEmail(s, email).Some? ==>
              var u := UserRepository.GetByEmail(s, email).value;
              && (u.resetToken != Some(token) ==> r == Failure(InvalidToken))
              && (u.resetToken == Some(token) && Expired(u, now) ==> r == Failure(TokenExpired))
              && (u.resetToken == Some(token) && !Expired(u, now) ==> r == UserRepository.Update(s, ResetRow(u, newPassword, hash)))
    ensures r.Success? ==> r == UserRepository.Update(s, ResetRow(UserRepository.GetByEmail(s, email).value, newPassword, hash))
  {
    if newPassword != confirmPassword then Failure(PasswordsDiffer)
    else match UserRepository.GetByEmail(s, email)
      case None => Failure(UserNotFound)
      case Some(u) =>
        if u.resetToken != Some(token) then Failure(InvalidToken)
        else if Expired(u, now) then Failure(TokenExpired)
        else UserRepository.Update(s, ResetRow(u, newPassword, hash))
  }

  /** When keys are well formed and every user's department and role
      exist, a reset that passes its checks succeeds and
      does exactly what the repository's password update does: the e-mail's
      row gets the new hash and loses its token, and nothing else changes. */
  lemma ResetIsPasswordUpdate(s: Store, email: string, token: string, newPassword: string, hash: string -> string, now: int)
    requires UsersWellFormed(s) && UserReferencesExist(s)
    requires UserRepository.GetByEmail(s, email).Some?
    requires UserRepository.GetByEmail(s, email).value.resetToken == Some(token)
    requires !Expired(UserRepository.GetByEmail(s, email).value, now)
    ensures Execute(s, email, token, newPassword, newPassword, hash, now)
            == Success(UserRepository.UpdatePassword(s, email, newPassword, hash))
  {
    var k := UserRepository.EmailIndex(s, email).value;
    ResetSucceedsAt(s, k, email, token, newPassword, hash, now);
  }

  /** A token stored for a known e-mail resets the password at any time up
      to and including its expiry. */
  lemma StoredTokenResets(s: Store, email: string, token: string, newPassword: string, hash: string -> string, issued: int, now: int)
    requires UsersWellFormed(s) && UserReferencesExist(s)
    requires UserRepository.GetByEmail(s, email).Some?
    requires now <= issued + UserRepository.ResetWindow
    ensures Execute(UserRepository.StoreResetToken(s, email, token, issued), email, token, newPassword, newPassword, hash, now).Success?
  {
    var s' := UserRepository.StoreResetToken(s, email, token, issued);
    var k := UserRepository.EmailIndex(s, email).value;
    assert s' == UserRepository.WithToken(s, k, token, issued);
    UserRepository.WithTokenKeys(s, k, token, issued);
    UserRepository.WithTokenReferences(s, k, token, issued);
    UserRepository.WithTokenFound(s, k, email, token, issued);
    ResetSucceedsAt(s', k, email, token, newPassword, hash, now);
  }

  /** The row the e-mail finds, holding the token unexpired, is reset. */
  lemma ResetSucceedsAt(s: Store, k: nat, email: string, token: string, newPassword: string, hash: string -> string, now: int)
    requires UsersWellFormed(s) && UserReferencesExist(s)
    requires UserRepository.EmailIndex(s, email) == Some(k)
    requires s.users[k].resetToken == Some(token) && !Expired(s.users[k], now)
    ensures Execute(s, email, token, newPassword, newPassword, hash, now) == Success(s.(users := s.users[k := ResetRow(s.users[k], newPassword, hash)]))
  {
    var u := s.users[k];
    assert DepartmentExists(s, u.departmentId) && RoleExists(s, u.roleId);
    UserRepository.UpdateStoredRow(s, k, ResetRow(u, newPassword, hash));
  }

  /** The two expiry tests disagree at the boundary: at the very moment of
      expiry, with one user per e-mail, the repository no longer validates
      the token but the reset still accepts it. */
  lemma ExpiryBoundary(s: Store, email: string, token: string, newPassword: string, hash: string -> string, issued: int)
    requires UsersWellFormed(s) && UserReferencesExist(s) && UserRepository.EmailsUnique(s)
    requires UserRepository.GetByEmail(s, email).Some?
    ensures var s' := UserRepository.StoreResetToken(s, email, token, issued);
            var at := issued + UserRepository.ResetWindow;
            && !UserRepository.ValidateResetToken(s', email, token, at)
            && Execute(s', email, token, newPassword, newPassword, hash, at).Success?
  {
    UserRepository.StoredTokenValidates(s, email, token, issued, issued + UserRepository.ResetWindow);
    StoredTokenResets(s, email, token, newPassword, hash, issued, issued + UserRepository.ResetWindow);
  }

  /** A token is good for one reset: repeating a successful reset fails on
      the token. */
  lemma TokenSingleUse(s: Store, email: string, token: string, newPassword: string, hash: string -> string, now: int, later: int)
    requires UsersWellFormed(s)
    requires Execute(s, email, token, newPassword, newPassword, hash, now).Success?
    ensures Execute(Execute(s, email, token, newPassword, newPassword, hash, now).value,
                    email, token, newPassword, newPassword, hash, later) == Failure(InvalidToken)
  {
    var k := UserRepository.EmailIndex(s, email).value;
    var u := s.users[k];
    IndexOfFirstAt(s.users, UserRepository.KeyIs(u.id), k);
    var s' := Execute(s, email, token, newPassword, newPassword, hash, now).value;
    assert s'.users == s.users[k := ResetRow(u, newPassword, hash)];
    IndexOfFirstAt(s'.users, UserRepository.HasEmail(email), k);
  }
}

=== FILE: sequences.dfy ===
/** Sequence helpers standing in for the LINQ operators the repositories
    compose: `Where` (Filter), `OrderByDescending` (SortDesc, a stable sort),
    `Skip`/`Take`, and the 32-bit integer arithmetic C# uses to compute an
    offset. */
module Sequences {
  import opened Wrappers

  // ---------------------------------------------------------------------------
  // Where
  // ---------------------------------------------------------------------------

  /** The elements of `s` satisfying `p`, in their original order. */
  function Filter<T(!new)>(s: seq<T>, p: T -> bool): (r: seq<T>)
    ensures |r| <= |s|
    ensures forall i :: 0 <= i < |r| ==> p(r[i])
    ensures forall x :: x in r <==> x in s && p(x)
  {
    if |s| == 0 then []
    else
      var rest := Filter(s[1..], p);
      assert s == [s[0]] + s[1..];
      if p(s[0]) then [s[0]] + rest else rest
  }

  /** Number of positions of `s` whose element satisfies `p`. */
  function Count<T>(s: seq<T>, p: T -> bool): nat
  {
    if |s| == 0 then 0 else (if p(s[0]) then 1 else 0) + Count(s[1..], p)
  }

  /** `Filter` keeps exactly the positions `Count` counts. */
  lemma {:induction false} FilterLength<T(!new)>(s: seq<T>, p: T -> bool)
    ensures |Filter(s, p)| == Count(s, p)
  {
    if |s| > 0 {
      FilterLength(s[1..], p);
    }
  }

  /** A filter that keeps nothing is empty exactly when no element qualifies. */
  lemma FilterEmpty<T(!new)>(s: seq<T>, p: T -> bool)
    ensures Filter(s, p) == [] <==> forall i :: 0 <= i < |s| ==> !p(s[i])
  {
    if Filter(s, p) == [] {
      forall i | 0 <= i < |s|
        ensures !p(s[i])
      {
        assert s[i] in s;
      }
    } else {
      assert Filter(s, p)[0] in Filter(s, p);
    }
  }

  /** One step of `Filter`: the head is kept exactly when it qualifies. */
  lemma FilterCons<T(!new)>(s: seq<T>, p: T -> bool)
    requires |s| > 0
    ensures Filter(s, p) == (if p(s[0]) then [s[0]] else []) + Filter(s[1..], p)
  {
  }

  /** Filtering distributes over concatenation. */
  lemma {:induction false} FilterConcat<T(!new)>(a: seq<T>, b: seq<T>, p: T -> bool)
    ensures Filter(a + b, p) == Filter(a, p) + Filter(b, p)
  {
    if |a| == 0 {
      assert a + b == b;
    } else {
      FilterConcat(a[1..], b, p);
      FilterConcatStep(a, b, p);
    }
  }

  lemma FilterConcatStep<T(!new)>(a: seq<T>, b: seq<T>, p: T -> bool)
    requires |a| > 0
    requires Filter(a[1..] + b, p) == Filter(a[1..], p) + Filter(b, p)
    ensures Filter(a + b, p) == Filter(a, p) + Filter(b, p)
  {
    var head := if p(a[0]) then [a[0]] else [];
    var ab := a + b;
    ConcatTail(a, b);
    FilterCons(ab, p);
    FilterCons(a, p);
    SeqRegroup(head, Filter(a[1..], p), Filter(b, p), Filter(ab, p), Filter(a, p));
  }

  /** Dropping the head of a concatenation whose first part is non-empty. */
  lemma ConcatTail<T>(a: seq<T>, b: seq<T>)
    requires |a| > 0
    ensures (a + b)[0] == a[0] && (a + b)[1..] == a[1..] + b
  {
  }

  /** Regrouping a three-part concatenation. */
  lemma SeqRegroup<T>(h: seq<T>, x: seq<T>, y: seq<T>, whole: seq<T>, front: seq<T>)
    requires whole == h + (x + y)
    requires front == h + x
    ensures whole == front + y
  {
    SeqAssoc(h, x, y);
  }

  lemma SeqAssoc<T>(x: seq<T>, y: seq<T>, z: seq<T>)
    ensures x + (y + z) == (x + y) + z
  {
  }

  /** A row the filter rejects contributes nothing, wherever it stands. */
  lemma FilterSkipsRejected<T(!new)>(l: seq<T>, y: T, r: seq<T>, p: T -> bool)
    requires !p(y)
    ensures Filter(l + [y] + r, p) == Filter(l + r, p)
  {
    assert Filter([y], p) == [] by {
      FilterCons([y], p);
      assert [y][1..] == [];
    }
    assert Filter(l + [y], p) == Filter(l, p) by {
      FilterConcat(l, [y], p);
    }
    FilterConcat(l + [y], r, p);
    FilterConcat(l, r, p);
  }

  /** Rows a filter rejects may be removed or replaced by other rejected rows
      without changing what the filter keeps. */
  lemma FilterIgnoresRejected<T(!new)>(s: seq<T>, k: nat, x: T, p: T -> bool)
    requires k < |s| && !p(s[k]) && !p(x)
    ensures Filter(RemoveAt(s, k), p) == Filter(s, p)
    ensures Filter(s[k := x], p) == Filter(s, p)
  {
    assert s == s[..k] + [s[k]] + s[k + 1..];
    assert s[k := x] == s[..k] + [x] + s[k + 1..];
    FilterSkipsRejected(s[..k], s[k], s[k + 1..], p);
    FilterSkipsRejected(s[..k], x, s[k + 1..], p);
  }

  /** Every position is counted by a predicate or by its negation. */
  lemma {:induction false} CountComplement<T>(s: seq<T>, p: T -> bool, q: T -> bool)
    requires forall i :: 0 <= i < |s| ==> q(s[i]) == !p(s[i])
    ensures Count(s, p) + Count(s, q) == |s|
  {
    if |s| > 0 {
      CountComplement(s[1..], p, q);
    }
  }

  /** Keys that are distinct in `s` stay distinct in any filter of `s`. */
  lemma {:induction false} FilterDistinctKeys<T(!new), K>(s: seq<T>, p: T -> bool, key: T -> K)
    requires forall a, b :: 0 <= a < b < |s| ==> key(s[a]) != key(s[b])
    ensures forall a, b :: 0 <= a < b < |Filter(s, p)| ==> key(Filter(s, p)[a]) != key(Filter(s, p)[b])
  {
    if |s| > 0 {
      var tail := s[1..];
      assert forall a, b :: 0 <= a < b < |tail| ==> key(tail[a]) != key(tail[b]) by {
        forall a, b | 0 <= a < b < |tail|
          ensures key(tail[a]) != key(tail[b])
        {
          assert tail[a] == s[a + 1] && tail[b] == s[b + 1];
        }
      }
      FilterDistinctKeys(tail, p, key);
      var rest := Filter(tail, p);
      if p(s[0]) {
        var f := Filter(s, p);
        assert f == [s[0]] + rest;
        forall b | 0 < b < |f|
          ensures key(f[0]) != key(f[b])
        {
          assert f[b] == rest[b - 1] && rest[b - 1] in tail;
          var k :| 0 <= k < |tail| && tail[k] == rest[b - 1];
          assert tail[k] == s[k + 1];
        }
      }
    }
  }

  // ---------------------------------------------------------------------------
  // Select
  // ---------------------------------------------------------------------------

  /** LINQ `Select(f)`. */
  function Map<T, U>(s: seq<T>, f: T -> U): (r: seq<U>)
    ensures |r| == |s|
    ensures forall i :: 0 <= i < |s| ==> r[i] == f(s[i])
  {
    seq(|s|, i requires 0 <= i < |s| => f(s[i]))
  }

  /** Mapping with a function that keeps the sort key keeps the order. */
  lemma MapSortedDesc<T, U>(s: seq<T>, f: T -> U, key: T -> int, keyU: U -> int)
    requires SortedDesc(s, key)
    requires forall i :: 0 <= i < |s| ==> keyU(f(s[i])) == key(s[i])
    ensures SortedDesc(Map(s, f), keyU)
  {
  }

  /** The image of an element is in the image of the sequence. */
  lemma MapContains<T, U>(s: seq<T>, f: T -> U, x: T)
    requires x in s
    ensures f(x) in Map(s, f)
  {
    var k :| 0 <= k < |s| && s[k] == x;
    assert Map(s, f)[k] == f(x);
  }

  // ---------------------------------------------------------------------------
  // FirstOrDefault
  // ---------------------------------------------------------------------------

  /** Position of the first element satisfying `p`, if any. */
  function IndexOfFirst<T>(s: seq<T>, p: T -> bool): (r: Option<nat>)
    ensures r.Some? ==> r.value < |s| && p(s[r.value])
    ensures r.Some? ==> forall j :: 0 <= j < r.value ==> !p(s[j])
    ensures r.None? <==> forall j :: 0 <= j < |s| ==> !p(s[j])
  {
    if |s| == 0 then None
    else if p(s[0]) then Some(0)
    else match IndexOfFirst(s[1..], p)
      case None => None
      case Some(k) => Some(k + 1)
  }

  /** A position whose element qualifies while no earlier one does is the
      position `IndexOfFirst` finds. */
  lemma IndexOfFirstAt<T>(s: seq<T>, p: T -> bool, k: nat)
    requires k < |s| && p(s[k])
    requires forall j :: 0 <= j < k ==> !p(s[j])
    ensures IndexOfFirst(s, p) == Some(k)
  {
    var r := IndexOfFirst(s, p);
    assert r.Some?;
    assert r.value <= k by {
      if r.value > k {
        assert false;
      }
    }
  }

  /** LINQ `FirstOrDefault(p)`: the first element satisfying `p`, or none. */
  function FirstWhere<T>(s: seq<T>, p: T -> bool): (r: Option<T>)
    ensures r.Some? ==> r.value in s && p(r.value)
    ensures r.None? <==> forall j :: 0 <= j < |s| ==> !p(s[j])
  {
    match IndexOfFirst(s, p)
    case None => None
    case Some(k) => Some(s[k])
  }

  /** Two predicates that agree on every element of `s` select the same
      first element. */
  lemma {:induction false} FirstWhereAgree<T>(s: seq<T>, p: T -> bool, q: T -> bool)
    requires forall i :: 0 <= i < |s| ==> p(s[i]) == q(s[i])
    ensures IndexOfFirst(s, p) == IndexOfFirst(s, q)
    ensures FirstWhere(s, p) == FirstWhere(s, q)
  {
    if |s| > 0 {
      FirstWhereAgree(s[1..], p, q);
    }
  }

  // ---------------------------------------------------------------------------
  // OrderByDescending (stable)
  // ---------------------------------------------------------------------------

  ghost predicate SortedDesc<T>(s: seq<T>, key: T -> int)
  {
    forall i, j :: 0 <= i < j < |s| ==> key(s[i]) >= key(s[j])
  }

  /** Places `x` in front of the first element whose key is not larger than
      its own, so that `x` precedes later elements with the same key. */
  function InsertDesc<T(!new)>(x: T, s: seq<T>, key: T -> int): (r: seq<T>)
    ensures |r| == |s| + 1
    ensures multiset(r) == multiset(s) + multiset{x}
    ensures forall y :: y in r <==> y == x || y in s
    ensures SortedDesc(s, key) ==> SortedDesc(r, key)
  {
    if |s| == 0 || key(s[0]) <= key(x) then
      [x] + s
    else
      var rest := InsertDesc(x, s[1..], key);
      assert s == [s[0]] + s[1..];
      InsertDescStep(x, s, key, rest);
      [s[0]] + rest
  }

  /** The recursive step of `InsertDesc` keeps the order: every element of
      the rest is at most the head it goes behind. */
  lemma InsertDescStep<T(!new)>(x: T, s: seq<T>, key: T -> int, rest: seq<T>)
    requires |s| > 0 && key(s[0]) > key(x)
    requires forall y :: y in rest <==> y == x || y in s[1..]
    requires SortedDesc(s[1..], key) ==> SortedDesc(rest, key)
    ensures SortedDesc(s, key) ==> SortedDesc([s[0]] + rest, key)
  {
    if SortedDesc(s, key) {
      forall j | 0 <= j < |rest|
        ensures key(rest[j]) <= key(s[0])
      {
        assert rest[j] in rest;
        if rest[j] != x {
          var k :| 0 <= k < |s[1..]| && s[1..][k] == rest[j];
          assert s[k + 1] == rest[j];
        }
      }
      assert SortedDesc(s[1..], key) by {
        forall i, j | 0 <= i < j < |s| - 1
          ensures key(s[1..][i]) >= key(s[1..][j])
        {
          assert s[1..][i] == s[i + 1] && s[1..][j] == s[j + 1];
        }
      }
      ConsSortedDesc(s[0], rest, key);
    }
  }

  /** An element at least as large as every element of a sorted sequence
      can go in front of it. */
  lemma ConsSortedDesc<T>(h: T, rest: seq<T>, key: T -> int)
    requires SortedDesc(rest, key)
    requires forall j :: 0 <= j < |rest| ==> key(rest[j]) <= key(h)
    ensures SortedDesc([h] + rest, key)
  {
    forall i, j | 0 <= i < j < |rest| + 1
      ensures key(([h] + rest)[i]) >= key(([h] + rest)[j])
    {
      if i > 0 {
        assert ([h] + rest)[i] == rest[i - 1];
      }
      assert ([h] + rest)[j] == rest[j - 1];
    }
  }

  /** OrderByDescending(key): a permutation of `s`, sorted by decreasing
      key, stable for equal keys. */
  function SortDesc<T(!new)>(s: seq<T>, key: T -> int): (r: seq<T>)
    ensures |r| == |s|
    ensures multiset(r) == multiset(s)
    ensures forall y :: y in r <==> y in s
    ensures SortedDesc(r, key)
  {
    if |s| == 0 then []
    else
      assert s == [s[0]] + s[1..];
      InsertDesc(s[0], SortDesc(s[1..], key), key)
  }

  /** The head of a descending sort carries the largest key of the input. */
  lemma SortDescHeadIsMax<T(!new)>(s: seq<T>, key: T -> int)
    requires |s| > 0
    ensures SortDesc(s, key)[0] in s
    ensures forall y :: y in s ==> key(y) <= key(SortDesc(s, key)[0])
  {
    var r := SortDesc(s, key);
    assert r[0] in r;
    forall y | y in s
      ensures key(y) <= key(r[0])
    {
      assert y in r;
      var j :| 0 <= j < |r| && r[j] == y;
      if j > 0 {
        assert key(r[0]) >= key(r[j]);
      }
    }
  }

  // ---------------------------------------------------------------------------
  // Skip / Take
  // ---------------------------------------------------------------------------

  /** A count `n` forced into the index range `0..len`. */
  function Clamp(n: int, len: nat): (k: nat)
    ensures k <= len
    ensures 0 <= n <= len ==> k == n
  {
    if n < 0 then 0 else if n > len then len else n
  }

  /** LINQ `Skip(n)`: drops the first `n` elements; a non-positive count
      keeps everything and a count past the end leaves nothing. */
  function Skip<T>(s: seq<T>, n: int): (r: seq<T>)
    ensures n <= 0 ==> r == s
    ensures n >= |s| ==> r == []
    ensures r == s[Clamp(n, |s|)..]
  {
    if n <= 0 then s else if n >= |s| then [] else s[n..]
  }

  /** LINQ `Take(n)`: the first `n` elements, or all of them when there
      are fewer; a non-positive count yields nothing. */
  function Take<T>(s: seq<T>, n: int): (r: seq<T>)
    ensures n <= 0 ==> r == []
    ensures n >= |s| ==> r == s
    ensures r == s[..Clamp(n, |s|)]
  {
    if n <= 0 then [] else if n >= |s| then s else s[..n]
  }

  /** `Skip(offset).Take(size)`: the contiguous run of at most `size`
      elements starting at `offset`, both forced into range. */
  function Page<T>(s: seq<T>, offset: int, size: int): (r: seq<T>)
    ensures Clamp(offset, |s|) + |r| <= |s|
    ensures r == s[Clamp(offset, |s|)..Clamp(offset, |s|) + |r|]
    ensures |r| <= Clamp(size, |s|)
    ensures |r| == Clamp(size, |s| - Clamp(offset, |s|))
  {
    Take(Skip(s, offset), size)
  }

  /** `r` is the run of `s` that starts at `lo` and holds `size` elements,
      or all that remain after `lo` when fewer do (none when `size` is
      negative). */
  ghost predicate IsPageAt<T>(r: seq<T>, s: seq<T>, lo: int, size: int)
  {
    && 0 <= lo <= |s|
    && |r| == Clamp(size, |s| - lo)
    && r == s[lo..lo + |r|]
  }

  /** A page is the run at its clamped offset. */
  lemma PageIsPageAt<T>(s: seq<T>, offset: int, size: int)
    ensures IsPageAt(Page(s, offset, size), s, Clamp(offset, |s|), size)
  {
  }

  /** Two adjacent runs of `n` elements make up the run of `2 * n`. */
  lemma PageSplit<T>(s: seq<T>, offset: nat, n: nat)
    ensures Page(s, offset, n) + Page(s, offset + n, n) == Page(s, offset, 2 * n)
  {
    var lo, mid, hi := Clamp(offset, |s|), Clamp(offset + n, |s|), Clamp(offset + 2 * n, |s|);
    PageIsSlice(s, offset, n, offset + n);
    PageIsSlice(s, offset + n, n, offset + 2 * n);
    PageIsSlice(s, offset, 2 * n, offset + 2 * n);
    SliceConcat(s, lo, mid, hi);
    assert Page(s, offset, n) == s[lo..mid];
    assert Page(s, offset + n, n) == s[mid..hi];
    assert Page(s, offset, 2 * n) == s[lo..hi];
  }

  /** With a non-negative offset and size, a page is the slice between the
      clamped start and the clamped end. */
  lemma PageIsSlice<T>(s: seq<T>, offset: nat, n: nat, end: nat)
    requires end == offset + n
    ensures Page(s, offset, n) == s[Clamp(offset, |s|)..Clamp(end, |s|)]
  {
  }

  lemma SliceConcat<T>(s: seq<T>, lo: nat, mid: nat, hi: nat)
    requires lo <= mid <= hi <= |s|
    ensures s[lo..mid] + s[mid..hi] == s[lo..hi]
  {
  }

  /** A page of a sorted sequence is sorted and holds elements of it. */
  lemma PageOfSorted<T(!new)>(s: seq<T>, offset: int, size: int, key: T -> int)
    requires SortedDesc(s, key)
    ensures SortedDesc(Page(s, offset, size), key)
    ensures forall x :: x in Page(s, offset, size) ==> x in s
  {
    var lo := Clamp(offset, |s|);
    var r := Page(s, offset, size);
    SortedSlice(s, lo, lo + |r|, key);
    SliceMembers(s, lo, lo + |r|);
  }

  /** Every element of a contiguous run is an element of the sequence. */
  lemma SliceMembers<T>(s: seq<T>, lo: nat, hi: nat)
    requires lo <= hi <= |s|
    ensures forall x :: x in s[lo..hi] ==> x in s
  {
    forall x | x in s[lo..hi]
      ensures x in s
    {
      var i :| 0 <= i < hi - lo && s[lo..hi][i] == x;
      assert s[lo + i] == x;
    }
  }

  /** A contiguous run of a sorted sequence is sorted. */
  lemma SortedSlice<T>(s: seq<T>, lo: nat, hi: nat, key: T -> int)
    requires lo <= hi <= |s|
    requires SortedDesc(s, key)
    ensures SortedDesc(s[lo..hi], key)
  {
    forall i, j | 0 <= i < j < hi - lo
      ensures key(s[lo..hi][i]) >= key(s[lo..hi][j])
    {
      assert s[lo..hi][i] == s[lo + i] && s[lo..hi][j] == s[lo + j];
    }
  }

  // ---------------------------------------------------------------------------
  // 32-bit arithmetic
  // ---------------------------------------------------------------------------

  const Int32Min: int := -0x8000_0000
  const Int32Max: int := 0x7FFF_FFFF

  predicate IsInt32(x: int) { Int32Min <= x <= Int32Max }

  /** C#'s `int`. */
  type int32 = x: int | -0x8000_0000 <= x <= 0x7FFF_FFFF

  /** Two's-complement wrap-around of an unchecked C# `int` expression. */
  function Wrap32(x: int): (r: int)
    ensures IsInt32(r)
    ensures IsInt32(x) ==> r == x
  {
    var m := (x + 0x8000_0000) % 0x1_0000_0000;
    m - 0x8000_0000
  }

  /** Offset of page `page` (counted from 1) computed with unchecked 32-bit
      arithmetic, as `(page - 1) * pageSize` is in C#. */
  function PageOffset(page: int32, pageSize: int32): int32
  {
    Wrap32(Wrap32(page - 1) * pageSize)
  }

  /** Without overflow the wrapped offset is the mathematical one. */
  lemma PageOffsetExact(page: int32, pageSize: int32)
    requires 1 <= page && Int32Min <= (page - 1) * pageSize <= Int32Max
    ensures PageOffset(page, pageSize) == (page - 1) * pageSize
  {
    assert Wrap32(page - 1) == page - 1;
  }

  /** The offset of the next page is one page further on. */
  lemma NextOffset(page: int, pageSize: int)
    requires 1 <= page && 0 <= pageSize
    ensures 0 <= (page - 1) * pageSize <= page * pageSize
    ensures page * pageSize == (page - 1) * pageSize + pageSize
  {
    assert page * pageSize == (page - 1) * pageSize + 1 * pageSize;
    assert (page - 1) * pageSize >= 0 * pageSize;
  }

  /** Without overflow, pages `page` and `page + 1` of `s` together form the
      run of `2 * pageSize` elements starting at `(page - 1) * pageSize`. */
  lemma ConsecutiveOffsets<T>(s: seq<T>, page: int32, pageSize: int32)
    requires 1 <= page && 0 <= pageSize
    requires page + 1 <= Int32Max && page * pageSize <= Int32Max
    ensures Page(s, PageOffset(page, pageSize), pageSize)
              + Page(s, PageOffset((page + 1) as int32, pageSize), pageSize)
            == Page(s, (page - 1) * pageSize, 2 * pageSize)
  {
    var lo := (page - 1) * pageSize;
    var next := (page + 1) as int32;
    NextOffset(page, pageSize);
    assert (next - 1) * pageSize == lo + pageSize by {
      assert next - 1 == page;
    }
    PageOffsetExact(page, pageSize);
    PageOffsetExact(next, pageSize);
    PageSplit(s, lo, pageSize);
  }

  // ---------------------------------------------------------------------------
  // Duplicates
  // ---------------------------------------------------------------------------

  /** No value occurs twice in `s`. */
  predicate NoDuplicates<T(==)>(s: seq<T>)
  {
    forall i, j :: 0 <= i < j < |s| ==> s[i] != s[j]
  }

  // ---------------------------------------------------------------------------
  // Removing a row
  // ---------------------------------------------------------------------------

  /** `s` without its element at position `k`. */
  function RemoveAt<T>(s: seq<T>, k: nat): (r: seq<T>)
    requires k < |s|
    ensures |r| == |s| - 1
    ensures forall i :: 0 <= i < k ==> r[i] == s[i]
    ensures forall i :: k <= i < |r| ==> r[i] == s[i + 1]
  {
    s[..k] + s[k + 1..]
  }

  /** What removal keeps: every other element, and nothing new. */
  lemma RemoveAtMembers<T>(s: seq<T>, k: nat)
    requires k < |s|
    ensures forall x :: x in RemoveAt(s, k) ==> x in s
    ensures forall i :: 0 <= i < |s| && i != k ==> s[i] in RemoveAt(s, k)
  {
    var r := RemoveAt(s, k);
    forall x | x in r
      ensures x in s
    {
      var i :| 0 <= i < |r| && r[i] == x;
      if i < k { assert s[i] == x; } else { assert s[i + 1] == x; }
    }
    forall i | 0 <= i < |s| && i != k
      ensures s[i] in r
    {
      if i < k { assert r[i] == s[i]; } else { assert r[i - 1] == s[i]; }
    }
  }
}

=== FILE: text.dfy ===
/** Text primitives the business rules rely on: ASCII case folding (the
    model of `ToLower`, `ToLowerInvariant` and `OrdinalIgnoreCase`),
    `Trim`, `EndsWith(..., OrdinalIgnoreCase)`, decimal rendering of an
    `int` (string interpolation) and `int.TryParse`. */
module Text {
  import opened Wrappers
  import Sequences

  // ---------------------------------------------------------------------------
  // Case folding
  // ---------------------------------------------------------------------------

  function LowerChar(c: char): char
  {
    if 'A' <= c <= 'Z' then (c as int - 'A' as int + 'a' as int) as char else c
  }

  /** ASCII lower-casing, character by character. */
  function Lower(s: string): (r: string)
    ensures |r| == |s|
    ensures forall i :: 0 <= i < |s| ==> r[i] == LowerChar(s[i])
  {
    if |s| == 0 then [] else [LowerChar(s[0])] + Lower(s[1..])
  }

  /** Lower-casing is idempotent, so folded text compares equal to itself
      folded again. */
  lemma LowerIdempotent(s: string)
    ensures Lower(Lower(s)) == Lower(s)
  {
  }

  predicate EqualsIgnoreCase(a: string, b: string)
  {
    Lower(a) == Lower(b)
  }

  /** `s.EndsWith(suffix, StringComparison.OrdinalIgnoreCase)`. */
  predicate EndsWithIgnoreCase(s: string, suffix: string)
  {
    |suffix| <= |s| && EqualsIgnoreCase(s[|s| - |suffix|..], suffix)
  }

  // ---------------------------------------------------------------------------
  // Trim
  // ---------------------------------------------------------------------------

  /** The white-space characters `string.Trim()` removes (the ASCII ones,
      NEXT LINE and NO-BREAK SPACE). */
  predicate IsWhiteSpace(c: char)
  {
    c == ' ' || c == '\t' || c == '\n' || c == '\r' || c == '\U{000B}' || c == '\U{000C}'
    || c == '\U{0085}' || c == '\U{00A0}'
  }

  function TrimStart(s: string): (r: string)
    ensures |r| <= |s| && r == s[|s| - |r|..]
    ensures |r| > 0 ==> !IsWhiteSpace(r[0])
    ensures forall i :: 0 <= i < |s| - |r| ==> IsWhiteSpace(s[i])
  {
    if |s| > 0 && IsWhiteSpace(s[0]) then TrimStart(s[1..]) else s
  }

  function TrimEnd(s: string): (r: string)
    ensures |r| <= |s| && r == s[..|r|]
    ensures |r| > 0 ==> !IsWhiteSpace(r[|r| - 1])
    ensures forall i :: |r| <= i < |s| ==> IsWhiteSpace(s[i])
  {
    if |s| > 0 && IsWhiteSpace(s[|s| - 1]) then TrimEnd(s[..|s| - 1]) else s
  }

  /** `string.Trim()`: the longest infix without white space at either end. */
  function Trim(s: string): (r: string)
    ensures |r| <= |s|
    ensures |r| > 0 ==> !IsWhiteSpace(r[0]) && !IsWhiteSpace(r[|r| - 1])
    ensures WhiteBoundedInfix(s, r)
  {
    var front := TrimStart(s);
    var r := TrimEnd(front);
    TwoCutsBoundRun(s, front, r);
    r
  }

  /** `r` is a run of `s` with nothing but white space before and after it. */
  ghost predicate WhiteBoundedInfix(s: string, r: string)
  {
    exists lo, hi :: 0 <= lo <= hi <= |s| && r == s[lo..hi]
      && (forall k :: 0 <= k < lo || hi <= k < |s| ==> IsWhiteSpace(s[k]))
  }

  /** Cutting white space off the front of `s` and then off the back of
      what remains leaves a white-space-bounded run of `s`. */
  lemma TwoCutsBoundRun(s: string, front: string, r: string)
    requires |front| <= |s| && front == s[|s| - |front|..]
    requires forall k :: 0 <= k < |s| - |front| ==> IsWhiteSpace(s[k])
    requires |r| <= |front| && r == front[..|r|]
    requires forall k :: |r| <= k < |front| ==> IsWhiteSpace(front[k])
    ensures WhiteBoundedInfix(s, r)
  {
    var lo := |s| - |front|;
    var hi := lo + |r|;
    assert r == s[lo..hi];
    forall k | hi <= k < |s|
      ensures IsWhiteSpace(s[k])
    {
      assert s[k] == front[k - lo];
    }
  }

  /** Text without surrounding white space is left alone by `Trim`. */
  lemma TrimNoop(s: string)
    requires |s| > 0 ==> !IsWhiteSpace(s[0]) && !IsWhiteSpace(s[|s| - 1])
    ensures Trim(s) == s
  {
  }

  /** Trimming twice is trimming once. */
  lemma TrimIdempotent(s: string)
    ensures Trim(Trim(s)) == Trim(s)
  {
    TrimNoop(Trim(s));
  }

  // ---------------------------------------------------------------------------
  // Decimal integers
  // ---------------------------------------------------------------------------

  predicate IsDigit(c: char) { '0' <= c <= '9' }

  predicate AllDigits(s: string)
  {
    forall i :: 0 <= i < |s| ==> IsDigit(s[i])
  }

  function DigitChar(d: int): char
    requires 0 <= d < 10
  {
    ('0' as int + d) as char
  }

  function DigitValue(c: char): int
    requires IsDigit(c)
  {
    c as int - '0' as int
  }

  /** Value of a string of decimal digits, most significant first. */
  function DigitsValue(s: string): (v: nat)
    requires AllDigits(s)
  {
    if |s| == 0 then 0 else 10 * DigitsValue(s[..|s| - 1]) + DigitValue(s[|s| - 1])
  }

  /** Shortest decimal rendering of a natural number. */
  function ShowNat(n: nat): (r: string)
    ensures |r| > 0 && AllDigits(r)
  {
    if n < 10 then [DigitChar(n)] else ShowNat(n / 10) + [DigitChar(n % 10)]
  }

  /** `n.ToString()` in the invariant culture, as string interpolation uses
      it: a minus sign for negative numbers, then the digits. */
  function ShowInt(n: int): (r: string)
    ensures |r| > 0
    ensures n >= 0 <==> IsDigit(r[0])
  {
    if n < 0 then "-" + ShowNat(-n) else ShowNat(n)
  }

  /** Reading back the digits of `ShowNat(n)` gives `n`. */
  lemma {:induction false} ShowNatValue(n: nat)
    ensures DigitsValue(ShowNat(n)) == n
  {
    if n >= 10 {
      var s := ShowNat(n);
      assert s[..|s| - 1] == ShowNat(n / 10);
      ShowNatValue(n / 10);
    }
  }

  /** Distinct integers render as distinct strings. */
  lemma ShowIntInjective(a: int, b: int)
    requires ShowInt(a) == ShowInt(b)
    ensures a == b
  {
    if a < 0 {
      assert b < 0;
      SignDropped(ShowNat(-a), ShowNat(-b));
      ShowNatInjective(-a, -b);
    } else {
      ShowNatInjective(a, b);
    }
  }

  lemma ShowNatInjective(x: nat, y: nat)
    requires ShowNat(x) == ShowNat(y)
    ensures x == y
  {
    ShowNatValue(x);
    ShowNatValue(y);
  }

  lemma SignDropped(x: string, y: string)
    requires "-" + x == "-" + y
    ensures x == y
  {
    assert x == ("-" + x)[1..];
  }

  /** The white space `int.TryParse` tolerates around the number. */
  predicate IsParseWhite(c: char)
  {
    c == ' ' || c == '\t' || c == '\n' || c == '\r' || c == '\U{000B}' || c == '\U{000C}'
  }

  function StripParseWhite(s: string): (r: string)
    ensures |r| <= |s|
    ensures |r| > 0 ==> !IsParseWhite(r[0]) && !IsParseWhite(r[|r| - 1])
  {
    if |s| > 0 && IsParseWhite(s[0]) then StripParseWhite(s[1..])
    else if |s| > 0 && IsParseWhite(s[|s| - 1]) then StripParseWhite(s[..|s| - 1])
    else s
  }

  /** A decimal numeral in the default integer style: an optional leading
      sign, then one or more decimal digits. */
  predicate IsNumeral(t: string)
  {
    && |t| > 0
    && (IsDigit(t[0]) || ((t[0] == '-' || t[0] == '+') && |t| > 1))
    && (forall k :: 1 <= k < |t| ==> IsDigit(t[k]))
  }

  /** The value a numeral denotes. */
  function NumeralValue(t: string): int
    requires IsNumeral(t)
  {
    if t[0] == '-' then 0 - DigitsValue(t[1..]) as int
    else if t[0] == '+' then DigitsValue(t[1..])
    else DigitsValue(t)
  }

  /** `int.TryParse(s, out v)` with the default integer style: optional
      surrounding white space, an optional sign, at least one decimal digit,
      and a value that fits in 32 bits. */
  function ParseInt32(s: string): (r: Option<int>)
    ensures r.Some? ==> Sequences.IsInt32(r.value)
    ensures StripParseWhite(s) == [] ==> r == None
    ensures r.Some? <==> IsNumeral(StripParseWhite(s)) && Sequences.IsInt32(NumeralValue(StripParseWhite(s)))
    ensures r.Some? ==> r.value == NumeralValue(StripParseWhite(s))
  {
    var t := StripParseWhite(s);
    if |t| == 0 then None
    else
      var negative := t[0] == '-';
      var digits := if t[0] == '-' || t[0] == '+' then t[1..] else t;
      if |digits| == 0 || !AllDigits(digits) then None
      else
        var magnitude: int := DigitsValue(digits);
        var v := if negative then 0 - magnitude else magnitude;
        if Sequences.IsInt32(v) then Some(v) else None
  }

  /** Every 32-bit integer survives a render-then-parse round trip. */
  lemma ParseShowRoundTrip(n: int)
    requires Sequences.IsInt32(n)
    ensures ParseInt32(ShowInt(n)) == Some(n)
  {
    var s := ShowInt(n);
    assert StripParseWhite(s) == s by {
      assert !IsParseWhite(s[0]);
      assert IsDigit(s[|s| - 1]) by {
        if n < 0 { assert s[|s| - 1] == ShowNat(-n)[|ShowNat(-n)| - 1]; }
      }
    }
    if n < 0 {
      assert s[1..] == ShowNat(-n);
      ShowNatValue(-n);
    } else {
      ShowNatValue(n);
    }
  }
}

=== FILE: user_repository.dfy ===
/** The user repository: user rows by key and by e-mail, creation with its
    department and role checks, the password-reset token kept on the user
    row, and the role and department administration. Deleting a row obeys
    the foreign keys of the database: rows that reference it either block the
    delete or go with it. */
module UserRepository {
  import opened Wrappers
  import opened Sequences
  import opened Entities
  import Text

  /** How long a reset token stays valid: five hours, in seconds. */
  const ResetWindow: int := 5 * 60 * 60

  const InvalidDepartment := Error(InvalidOperation, "Invalid department")
  const InvalidRole := Error(InvalidOperation, "Invalid role")

  /** Saving a new user row whose department or role does not exist. */
  const UserReferenceBroken := Error(DbUpdate, "The INSERT statement conflicted with the FOREIGN KEY constraint.")

  /** Saving a changed user row whose department or role does not exist. */
  const UserUpdateReferenceBroken := Error(DbUpdate, "The UPDATE statement conflicted with the FOREIGN KEY constraint.")

  /** Saving an update for a key the table does not hold affects no row. */
  const NoRowUpdated := Error(DbUpdate, "The database operation was expected to affect 1 row(s), but actually affected 0 row(s).")

  /** A delete refused by a restricting foreign key. */
  const ReferenceConflict := Error(DbUpdate, "The DELETE statement conflicted with the REFERENCE constraint.")

  // ---------------------------------------------------------------------------
  // Users
  // ---------------------------------------------------------------------------

  function HasEmail(email: string): User -> bool
  {
    (u: User) => u.email == email
  }

  /** Position of the first user with this e-mail. */
  function EmailIndex(s: Store, email: string): (r: Option<nat>)
    ensures r.Some? ==> r.value < |s.users| && s.users[r.value].email == email
    ensures r.Some? ==> forall i :: 0 <= i < r.value ==> s.users[i].email != email
    ensures r.None? <==> forall i :: 0 <= i < |s.users| ==> s.users[i].email != email
  {
    IndexOfFirst(s.users, HasEmail(email))
  }

  /** `GetByEmailAsync`: the first user with exactly this e-mail, or null. */
  function GetByEmail(s: Store, email: string): (r: Option<User>)
    ensures r.Some? ==> r.value in s.users && r.value.email == email
    ensures r.None? <==> forall i :: 0 <= i < |s.users| ==> s.users[i].email != email
  {
    match EmailIndex(s, email)
    case Some(k) => Some(s.users[k])
    case None => None
  }

  /** `ExistsByEmailAsync`. */
  predicate ExistsByEmail(s: Store, email: string)
  {
    exists i :: 0 <= i < |s.users| && s.users[i].email == email
  }

  /** The existence test and the lookup agree. */
  lemma ExistsByEmailAgrees(s: Store, email: string)
    ensures ExistsByEmail(s, email) <==> GetByEmail(s, email).Some?
  {
    if GetByEmail(s, email).Some? {
      var k := EmailIndex(s, email).value;
      assert s.users[k].email == email;
    }
  }

  /** User keys are distinct and below the identity seed. */
  ghost predicate UserKeysWellFormed(s: Store)
  {
    && UsersWellFormed(s)
    && s.next.user > 0
    && forall i :: 0 <= i < |s.users| ==> s.users[i].id < s.next.user
  }

  /** Every e-mail belongs to one user at most. Nothing in the database
      enforces this; it is what registration's duplicate check aims at. */
  ghost predicate EmailsUnique(s: Store)
  {
    forall i, j :: 0 <= i < j < |s.users| ==> s.users[i].email != s.users[j].email
  }

  /** With one user per e-mail, the e-mail lookup finds the only row that
      has it. */
  lemma EmailOwner(s: Store, email: string, i: nat)
    requires EmailsUnique(s)
    requires i < |s.users| && s.users[i].email == email
    ensures EmailIndex(s, email) == Some(i)
  {
    IndexOfFirstAt(s.users, HasEmail(email), i);
  }

  /** `CreateAsync`: the department is checked before the role; a user that
      passes both is stored under the next user key. */
  function Create(s: Store, u: User): (r: Result<(Store, User), Error>)
    ensures !DepartmentExists(s, u.departmentId) ==> r == Failure(InvalidDepartment)
    ensures DepartmentExists(s, u.departmentId) && !RoleExists(s, u.roleId) ==> r == Failure(InvalidRole)
    ensures r.Success? <==> DepartmentExists(s, u.departmentId) && RoleExists(s, u.roleId)
    ensures r.Success? ==> r.value.1 == u.(id := s.next.user)
    ensures r.Success? ==> r.value.0.users == s.users + [r.value.1]
    ensures r.Success? ==> r.value.0 == s.(users := r.value.0.users, next := s.next.(user := s.next.user + 1))
  {
    if !DepartmentExists(s, u.departmentId) then Failure(InvalidDepartment)
    else if !RoleExists(s, u.roleId) then Failure(InvalidRole)
    else
      var stored := u.(id := s.next.user);
      Success((s.(users := s.users + [stored], next := s.next.(user := s.next.user + 1)), stored))
  }

  /** The created user is found again by its key, and keys stay well formed. */
  lemma CreateThenFind(s: Store, u: User)
    requires UserKeysWellFormed(s)
    requires Create(s, u).Success?
    ensures UserKeysWellFormed(Create(s, u).value.0)
    ensures FindUser(Create(s, u).value.0, Create(s, u).value.1.id) == Some(Create(s, u).value.1)
  {
    var (s', stored) := Create(s, u).value;
    IndexOfFirstAt(s'.users, (x: User) => x.id == stored.id, |s.users|);
  }

  function KeyIs(id: int): User -> bool
  {
    (u: User) => u.id == id
  }

  /** `UpdateAsync`: the row with the user's key is replaced by the given
      user. Saving fails when no row has that key, and otherwise when the
      foreign keys refuse a department or role that does not exist. A user
      whose key is the unset 0 is tracked as new instead, so saving inserts
      it under the next key, which the same foreign keys refuse when either
      does not exist. */
  function Update(s: Store, u: User): (r: Result<Store, Error>)
    ensures u.id == 0 ==> (r.Success? <==> DepartmentExists(s, u.departmentId) && RoleExists(s, u.roleId))
    ensures u.id == 0 && r.Failure? ==> r.error == UserReferenceBroken
    ensures u.id == 0 && r.Success? ==>
              r.value == s.(users := s.users + [u.(id := s.next.user)], next := s.next.(user := s.next.user + 1))
    ensures u.id != 0 ==>
              (r.Failure? <==> || (forall i :: 0 <= i < |s.users| ==> s.users[i].id != u.id)
                               || !DepartmentExists(s, u.departmentId)
                               || !RoleExists(s, u.roleId))
    ensures u.id != 0 && (forall i :: 0 <= i < |s.users| ==> s.users[i].id != u.id) ==> r == Failure(NoRowUpdated)
    ensures u.id != 0 && (exists i :: 0 <= i < |s.users| && s.users[i].id == u.id) && r.Failure? ==>
              r.error == UserUpdateReferenceBroken
    ensures u.id != 0 && r.Success? ==>
              var k := IndexOfFirst(s.users, KeyIs(u.id)).value;
              && r.value == s.(users := s.users[k := u])
              && s.users[k].id == u.id
  {
    if u.id == 0 then
      if DepartmentExists(s, u.departmentId) && RoleExists(s, u.roleId)
      then Success(s.(users := s.users + [u.(id := s.next.user)], next := s.next.(user := s.next.user + 1)))
      else Failure(UserReferenceBroken)
    else match IndexOfFirst(s.users, KeyIs(u.id))
      case None => Failure(NoRowUpdated)
      case Some(k) =>
        if DepartmentExists(s, u.departmentId) && RoleExists(s, u.roleId)
        then Success(s.(users := s.users[k := u]))
        else Failure(UserUpdateReferenceBroken)
  }

  /** Updating a user with the unset key stores what creating it would,
      and fails exactly where creating it would. */
  lemma UpdateUnsetKeyIsCreate(s: Store, u: User)
    requires u.id == 0
    ensures Update(s, u).Success? <==> Create(s, u).Success?
    ensures Update(s, u).Success? ==> Update(s, u).value == Create(s, u).value.0
  {
  }

  /** With well-formed keys, updating a stored user's row to a department
      and role that exist succeeds and changes exactly that row. */
  lemma UpdateStoredRow(s: Store, k: nat, u: User)
    requires UsersWellFormed(s)
    requires k < |s.users| && u.id == s.users[k].id
    requires DepartmentExists(s, u.departmentId) && RoleExists(s, u.roleId)
    ensures Update(s, u) == Success(s.(users := s.users[k := u]))
  {
    IndexOfFirstAt(s.users, KeyIs(u.id), k);
  }

  /** Rows that block deleting a user: messages the user sent and
      publications the user wrote or approved. */
  predicate UserReferenced(s: Store, id: int)
  {
    || (exists i :: 0 <= i < |s.messages| && s.messages[i].senderId == id)
    || (exists i :: 0 <= i < |s.publications| && s.publications[i].authorId == id)
    || (exists i :: 0 <= i < |s.publications| && s.publications[i].approvedById == Some(id))
  }

  function LeaveChat(c: Chat, userId: int): Chat
  {
    c.(participants := Filter(c.participants, (p: Participant) => p.userId != userId))
  }

  /** `DeleteAsync`: an unknown key changes nothing. Otherwise a user still
      referenced by a message or a publication cannot be deleted; a user
      who can is removed together with their comments, reactions and chat
      memberships. */
  function DeleteUser(s: Store, id: int): (r: Result<Store, Error>)
    ensures FindUser(s, id).None? ==> r == Success(s)
    ensures r.Failure? <==> FindUser(s, id).Some? && UserReferenced(s, id)
    ensures r.Failure? ==> r.error == ReferenceConflict
    ensures r.Success? && FindUser(s, id).Some? ==>
              && r.value.users == RemoveAt(s.users, IndexOfFirst(s.users, KeyIs(id)).value)
              && (forall c :: c in r.value.comments <==> c in s.comments && c.userId != id)
              && (forall x :: x in r.value.reactions <==> x in s.reactions && x.userId != id)
              && |r.value.chats| == |s.chats|
              && (forall i :: 0 <= i < |s.chats| ==> !IsParticipant(r.value.chats[i], id))
              && r.value == s.(users := r.value.users, comments := r.value.comments,
                               reactions := r.value.reactions, chats := r.value.chats)
  {
    match IndexOfFirst(s.users, KeyIs(id))
    case None =>
      assert FindUser(s, id).None?;
      Success(s)
    case Some(k) =>
      assert s.users[k].id == id;
      if UserReferenced(s, id) then Failure(ReferenceConflict)
      else
        var chats := Map(s.chats, (c: Chat) => LeaveChat(c, id));
        assert forall i :: 0 <= i < |s.chats| ==> !IsParticipant(chats[i], id) by {
          forall i | 0 <= i < |s.chats|
            ensures !IsParticipant(chats[i], id)
          {
            var ps := chats[i].participants;
            assert forall j :: 0 <= j < |ps| ==> ps[j].userId != id;
          }
        }
        Success(s.(users := RemoveAt(s.users, k),
                   comments := Filter(s.comments, (c: Comment) => c.userId != id),
                   reactions := Filter(s.reactions, (x: Reaction) => x.userId != id),
                   chats := chats))
  }

  /** After a delete, the key no longer finds a user, when keys are
      distinct. */
  lemma DeleteUserRemoves(s: Store, id: int)
    requires UsersWellFormed(s)
    requires DeleteUser(s, id).Success?
    ensures FindUser(DeleteUser(s, id).value, id).None?
  {
    if FindUser(s, id).Some? {
      var k := IndexOfFirst(s.users, KeyIs(id)).value;
      var users := DeleteUser(s, id).value.users;
      forall i | 0 <= i < |users|
        ensures users[i].id != id
      {
        if i < k {
          assert users[i] == s.users[i];
        } else {
          assert users[i] == s.users[i + 1];
        }
      }
    }
  }

  // ---------------------------------------------------------------------------
  // Password reset
  // ---------------------------------------------------------------------------

  /** `StoreResetTokenAsync`: the first user with the e-mail gets the token
      and an expiry five hours after `now`; an unknown e-mail changes
      nothing. */
  function StoreResetToken(s: Store, email: string, token: string, now: int): (r: Store)
    ensures EmailIndex(s, email).None? ==> r == s
    ensures EmailIndex(s, email).Some? ==>
              var k := EmailIndex(s, email).value;
              && r.users == s.users[k := s.users[k].(resetToken := Some(token), resetTokenExpiry := Some(now + ResetWindow))]
              && r == s.(users := r.users)
  {
    match EmailIndex(s, email)
    case None => s
    case Some(k) => WithToken(s, k, token, now)
  }

  /** The store after a token is put on row `k`. */
  function WithToken(s: Store, k: nat, token: string, now: int): Store
    requires k < |s.users|
  {
    s.(users := s.users[k := s.users[k].(resetToken := Some(token), resetTokenExpiry := Some(now + ResetWindow))])
  }

  /** Putting a token on a row keeps the user keys well formed. */
  lemma WithTokenKeys(s: Store, k: nat, token: string, now: int)
    requires k < |s.users| && UsersWellFormed(s)
    ensures UsersWellFormed(WithToken(s, k, token, now))
  {
    UserKeysFrame(s, WithToken(s, k, token, now));
  }

  /** Putting a token on a row keeps every department and role reference. */
  lemma WithTokenReferences(s: Store, k: nat, token: string, now: int)
    requires k < |s.users| && UserReferencesExist(s)
    ensures UserReferencesExist(WithToken(s, k, token, now))
  {
    UserReferencesFrame(s, WithToken(s, k, token, now));
  }

  /** The e-mail still finds the row that now holds the token. */
  lemma WithTokenFound(s: Store, k: nat, email: string, token: string, now: int)
    requires EmailIndex(s, email) == Some(k)
    ensures EmailIndex(WithToken(s, k, token, now), email) == Some(k)
    ensures WithToken(s, k, token, now).users[k].resetToken == Some(token)
    ensures WithToken(s, k, token, now).users[k].resetTokenExpiry == Some(now + ResetWindow)
  {
    IndexOfFirstAt(WithToken(s, k, token, now).users, HasEmail(email), k);
  }

  /** The row holds this token and it expires strictly after `now`. */
  predicate TokenValid(u: User, email: string, token: string, now: int)
  {
    u.email == email && u.resetToken == Some(token) && u.resetTokenExpiry.Some? && u.resetTokenExpiry.value > now
  }

  /** `ValidateResetTokenAsync`: some user has the e-mail, the token, and an
      expiry later than `now`. */
  predicate ValidateResetToken(s: Store, email: string, token: string, now: int)
  {
    exists i :: 0 <= i < |s.users| && TokenValid(s.users[i], email, token, now)
  }

  /** A stored token validates at any time before its expiry. With one user
      per e-mail it validates exactly until then. */
  lemma StoredTokenValidates(s: Store, email: string, token: string, now: int, at: int)
    requires EmailIndex(s, email).Some?
    ensures at < now + ResetWindow ==> ValidateResetToken(StoreResetToken(s, email, token, now), email, token, at)
    ensures EmailsUnique(s) ==>
              (ValidateResetToken(StoreResetToken(s, email, token, now), email, token, at) <==> at < now + ResetWindow)
  {
    var k := EmailIndex(s, email).value;
    var s' := StoreResetToken(s, email, token, now);
    assert s'.users[k].email == email;
    if at < now + ResetWindow {
      assert TokenValid(s'.users[k], email, token, at);
    }
    if EmailsUnique(s) && ValidateResetToken(s', email, token, at) {
      var i :| 0 <= i < |s'.users| && TokenValid(s'.users[i], email, token, at);
      assert s.users[i].email == email;
      EmailOwner(s, email, i);
    }
  }

  /** `UpdatePasswordAsync`: the first user with the e-mail gets the hash of
      the new password and loses the token and its expiry; an unknown
      e-mail changes nothing. */
  function UpdatePassword(s: Store, email: string, newPassword: string, hash: string -> string): (r: Store)
    ensures EmailIndex(s, email).None? ==> r == s
    ensures EmailIndex(s, email).Some? ==>
              var k := EmailIndex(s, email).value;
              && r.users == s.users[k := s.users[k].(passwordHash := hash(newPassword), resetToken := None, resetTokenExpiry := None)]
              && r == s.(users := r.users)
  {
    match EmailIndex(s, email)
    case None => s
    case Some(k) =>
      s.(users := s.users[k := s.users[k].(passwordHash := hash(newPassword), resetToken := None, resetTokenExpiry := None)])
  }

  /** With one user per e-mail, no token validates for that e-mail after the
      password is updated. */
  lemma UpdatePasswordConsumesToken(s: Store, email: string, newPassword: string, hash: string -> string, token: string, at: int)
    requires EmailsUnique(s)
    requires EmailIndex(s, email).Some?
    ensures !ValidateResetToken(UpdatePassword(s, email, newPassword, hash), email, token, at)
  {
    var k := EmailIndex(s, email).value;
    var s' := UpdatePassword(s, email, newPassword, hash);
    forall i | 0 <= i < |s'.users|
      ensures !TokenValid(s'.users[i], email, token, at)
    {
      if s.users[i].email == email {
        EmailOwner(s, email, i);
      }
    }
  }

  // ---------------------------------------------------------------------------
  // Roles
  // ---------------------------------------------------------------------------

  /** Role keys are distinct and below the identity seed. */
  ghost predicate RolesWellFormed(s: Store)
  {
    && (forall i :: 0 <= i < |s.roles| ==> s.roles[i].id < s.next.role)
    && (forall i, j :: 0 <= i < j < |s.roles| ==> s.roles[i].id != s.roles[j].id)
  }

  /** `RoleNameExistsAsync`: some role has this name, ignoring case. */
  predicate RoleNameExists(s: Store, name: string)
  {
    exists i :: 0 <= i < |s.roles| && Text.Lower(s.roles[i].name) == Text.Lower(name)
  }

  /** `AddRoleAsync`: a role with the name, under the next role key. */
  function AddRole(s: Store, name: string): (r: (Store, Role))
    ensures r.1 == Role(s.next.role, name)
    ensures r.0.roles == s.roles + [r.1]
    ensures r.0 == s.(roles := r.0.roles, next := s.next.(role := s.next.role + 1))
  {
    var role := Role(s.next.role, name);
    (s.(roles := s.roles + [role], next := s.next.(role := s.next.role + 1)), role)
  }

  /** A role just added is found by its key, and its name then exists in any
      letter case. */
  lemma AddRoleThenFind(s: Store, name: string, spelled: string)
    requires RolesWellFormed(s)
    requires Text.Lower(spelled) == Text.Lower(name)
    ensures RolesWellFormed(AddRole(s, name).0)
    ensures FindRole(AddRole(s, name).0, AddRole(s, name).1.id) == Some(AddRole(s, name).1)
    ensures RoleNameExists(AddRole(s, name).0, spelled)
  {
    var (s', role) := AddRole(s, name);
    IndexOfFirstAt(s'.roles, (x: Role) => x.id == role.id, |s.roles|);
    assert s'.roles[|s.roles|] == role;
  }

  /** `UpdateRoleAsync`: null for an unknown key; otherwise only the name of
      that role changes. */
  function UpdateRole(s: Store, id: int, name: string): (r: (Store, Option<Role>))
    ensures r.1.None? <==> FindRole(s, id).None?
    ensures r.1.None? ==> r.0 == s
    ensures r.1.Some? ==> r.1.value == Role(id, name)
    ensures r.1.Some? ==> r.0 == s.(roles := r.0.roles) && |r.0.roles| == |s.roles|
    ensures r.1.Some? ==> FindRole(r.0, id) == r.1
    ensures forall i :: 0 <= i < |s.roles| && s.roles[i].id != id ==> r.0.roles[i] == s.roles[i]
  {
    match IndexOfFirst(s.roles, (x: Role) => x.id == id)
    case None => (s, None)
    case Some(k) =>
      var role := s.roles[k].(name := name);
      var roles := s.roles[k := role];
      IndexOfFirstAt(roles, (x: Role) => x.id == id, k);
      (s.(roles := roles), Some(role))
  }

  /** `DeleteRoleAsync`: false for an unknown key. A role some user still
      holds cannot be deleted; otherwise the role row goes. */
  function DeleteRole(s: Store, id: int): (r: Result<(Store, bool), Error>)
    ensures FindRole(s, id).None? ==> r == Success((s, false))
    ensures r.Failure? <==> FindRole(s, id).Some? && exists i :: 0 <= i < |s.users| && s.users[i].roleId == id
    ensures r.Failure? ==> r.error == ReferenceConflict
    ensures r.Success? && FindRole(s, id).Some? ==>
              && r.value.1
              && r.value.0 == s.(roles := RemoveAt(s.roles, IndexOfFirst(s.roles, (x: Role) => x.id == id).value))
  {
    match IndexOfFirst(s.roles, (x: Role) => x.id == id)
    case None => Success((s, false))
    case Some(k) =>
      if exists i :: 0 <= i < |s.users| && s.users[i].roleId == id then Failure(ReferenceConflict)
      else Success((s.(roles := RemoveAt(s.roles, k)), true))
  }

  // ---------------------------------------------------------------------------
  // Departments
  // ---------------------------------------------------------------------------

  const DefaultDepartmentName := "Default"

  /** `DepartmentNameExistsAsync`: some department has this name, ignoring
      case. */
  predicate DepartmentNameExists(s: Store, name: string)
  {
    exists i :: 0 <= i < |s.departments| && Text.Lower(s.departments[i].name) == Text.Lower(name)
  }

  /** The name checks read their argument only up to letter case. */
  lemma NameChecksIgnoreCase(s: Store, a: string, b: string)
    requires Text.Lower(a) == Text.Lower(b)
    ensures RoleNameExists(s, a) <==> RoleNameExists(s, b)
    ensures DepartmentNameExists(s, a) <==> DepartmentNameExists(s, b)
  {
  }

  /** `AddDepartmentAsync`: a department with the name, under the next
      department key. */
  function AddDepartment(s: Store, name: string): (r: (Store, Department))
    ensures r.1 == Department(s.next.department, name)
    ensures r.0.departments == s.departments + [r.1]
    ensures r.0 == s.(departments := r.0.departments, next := s.next.(department := s.next.department + 1))
  {
    var d := Department(s.next.department, name);
    (s.(departments := s.departments + [d], next := s.next.(department := s.next.department + 1)), d)
  }

  /** `EnsureDefaultDepartmentExists`: adds the "Default" department when,
      and only when, there is no department at all. */
  function EnsureDefaultDepartment(s: Store): (r: Store)
    ensures |s.departments| > 0 ==> r == s
    ensures |s.departments| == 0 ==> r.departments == [Department(s.next.department, DefaultDepartmentName)]
    ensures |r.departments| > 0
    ensures r == s.(departments := r.departments, next := r.next)
  {
    if |s.departments| == 0 then AddDepartment(s, DefaultDepartmentName).0 else s
  }

  /** Ensuring the default twice is ensuring it once. */
  lemma EnsureDefaultIdempotent(s: Store)
    ensures EnsureDefaultDepartment(EnsureDefaultDepartment(s)) == EnsureDefaultDepartment(s)
  {
  }

  /** `UpdateDepartmentAsync`: null for an unknown key; otherwise only the
      name of that department changes. */
  function UpdateDepartment(s: Store, id: int, name: string): (r: (Store, Option<Department>))
    ensures r.1.None? <==> FindDepartment(s, id).None?
    ensures r.1.None? ==> r.0 == s
    ensures r.1.Some? ==> r.1.value == Department(id, name)
    ensures r.1.Some? ==> r.0 == s.(departments := r.0.departments) && |r.0.departments| == |s.departments|
    ensures r.1.Some? ==> FindDepartment(r.0, id) == r.1
    ensures forall i :: 0 <= i < |s.departments| && s.departments[i].id != id ==> r.0.departments[i] == s.departments[i]
  {
    match IndexOfFirst(s.departments, (d: Department) => d.id == id)
    case None => (s, None)
    case Some(k) =>
      var d := s.departments[k].(name := name);
      var departments := s.departments[k := d];
      IndexOfFirstAt(departments, (x: Department) => x.id == id, k);
      (s.(departments := departments), Some(d))
  }

  function DetachDepartment(c: Chat, id: int): Chat
  {
    if c.departmentId == Some(id) then c.(departmentId := None) else c
  }

  /** `DeleteDepartmentAsync`: false for an unknown key. A department with
      users cannot be deleted; otherwise the row goes and the chats that
      pointed at it lose their department. */
  function DeleteDepartment(s: Store, id: int): (r: Result<(Store, bool), Error>)
    ensures FindDepartment(s, id).None? ==> r == Success((s, false))
    ensures r.Failure? <==> FindDepartment(s, id).Some? && exists i :: 0 <= i < |s.users| && s.users[i].departmentId == id
    ensures r.Failure? ==> r.error == ReferenceConflict
    ensures r.Success? && FindDepartment(s, id).Some? ==>
              && r.value.1
              && r.value.0.departments == RemoveAt(s.departments, IndexOfFirst(s.departments, (d: Department) => d.id == id).value)
              && |r.value.0.chats| == |s.chats|
              && (forall i :: 0 <= i < |s.chats| ==> r.value.0.chats[i].departmentId != Some(id))
              && (forall i :: 0 <= i < |s.chats| && s.chats[i].departmentId != Some(id) ==> r.value.0.chats[i] == s.chats[i])
              && r.value.0 == s.(departments := r.value.0.departments, chats := r.value.0.chats)
  {
    match IndexOfFirst(s.departments, (d: Department) => d.id == id)
    case None => Success((s, false))
    case Some(k) =>
      if exists i :: 0 <= i < |s.users| && s.users[i].departmentId == id then Failure(ReferenceConflict)
      else
        Success((s.(departments := RemoveAt(s.departments, k),
                    chats := Map(s.chats, (c: Chat) => DetachDepartment(c, id))), true))
  }
}

=== FILE: wrappers.dfy ===
/** Failure-compatible wrappers shared by every module of the model:
    `Option` stands for a nullable reference, `Result` for a call that either
    returns a value or throws. */
module Wrappers {

  datatype Option<+T> = None | Some(value: T) {
    predicate IsFailure() { None? }

    function PropagateFailure<U>(): Option<U>
      requires None?
    {
      None
    }

    function Extract(): T
      requires Some?
    {
      value
    }

    function GetOr(default: T): T {
      match this
      case Some(v) => v
      case None => default
    }
  }

  datatype Result<+R, +E> = Success(value: R) | Failure(error: E) {
    predicate IsFailure() { Failure? }

    function PropagateFailure<U>(): Result<U, E>
      requires Failure?
    {
      Failure(error)
    }

    function Extract(): R
      requires Success?
    {
      value
    }
  }
}
